=== FILE: README.md ===
# cursed-mav core, modelled in Dafny

cursed-mav is a ground-control station for ArduPilot vehicles. A Tauri
(Rust) backend talks MAVLink to the vehicle. A React front end shows the
connection, the raw message log, the parameter table and a mission
planner. This project models the parts of both halves that hold the
program's logic, and proves properties of them:

- `ParameterMeta`: the autopilot parameter catalog. It covers the value
  check (`Parameter::validate_value`) and the catalog reader
  (`parse_parameters`), written as a fold over the XML reader's events.
- `MavState`: the backend's shared state (`MavConnState`).
- `ParamId`: the 16-byte, NUL-padded `param_id` field of `PARAM_SET`, and
  how the front end decodes it back into a name.
- `CmdConnect`: the backend commands.
  - `connect_to_mav` with its thirty tries, its bootstrap messages and
    the updates it reports.
  - `set_parameters`, `get_parameter_info` and `get_all_parameters`.
  - The forwarding loop `recv_messages`.
- `ConnectionPanel`: the connection panel. It covers the connection
  string, the five-entry history, the status driven by the backend's
  updates, and the settings restored at start-up.
- `RawLogs`: the raw message log, bounded to 2000 entries, and its
  one-line preview.
- `MessageRouting` and `DroneStore`: the web front end's message routing
  (`parseWebMessage`) and its topic store.
- `MetadataCache`: the 1000-entry least-recently-used cache of parameter
  descriptions.
- `ParamsView`: the parameter editor. It covers the batched description
  queue, the upsert on `PARAM_VALUE`, the freshness indicator, the
  client-side value check, and the edit, reset and write actions.
- `MissionPlanner`: the mission planner's command table, its list edits
  and the line segments drawn between consecutive commands.
- Support modules:
  - `Text`: Rust and JavaScript string operations.
  - `Numbers`: `u32` and `f64` parsing and the release-build shift.
  - `Wrappers`: `Option` and `Result`.
  - `SeqFacts`: two sequence identities.

Things outside the program become inputs. Each command returns the log of
its observable effects (events emitted, messages sent, tasks started,
sleeps) together with the new state and its result. These inputs are:

- the MAVLink link's open, send and receive outcomes;
- clock readings;
- browser storage contents;
- the XML tokenizer's events.

Floating-point numbers are modelled as reals.

Three behaviours of the code that a reader may not expect:

- A failed stream-rate request is reported to the front end as `failed`,
  but `connect_to_mav` still stores the link and returns `Ok`. The panel
  therefore ends up showing "Not Connected" over a live link
  (`ConnectionPanel.StreamFailureShowsNotConnected`).
- The bitmask check bounds the value by `1 << max_code`, the largest
  single flag, not by the union of all flags. The Rust shift is masked to
  five bits.
- `get_all_parameters` exists but is not registered as a Tauri command,
  so the front end's bulk load always fails. `ParamsView.LoadAll` models
  both outcomes.

## Model

Paths are relative to the repository root.

| member | source | states |
|---|---|---|
| Text.RemoveAll | cursed-mav-tauri/src-tauri/src/parameter_meta.rs:94 | `replace(pat, "")` returns the string unchanged exactly when the pattern does not occur in it, and a strictly shorter string otherwise |
| Text.RemoveAllLeading | cursed-mav-tauri/src-tauri/src/parameter_meta.rs:93-94 | stripping the `ArduCopter:` namespace from namespace+name gives back the name, when the name cannot complete another occurrence |
| Text.RemoveChar | cursed-mav-tauri/src/data/message.ts:36 | after removing every NUL, no NUL is left and the string is no longer |
| Text.RemoveCharAppend | cursed-mav-tauri/src/data/message.ts:36 | removing NULs distributes over concatenation |
| Text.RemoveCharAbsent | cursed-mav-tauri/src/data/message.ts:36 | a name without NUL is kept as is |
| Text.RemoveCharOnly | cursed-mav-tauri/src/data/message.ts:36 | NUL padding alone decodes to the empty name |
| Text.SplitOnce | cursed-mav-tauri/src-tauri/src/parameter_meta.rs:159 | `split_once(':')` fails exactly when there is no colon; otherwise the input is head + ':' + tail, with the head free of colons (first occurrence) |
| Text.SplitOnceAt | cursed-mav-tauri/src-tauri/src/parameter_meta.rs:159 | splitting a + ':' + b, where a has no colon, gives back (a, b) |
| Text.Trim | cursed-mav-tauri/src-tauri/src/parameter_meta.rs:160-163 | `trim` gives a string with no whitespace at either end, cut out of the input between two runs of whitespace |
| Text.TrimOfTrimmed | cursed-mav-tauri/src-tauri/src/parameter_meta.rs:163 | trimming a string that is already trimmed changes nothing |
| Text.TrimIdempotent | cursed-mav-tauri/src-tauri/src/parameter_meta.rs:163 | trimming twice is trimming once |
| Text.SplitWhitespace | cursed-mav-tauri/src-tauri/src/parameter_meta.rs:127 | `split_whitespace` yields only non-empty tokens without whitespace |
| Text.SplitWhitespaceSkips | cursed-mav-tauri/src-tauri/src/parameter_meta.rs:127 | leading whitespace does not change the tokens |
| Text.SplitJoinRoundTrip | cursed-mav-tauri/src-tauri/src/parameter_meta.rs:127 | tokens joined by single spaces split back into the same tokens |
| Text.NatToStringRoundTrip | cursed-mav-tauri/src-tauri/src/cmd_connect.rs:149 | the decimal rendering of a number reads back as that number |
| Text.Pad2 | cursed-mav-tauri/src/data/message.ts:20-22 | `padStart(2, '0')` of a number below 100 gives exactly two digits |
| Text.Pad2Value | cursed-mav-tauri/src/data/message.ts:20-22 | the padded digits read back as the number |
| Text.ToLowerAscii | cursed-mav-tauri/src/data/message.ts:34 | lower-casing keeps the length and maps every character through the ASCII case map |
| Text.EncodeChar | cursed-mav-tauri/src-tauri/src/cmd_connect.rs:234 | a scalar encodes to 1-4 UTF-8 bytes; to one byte equal to its code exactly when it is ASCII; to bytes all at least 128 otherwise |
| Text.Utf8Encode | cursed-mav-tauri/src-tauri/src/cmd_connect.rs:234 | `as_bytes` gives at least one byte per character, and exactly one per character if and only if the name is ASCII |
| Text.Utf8EncodeAppend | cursed-mav-tauri/src-tauri/src/cmd_connect.rs:234 | the bytes of a concatenation are the bytes of each part, in order |
| Text.Utf8EncodeAscii | cursed-mav-tauri/src-tauri/src/cmd_connect.rs:234 | an ASCII name's UTF-8 bytes are its character codes, one per character |
| Numbers.ShiftLeftOne | cursed-mav-tauri/src-tauri/src/parameter_meta.rs:49 | `1 << n` in a release build is 2 to the power (n mod 32), always a `u32` |
| Numbers.ParseU32 | cursed-mav-tauri/src-tauri/src/parameter_meta.rs:46 | `parse::<u32>` accepts only strings made of digits with at most a leading `+`, and with at least one digit |
| Numbers.ParseU32RoundTrip | cursed-mav-tauri/src-tauri/src/parameter_meta.rs:47 | every `u32` written in decimal parses back to itself |
| Numbers.ParseU32RejectsMinus | cursed-mav-tauri/src-tauri/src/parameter_meta.rs:54 | a string starting with `-` is never a `u32` |
| Numbers.ParseF64OfNat | cursed-mav-tauri/src-tauri/src/parameter_meta.rs:41 | a decimal natural parses as an `f64` to its value |
| Numbers.ParseF64OfNegatedNat | cursed-mav-tauri/src-tauri/src/parameter_meta.rs:129-130 | a minus sign before a decimal natural parses to its negation |
| Numbers.U32LiteralIsF64Literal | cursed-mav-tauri/src-tauri/src/parameter_meta.rs:41 | every string that parses as a `u32` parses as an `f64` to the same value |
| Numbers.ParseF64 | cursed-mav-tauri/src-tauri/src/parameter_meta.rs:40 | a string `parse::<f64>` accepts is non-empty and contains a digit, so `abc` is never a number |
| Numbers.UnsignedNeedsDigit | cursed-mav-tauri/src-tauri/src/parameter_meta.rs:40 | the unsigned part of a number needs a digit of the input |
| ParameterMeta.MaxCode | cursed-mav-tauri/src-tauri/src/parameter_meta.rs:48 | the result is at least every flag code and is one of them; it is 0 without flags |
| ParameterMeta.ValidateValue | cursed-mav-tauri/src-tauri/src/parameter_meta.rs:38-61 | an unconstrained parameter accepts anything; an accepted range value parses as `f64`; an accepted bitmask or list value parses as `u32`; an accepted list value is a declared code |
| ParameterMeta.RangeIsInclusive | cursed-mav-tauri/src-tauri/src/parameter_meta.rs:40-45 | a range accepts a number if and only if min <= n <= max, both bounds included |
| ParameterMeta.ValuesAcceptExactlyDeclared | cursed-mav-tauri/src-tauri/src/parameter_meta.rs:53-58 | a value list accepts a code if and only if the code is declared |
| ParameterMeta.BitmaskBound | cursed-mav-tauri/src-tauri/src/parameter_meta.rs:46-52 | a bitmask accepts a `u32` if and only if it is at most 2^(max code mod 32) |
| ParameterMeta.NegativeRejected | cursed-mav-tauri/src-tauri/src/parameter_meta.rs:46-58 | a bitmask or value-list parameter rejects every string starting with `-` |
| ParameterMeta.BitmaskBoundRejectsAllFlagsSet | cursed-mav-tauri/src-tauri/src/parameter_meta.rs:48-49 | with flags 0 and 1 the check accepts 2 but rejects 3, the value with both flags set |
| ParameterMeta.ValidationExamples | cursed-mav-tauri/src-tauri/src/parameter_meta.rs:38-61 | range 0..10 accepts "5" and rejects "11" and "abc"; list {1, 2} accepts "2" and rejects "3" |
| ParameterMeta.ReadParamAttrs | cursed-mav-tauri/src-tauri/src/parameter_meta.rs:87-102 | the name read from a `<param>` tag is the one it started with or the namespaced `name` attribute of some attribute, with the namespace removed (through `ApplyParamAttr` and `StoredKey`) |
| ParameterMeta.PrefixedNameKey | cursed-mav-tauri/src-tauri/src/parameter_meta.rs:92-96 | `name="ArduCopter:N"` yields the key N |
| ParameterMeta.ForeignNameDropped | cursed-mav-tauri/src-tauri/src/parameter_meta.rs:93 | a `name` outside the `ArduCopter:` namespace yields no name |
| ParameterMeta.ReadFieldAttrs | cursed-mav-tauri/src-tauri/src/parameter_meta.rs:120-137 | a field's kind comes from some `name` attribute, and its bounds from some `Range` attribute with at least two tokens, or they keep their initial values (through `ApplyFieldAttr`) |
| ParameterMeta.FieldStep | cursed-mav-tauri/src-tauri/src/parameter_meta.rs:139-153 | a `<field>` changes the pending type only when it is named `Range` with both bounds parsed, and then to that range |
| ParameterMeta.ParseCodeLabel | cursed-mav-tauri/src-tauri/src/parameter_meta.rs:159-165 | an entry is read only from text containing a colon, and its label is trimmed |
| ParameterMeta.CodeLabelRoundTrip | cursed-mav-tauri/src-tauri/src/parameter_meta.rs:159-165 | "code:label" reads back as the code with the trimmed label |
| ParameterMeta.ParseCodeLabels | cursed-mav-tauri/src-tauri/src/parameter_meta.rs:155-171 | at most one entry per attribute, every label trimmed |
| ParameterMeta.ParseCodeLabelsAppend | cursed-mav-tauri/src-tauri/src/parameter_meta.rs:157-167 | the entries of concatenated attribute lists are the concatenated entries, in order |
| ParameterMeta.AdvanceAppend | cursed-mav-tauri/src-tauri/src/parameter_meta.rs:77-210 | reading two event streams in a row is reading their concatenation, and an error in the first stops the read |
| ParameterMeta.AdvanceFailsIffReadError | cursed-mav-tauri/src-tauri/src/parameter_meta.rs:205-206 | the reader fails if and only if the event stream contains a read error |
| ParameterMeta.Step | cursed-mav-tauri/src-tauri/src/parameter_meta.rs:79-203 | one event never removes a catalog key; only `</param>` changes the catalog, adding the open parameter's key and clearing the open parameter and the pending type; a `</param>` with nothing open changes nothing |
| ParameterMeta.Advance | cursed-mav-tauri/src-tauri/src/parameter_meta.rs:77-210 | reading events never removes a key from the catalog |
| ParameterMeta.ParseParameters | cursed-mav-tauri/src-tauri/src/parameter_meta.rs:64-213 | `parse_parameters` returns an error if and only if the reader reports one; every key of the returned catalog is non-empty and named by a namespaced `<param>` tag in the input |
| ParameterMeta.ParamBlock | cursed-mav-tauri/src-tauri/src/parameter_meta.rs:104-111 | a named `<param>` followed by its end stores it under its name with the pending type (or None) and clears both; an unnamed one leaves the state alone |
| ParameterMeta.AdvanceKeepsKeysDeclared | cursed-mav-tauri/src-tauri/src/parameter_meta.rs:192-201 | every stored or open key is non-empty and declared by some `<param name="ArduCopter:…">` in the events read |
| ParameterMeta.StepKeepsKeysDeclared | cursed-mav-tauri/src-tauri/src/parameter_meta.rs:79-203 | one event keeps every stored key declared |
| ParameterMeta.CatalogExample | cursed-mav-tauri/src-tauri/src/parameter_meta.rs:64-213 | a Copter parameter with range "0 100" is stored as Range(0, 100); a parameter in another namespace is dropped |
| ParameterMeta.ExampleBlock | cursed-mav-tauri/src-tauri/src/parameter_meta.rs:79-201 | param, Range field and end events read as the stored range parameter |
| ParameterMeta.RangeFieldRead | cursed-mav-tauri/src-tauri/src/parameter_meta.rs:120-137 | `name="Range" Range="0 100"` reads as kind Range with bounds 0 and 100 |
| MavState.New | cursed-mav-tauri/src-tauri/src/state.rs:11-18 | a new state has no link and holds the given catalog |
| MavState.Default | cursed-mav-tauri/src-tauri/src/state.rs:5-9 | the default state has no link and an empty catalog |
| MavState.DefaultIsNewOfEmpty | cursed-mav-tauri/src-tauri/src/state.rs:5-18 | a consistency check of the two constructors: the default state equals the new state of an empty catalog |
| ParamId.EncodeParamId | cursed-mav-tauri/src-tauri/src/cmd_connect.rs:233-236 | the field is always 16 bytes: byte i is the name's i-th UTF-8 byte while there is one, and 0 after |
| ParamId.DecodeParamId | cursed-mav-tauri/src/Params.jsx:133 | the decoded name has no NUL and is no longer than the field |
| ParamId.ParamIdRoundTrip | cursed-mav-tauri/src/Params.jsx:133 | an ASCII name of at most 16 characters without NUL survives encoding and decoding |
| ParamId.ParamIdInjective | cursed-mav-tauri/src-tauri/src/cmd_connect.rs:233-236 | two such names with the same field are the same name |
| ParamId.LongNamesTruncate | cursed-mav-tauri/src-tauri/src/cmd_connect.rs:235-236 | names whose first 16 UTF-8 bytes agree get the same field |
| CmdConnect.EventTagInjective | cursed-mav-tauri/src-tauri/src/cmd_connect.rs:13 | a consistency check of the serde tags: no two variants share an `event` tag (the tags are `EventTag`) |
| CmdConnect.EmittedAppend | cursed-mav-tauri/src-tauri/src/cmd_connect.rs:68-161 | the updates of a concatenated effect log are the updates of each part, in order |
| CmdConnect.Bootstrap | cursed-mav-tauri/src-tauri/src/cmd_connect.rs:94-143 | after an open: `connected` first; a failed parameter request reports it, errors, and stores and starts nothing; otherwise the link is stored, three tasks are started and the result is Ok, with a `failed` update only when the stream request failed |
| CmdConnect.ParamRequestFailed | cursed-mav-tauri/src-tauri/src/cmd_connect.rs:105-115 | a failed parameter request emits `connected` then `failed`, keeps the state and returns the fixed error |
| CmdConnect.Bootstrapped | cursed-mav-tauri/src-tauri/src/cmd_connect.rs:117-143 | once the parameter request is sent, the link replaces the stored one, the log ends with store + heartbeat, receive and poll tasks, and the command succeeds |
| CmdConnect.ConnectFrom | cursed-mav-tauri/src-tauri/src/cmd_connect.rs:78-160 | each try starts with its `connecting` report; the catalog is untouched; the link is unchanged or one opened at this try or later |
| CmdConnect.Connect | cursed-mav-tauri/src-tauri/src/cmd_connect.rs:68-161 | the catalog is untouched and the stored link is the old one or one the command opened |
| CmdConnect.Waits | cursed-mav-tauri/src-tauri/src/cmd_connect.rs:80-86 | each failed try before the current one contributes exactly two effects, a report and a pause |
| CmdConnect.WaitsEmitReports | cursed-mav-tauri/src-tauri/src/cmd_connect.rs:80-86 | failed tries emit exactly their `connecting` reports and start nothing |
| CmdConnect.FailStep | cursed-mav-tauri/src-tauri/src/cmd_connect.rs:145-158 | a failed try before the last reports, sleeps one second and retries with the next count |
| CmdConnect.FailLast | cursed-mav-tauri/src-tauri/src/cmd_connect.rs:145-155 | a failure on the thirtieth try reports its `connecting` update and then `failed` with "Failed to connect after 30 attempts" and the error, keeps the state and returns that message |
| CmdConnect.OpensAtFrom | cursed-mav-tauri/src-tauri/src/cmd_connect.rs:78-158 | after failed tries, the first successful open continues exactly as the bootstrap |
| CmdConnect.ExhaustedFrom | cursed-mav-tauri/src-tauri/src/cmd_connect.rs:145-158 | when every remaining try fails, the state is unchanged and the result is the exhaustion error of the last try |
| CmdConnect.ConnectExhausted | cursed-mav-tauri/src-tauri/src/cmd_connect.rs:145-158 | thirty failures report 30 `connecting` updates and one `failed`, keep the state, start nothing and return "Failed to connect after 30 attempts: e" |
| CmdConnect.ConnectOpensAt | cursed-mav-tauri/src-tauri/src/cmd_connect.rs:78-143 | if try k is the first to open, the reports are k+1 `connecting` updates followed by the bootstrap's, and state and result are the bootstrap's |
| CmdConnect.StreamFailureStillConnects | cursed-mav-tauri/src-tauri/src/cmd_connect.rs:117-143 | a failed stream request is reported as `failed`, yet the link is stored and the command succeeds |
| CmdConnect.ParamSetFor | cursed-mav-tauri/src-tauri/src/cmd_connect.rs:232-246 | a change becomes a PARAM_SET to system 1, component 1, with the encoded 16-byte id, the new value and the default `param_type`, whatever the parameter's type |
| CmdConnect.SendChanges | cursed-mav-tauri/src-tauri/src/cmd_connect.rs:232-252 | the messages sent are the leading changes' PARAM_SETs; success iff all were sent; otherwise the first failed send's name and error are reported |
| CmdConnect.SetParameters | cursed-mav-tauri/src-tauri/src/cmd_connect.rs:221-253 | without a link nothing is sent and the fixed error is returned; with one the changes are sent |
| CmdConnect.SendAllSucceed | cursed-mav-tauri/src-tauri/src/cmd_connect.rs:232-252 | when every send succeeds, every change is sent in order and the result is Ok |
| CmdConnect.SendStopsAtFirstFailure | cursed-mav-tauri/src-tauri/src/cmd_connect.rs:248-250 | a failure at change i leaves exactly changes 0..i sent and reports change i |
| CmdConnect.FieldInfoRoundTrip | cursed-mav-tauri/src-tauri/src/cmd_connect.rs:268-290 | the conversion between field types and their serialised form loses nothing, both ways (`ToFieldInfo` one way, `FromFieldInfo` back) |
| CmdConnect.ToInfo | cursed-mav-tauri/src-tauri/src/cmd_connect.rs:262-298 | the description carries the name and the parameter's texts and field type |
| CmdConnect.GetParameterInfo | cursed-mav-tauri/src-tauri/src/cmd_connect.rs:255-302 | always Ok; a description exactly for catalog names, carrying that entry's name, texts and type |
| CmdConnect.GetAllParameters | cursed-mav-tauri/src-tauri/src/cmd_connect.rs:303-347 | one description per catalog key, under its own name, with that entry's field type |
| CmdConnect.AllAgreesWithSingle | cursed-mav-tauri/src-tauri/src/cmd_connect.rs:303-347 | the bulk answer has a key iff the single lookup finds it, with the same description |
| CmdConnect.Forwarded | cursed-mav-tauri/src-tauri/src/cmd_connect.rs:195-219 | one emitted message per received message, each of them taken from the trace |
| CmdConnect.ForwardedAppend | cursed-mav-tauri/src-tauri/src/cmd_connect.rs:199-218 | forwarding keeps arrival order across any split of the trace |
| CmdConnect.ErrorsForwardNothing | cursed-mav-tauri/src-tauri/src/cmd_connect.rs:208-216 | a read error anywhere in the trace changes nothing that is forwarded; the loop goes on |
| ConnectionPanel.Scheme | cursed-mav-tauri/src/Connection.jsx:63-74 | the scheme is serial, udpin or tcpout, and contains no colon |
| ConnectionPanel.ConnectionString | cursed-mav-tauri/src/Connection.jsx:63-74 | the string starts with the scheme and a colon |
| ConnectionPanel.ConnectionStringRoundTrip | cursed-mav-tauri/src/Connection.jsx:63-74 | for a colon-free address and a non-negative port, the string splits back into exactly scheme, address and port |
| ConnectionPanel.UpdateHistory | cursed-mav-tauri/src/Connection.jsx:47-57 | the new entry comes first, followed by the newest older entries, five at most |
| ConnectionPanel.HistoryKeepsNewestFive | cursed-mav-tauri/src/Connection.jsx:55 | after any number of saves the history is the five newest entries, newest first |
| ConnectionPanel.StatusColorOf | cursed-mav-tauri/src/Connection.jsx:76-80 | green exactly for "Connected" and yellow exactly for "Connecting" |
| ConnectionPanel.SaveSettings | cursed-mav-tauri/src/Connection.jsx:38-61 | the current settings are saved and prepended to the history; status and settings are unchanged |
| ConnectionPanel.OnEvent | cursed-mav-tauri/src/Connection.jsx:95-125 | each update sets its status; `failed` and `disconnected` show the reason; `connecting` shows time and retries; only `connected` touches the history (the status per update is `StatusAfter`) |
| ConnectionPanel.OnEvents | cursed-mav-tauri/src/Connection.jsx:92-126 | handling updates never changes the settings, and without a `failed` or `disconnected` update the error shown stays as it was |
| ConnectionPanel.OnEventsAppend | cursed-mav-tauri/src/Connection.jsx:92-126 | handling two update streams in a row is handling their concatenation |
| ConnectionPanel.LastUpdateDecidesStatus | cursed-mav-tauri/src/Connection.jsx:95-125 | the status shown is the one set by the last update |
| ConnectionPanel.ConnectSession | cursed-mav-tauri/src/Connection.jsx:88-143 | the old error is cleared first; a failed command ends in "Not Connected" with its error; a successful one leaves what its updates produced from the cleared panel, so it shows no error unless an update reported one |
| ConnectionPanel.StreamFailureShowsNotConnected | cursed-mav-tauri/src/Connection.jsx:108-110 | after a failed stream request the link is stored, yet the panel shows "Not Connected" with the stream error |
| ConnectionPanel.CleanConnectShowsConnected | cursed-mav-tauri/src/Connection.jsx:88-143 | a connect whose open succeeds and whose requests are sent ends showing "Connected" with no error, whatever error was shown before |
| ConnectionPanel.LoadSettings | cursed-mav-tauri/src/Connection.jsx:18-35 | with nothing stored the settings stay; otherwise each stored field is used unless missing or falsy, in which case its default is |
| ConnectionPanel.SaveThenLoad | cursed-mav-tauri/src/Connection.jsx:23-25 | settings saved with non-empty fields load back unchanged |
| RawLogs.Append | cursed-mav-tauri/src/RawLogs.jsx:20-26 | the log grows by one up to 2000 entries, keeps the newest ones and ends with the new message |
| RawLogs.AppendAllKeepsNewest | cursed-mav-tauri/src/RawLogs.jsx:20-26 | after any run of messages the log is the newest 2000 of old log + messages |
| RawLogs.NewestConcat | cursed-mav-tauri/src/RawLogs.jsx:22-24 | trimming early does not change what a later trim keeps |
| RawLogs.Clear | cursed-mav-tauri/src/RawLogs.jsx:78-80 | clearing leaves an empty log |
| RawLogs.Preview | cursed-mav-tauri/src/RawLogs.jsx:56 | short text is shown whole; longer text shows its first 100 characters followed by "..." |
| RawLogs.PreviewBounded | cursed-mav-tauri/src/RawLogs.jsx:56 | a preview is at most 103 characters and begins with the text's beginning |
| DroneStore.SetMapValue | cursed-mav-tauri/src/state/drone.ts:24-28 | the key gets the value; every other key is unchanged |
| DroneStore.GetMapValue | cursed-mav-tauri/src/state/drone.ts:30 | a stored key gives its value; a missing key gives undefined |
| DroneStore.OverrideMap | cursed-mav-tauri/src/state/drone.ts:33-35 | afterwards the store has exactly the new map's keys and every lookup answers as the new map does; old keys the new map lacks are gone |
| DroneStore.ResetAfterOverride | cursed-mav-tauri/src/state/drone.ts:33-41 | a reset after an override keeps exactly the new map's keys, all undefined |
| DroneStore.CopyWithUndefinedValues | cursed-mav-tauri/src/state/drone.ts:12-18 | same keys, every value undefined |
| DroneStore.Reset | cursed-mav-tauri/src/state/drone.ts:36-41 | keys are kept and every lookup gives undefined |
| DroneStore.GetAfterSet | cursed-mav-tauri/src/state/drone.ts:24-30 | a read after a write sees the written value, and other keys are unaffected |
| DroneStore.ResetIdempotent | cursed-mav-tauri/src/state/drone.ts:36-41 | resetting twice is resetting once, and a cleared key makes no difference to a reset |
| MessageRouting.RemoveParamPrefix | cursed-mav-tauri/src/data/message.ts:26-28 | drops exactly one leading "params/" and leaves other strings alone |
| MessageRouting.RemoveParamPrefixRoundTrip | cursed-mav-tauri/src/data/message.ts:26-28 | "params/" + name gives back the name |
| MessageRouting.ParseDataFields | cursed-mav-tauri/src/data/message.ts:30-44 | a parameter value goes to the parameter buffer under its decoded name; anything else replaces its topic's datapoint (`IsParamTopic`: the lower-cased type contains `param_value`) |
| MessageRouting.ParseWebMessage | cursed-mav-tauri/src/data/message.ts:50-65 | the drone store mirrors the topic map; a non-empty buffer is flushed and emptied; the topic map changes only for non-parameter messages |
| MessageRouting.FlushIsSingleParam | cursed-mav-tauri/src/data/message.ts:61-64 | from an empty buffer, a parameter message flushes just itself and other messages flush nothing |
| MessageRouting.TopicsHoldLastOfType | cursed-mav-tauri/src/data/message.ts:40 | after a stream of messages, a topic is present iff some message had that type, and it holds the last such message |
| MessageRouting.TopicsAreNotParamTopics | cursed-mav-tauri/src/data/message.ts:34-37 | a parameter-value topic never enters the topic map |
| MessageRouting.ParseAll | cursed-mav-tauri/src/data/message.ts:50-65 | after at least one message the parameter buffer is empty and the drone store mirrors the topic map; topics are never removed, and every new topic is a non-parameter topic |
| MessageRouting.ParseAllSnoc | cursed-mav-tauri/src/data/message.ts:50-65 | processing one more message continues from the previous router state |
| MessageRouting.FormatTime | cursed-mav-tauri/src/data/message.ts:18-24 | the time is "HH:MM:SS": eight characters, colons at 2 and 5, digits elsewhere |
| MessageRouting.FormatTimeFields | cursed-mav-tauri/src/data/message.ts:18-24 | the three digit pairs read back as hours, minutes and seconds |
| MetadataCache.RemoveKey | cursed-mav-tauri/src/Params.jsx:19 | the key is gone, every other key stays, and an absent key changes nothing |
| MetadataCache.RemoveKeyAppend | cursed-mav-tauri/src/Params.jsx:19 | deleting from a concatenation deletes from each part, so the remaining keys keep their order |
| MetadataCache.RemoveKeySplit | cursed-mav-tauri/src/Params.jsx:19 | deleting a key listed once cuts it out and closes the gap |
| MetadataCache.RemoveKeyDistinct | cursed-mav-tauri/src/Params.jsx:19 | deleting a key keeps the order free of duplicates |
| MetadataCache.Get | cursed-mav-tauri/src/Params.jsx:15-23 | a hit returns the stored value and moves the key to the newest place, keeping the same set of keys; a miss changes nothing; contents never change |
| MetadataCache.GetMovesToNewest | cursed-mav-tauri/src/Params.jsx:15-23 | a hit on a key between `a` and `b` leaves the order `a`, `b`, key: the other keys keep their relative order |
| MetadataCache.GetProtectsFromEviction | cursed-mav-tauri/src/Params.jsx:15-32 | after a hit on a cache of two or more keys, that key is not the one the next full store drops |
| MetadataCache.Set | cursed-mav-tauri/src/Params.jsx:25-32 | the key holds the value and other keys keep theirs; a full cache drops its oldest key and only that one, the rest keeping their order with a new key appended; below the limit nothing is dropped and a new key is appended as newest |
| MetadataCache.GetValid | src/Params.jsx:10-18 | a lookup keeps the key order a duplicate-free listing of the stored keys |
| MetadataCache.SetValid | src/Params.jsx:20-27 | a store keeps the key order a duplicate-free listing of the stored keys |
| MetadataCache.SetBounded | cursed-mav-tauri/src/Params.jsx:25-32 | the cache never holds more than 1000 entries |
| MetadataCache.SetEvictsEvenWhenPresent | cursed-mav-tauri/src/Params.jsx:26-31 | storing a key already present in a full cache still drops the oldest entry, leaving 999 |
| MetadataCache.SetThenGet | cursed-mav-tauri/src/Params.jsx:15-32 | a value just stored is found by the next lookup |
| ParamsView.TakeBatch | cursed-mav-tauri/src/Params.jsx:57-59 | the batch and the rest together are the queue; the batch is the first ten, or all of a shorter queue |
| ParamsView.NewNames | cursed-mav-tauri/src/Params.jsx:99-101 | exactly the table names that are neither described nor queued, without duplicates |
| ParamsView.NothingNew | src/Params.jsx:85-87 | when every name is described, nothing is queued |
| ParamsView.Enqueue | cursed-mav-tauri/src/Params.jsx:98-106 | the old queue is kept as a prefix; every undescribed name is queued; nothing else is added |
| ParamsView.EnqueueKeepsDistinct | cursed-mav-tauri/src/Params.jsx:98-106 | the queue never holds a name twice |
| ParamsView.LoadOne | cursed-mav-tauri/src/Params.jsx:62-86 | only this name's description can change; with a faithful cache, it is present iff it was already or the catalog has it, and it equals the backend's |
| ParamsView.LoadBatch | cursed-mav-tauri/src/Params.jsx:62-86 | names outside the batch keep their descriptions; each batch name ends up described iff it was already or the catalog has it, with the backend's description |
| ParamsView.LoadBatchAppend | cursed-mav-tauri/src/Params.jsx:55-95 | loading two batches in a row is loading their concatenation |
| ParamsView.Drain | cursed-mav-tauri/src/Params.jsx:51-95 | a reference run with no re-queueing: draining the queue ten at a time gives the same result as loading it all at once |
| ParamsView.LoadPass | cursed-mav-tauri/src/Params.jsx:51-106 | one pass of the load effect: the batch is loaded as by `LoadBatch`, and the queueing effect, re-run by the shortened queue, puts every undescribed table name back in the queue, those being loaded included |
| ParamsView.Passes | cursed-mav-tauri/src/Params.jsx:51-106 | any number of passes only ever queues names that were queued or are table names |
| ParamsView.UncataloguedNeverDrains | cursed-mav-tauri/src/Params.jsx:59-106 | a table name the catalog lacks stays undescribed and in the queue after any number of passes, so the queue never empties |
| ParamsView.QueueCoversTable | src/Params.jsx:37-91 | after queueing and draining, every table name the catalog knows is described |
| ParamsView.LoadBatchKeepsCacheValid | cursed-mav-tauri/src/Params.jsx:62-86 | loading keeps the cache well formed and within 1000 entries |
| ParamsView.LoadAll | cursed-mav-tauri/src/Params.jsx:108-119 | a successful bulk load replaces all descriptions; a failed one leaves them |
| ParamsView.BulkLoadLeavesNothingToQueue | cursed-mav-tauri/src/Params.jsx:98-119 | after a successful bulk load, no name the catalog knows gets queued |
| ParamsView.KeptEdit | cursed-mav-tauri/src/Params.jsx:138-142 | a pending edit survives a report iff there is one and it is not 0 (`\|\| null`) |
| ParamsView.Upsert | cursed-mav-tauri/src/Params.jsx:131-146 | the decoded name's row gets the reported value, the kept edit and the report time; other rows are unchanged |
| ParamsView.UpsertOfEncodedName | cursed-mav-tauri/src/Params.jsx:131-146 | a report for an encoded short ASCII name updates that very row |
| ParamsView.UpsertRepeated | cursed-mav-tauri/src/Params.jsx:131-146 | a repeated report only moves the time |
| ParamsView.ReportDropsZeroEdit | cursed-mav-tauri/src/Params.jsx:142 | a report discards a pending edit of 0 and keeps any other |
| ParamsView.IndicatorColor | cursed-mav-tauri/src/Params.jsx:168-179 | blue iff an edit is pending; green iff reported under 10 s ago; yellow iff 10-60 s ago |
| ParamsView.IndicatorAges | cursed-mav-tauri/src/Params.jsx:168-179 | with no edit and no new report, a row only grows staler over time |
| ParamsView.FreshReportIsGreen | cursed-mav-tauri/src/Params.jsx:131-176 | right after a report that leaves no edit, the row is green |
| ParamsView.JsShiftBound | cursed-mav-tauri/src/Params.jsx:195-196 | the JS bound is 1 without flags, 2^(max code mod 32) normally, and negative when that shift is 31 |
| ParamsView.ValidateValueJs | cursed-mav-tauri/src/Params.jsx:181-200 | without a description anything passes; NaN fails; unconstrained numbers pass; a number passes a range if and only if it lies within the bounds, both included; a value list if and only if its floor is a declared code; a bitmask if and only if it lies between 0 and the JavaScript `1 << maxFlag` |
| ParamsView.JsRangeAcceptsFraction | cursed-mav-tauri/src/Params.jsx:189-191 | the editor accepts the fraction 0.5 for the range 0..1 |
| ParamsView.JsAgreesWithBackend | cursed-mav-tauri/src/Params.jsx:181-200 | on `u32` inputs the client check gives the backend's answer (shift 31 excluded) |
| ParamsView.JsRejectsTopBitMask | cursed-mav-tauri/src/Params.jsx:196 | a bitmask with flag 31 rejects every number in the client while the backend accepts 0 |
| ParamsView.JsFloorsListedValues | cursed-mav-tauri/src/Params.jsx:193 | the client accepts 2.5 for the list {2}, which the backend rejects |
| ParamsView.ApplyEdit | cursed-mav-tauri/src/Params.jsx:292-313 | an edit is accepted iff it is a number that passes the check; only that row changes, gaining the new value when accepted |
| ParamsView.ResetChanges | cursed-mav-tauri/src/Params.jsx:345-356 | every pending edit is cleared; rows keep their names, values and times |
| ParamsView.ResetIdempotent | cursed-mav-tauri/src/Params.jsx:345-356 | resetting twice is resetting once |
| ParamsView.EditedChanges | cursed-mav-tauri/src/Params.jsx:359-361 | the changes are exactly the pending edits of the listed rows, each naming a listed row (one per name for a duplicate-free listing is `EditedChangesDistinct`) |
| ParamsView.EditedChangesDistinct | cursed-mav-tauri/src/Params.jsx:359-361 | no parameter appears twice among the changes |
| ParamsView.NoPendingNoChanges | cursed-mav-tauri/src/Params.jsx:359-370 | with no pending edit there is nothing to write |
| ParamsView.ApplyWritten | cursed-mav-tauri/src/Params.jsx:380-393 | rows not named by a change stay as they were |
| ParamsView.ApplyWrittenLands | cursed-mav-tauri/src/Params.jsx:382-390 | each written change's row takes the new value, loses its edit and is stamped now |
| ParamsView.WriteChanges | cursed-mav-tauri/src/Params.jsx:358-393 | nothing is sent iff there are no edits; otherwise the edits go to `set_parameters`, and a failed write leaves the table unchanged |
| ParamsView.WrittenRows | cursed-mav-tauri/src/Params.jsx:380-393 | after a write, each edited row holds its edit as value, and unedited rows are unchanged |
| ParamsView.WriteSuccess | cursed-mav-tauri/src/Params.jsx:376-393 | a successful write sends every edit and commits every edited row |
| ParamsView.WriteTwiceSendsOnce | cursed-mav-tauri/src/Params.jsx:358-393 | right after a successful write, writing again sends nothing |
| ParamsView.ResetThenWriteSendsNothing | cursed-mav-tauri/src/Params.jsx:345-370 | after a reset, a write sends nothing and changes nothing |
| ParamsView.EditIsSent | cursed-mav-tauri/src/Params.jsx:292-361 | an accepted edit appears among the changes the next write sends |
| MissionPlanner.MavCmd | cursed-mav-tauri/src/mission/MissionPlanner.jsx:9-183 | every command number lies between 16 and 205 |
| MissionPlanner.CommandTableInjective | cursed-mav-tauri/src/mission/MissionPlanner.jsx:9-183 | no two command types share a key or a command number |
| MissionPlanner.DefaultParams | cursed-mav-tauri/src/mission/MissionPlanner.jsx:9-183 | exactly the positional types have a latitude and longitude by default, both 0 |
| MissionPlanner.Placed | cursed-mav-tauri/src/mission/MissionPlanner.jsx:212-217 | the defaults with latitude, longitude and altitude overridden; other defaults kept |
| MissionPlanner.HandleMapClick | cursed-mav-tauri/src/mission/MissionPlanner.jsx:201-221 | a click deselects; only a left click appends a command of the current type at the clicked position |
| MissionPlanner.AddCommand | cursed-mav-tauri/src/mission/MissionPlanner.jsx:230-246 | appends one command and selects it; it is placed only for waypoint and land, and otherwise has its defaults |
| MissionPlanner.WithoutId | cursed-mav-tauri/src/mission/MissionPlanner.jsx:249 | no command with the id remains |
| MissionPlanner.WithoutIdMembers | cursed-mav-tauri/src/mission/MissionPlanner.jsx:249 | the commands kept are exactly those with another id |
| MissionPlanner.WithoutIdAppend | cursed-mav-tauri/src/mission/MissionPlanner.jsx:249 | filtering keeps order across concatenation |
| MissionPlanner.WithoutAbsentId | cursed-mav-tauri/src/mission/MissionPlanner.jsx:249 | deleting an id that is not there changes nothing |
| MissionPlanner.DeleteWaypoint | cursed-mav-tauri/src/mission/MissionPlanner.jsx:248-253 | the list loses that id; the selection is cleared iff it was that command |
| MissionPlanner.DeleteIdempotent | cursed-mav-tauri/src/mission/MissionPlanner.jsx:248-253 | deleting twice is deleting once |
| MissionPlanner.FindIndex | cursed-mav-tauri/src/mission/MissionPlanner.jsx:256 | the first index carrying the id, or none iff no command has it |
| MissionPlanner.Swap | cursed-mav-tauri/src/mission/MissionPlanner.jsx:262-263 | the two entries trade places, all others stay, and the list is a permutation |
| MissionPlanner.MoveWaypoint | cursed-mav-tauri/src/mission/MissionPlanner.jsx:255-265 | a permutation of the same length; unchanged for an unknown id, the first moved up or the last moved down |
| MissionPlanner.MoveSwapsNeighbours | cursed-mav-tauri/src/mission/MissionPlanner.jsx:259-263 | a possible move swaps the command with its neighbour in that direction, and nothing else |
| MissionPlanner.UpThenDownRestores | cursed-mav-tauri/src/mission/MissionPlanner.jsx:255-265 | moving a command up and then down restores the list |
| MissionPlanner.UpdateWaypointParameter | cursed-mav-tauri/src/mission/MissionPlanner.jsx:267-279 | the commands with the id gain or replace that parameter; everything else is unchanged |
| MissionPlanner.UpdateIdempotent | cursed-mav-tauri/src/mission/MissionPlanner.jsx:267-279 | the same update twice is the update once |
| MissionPlanner.ToggleExpanded | cursed-mav-tauri/src/mission/MissionPlanner.jsx:281-289 | flips membership of the id and of nothing else |
| MissionPlanner.ToggleTwice | cursed-mav-tauri/src/mission/MissionPlanner.jsx:281-289 | toggling twice restores the set |
| MissionPlanner.AltitudeOrZero | cursed-mav-tauri/src/mission/MissionPlanner.jsx:344-345 | a truthy altitude is used, anything else becomes 0 |
| MissionPlanner.SegmentOf | cursed-mav-tauri/src/mission/MissionPlanner.jsx:340-354 | a segment is a spline iff its end command is a spline waypoint |
| MissionPlanner.JoinFlags | cursed-mav-tauri/src/mission/MissionPlanner.jsx:323-338 | one flag per consecutive pair, true iff both are located and the pair is not excluded (`Located`: truthy latitude and longitude; `Excluded`: the RTL, delay, wait-until and speed-change pairs) |
| MissionPlanner.JoinedIndices | cursed-mav-tauri/src/mission/MissionPlanner.jsx:323-338 | increasing indices of joined consecutive pairs only |
| MissionPlanner.JoinedIndicesComplete | cursed-mav-tauri/src/mission/MissionPlanner.jsx:323-338 | every joined pair's index is listed |
| MissionPlanner.WaypointLines | cursed-mav-tauri/src/mission/MissionPlanner.jsx:321-360 | one segment per joined pair, never more than pairs exist |
| MissionPlanner.LineAt | cursed-mav-tauri/src/mission/MissionPlanner.jsx:321-360 | the k-th segment joins the k-th joined pair |
| MissionPlanner.JoinedPairsDrawn | cursed-mav-tauri/src/mission/MissionPlanner.jsx:321-360 | every joined pair is drawn |
| MissionPlanner.SplineIffNextIsSpline | cursed-mav-tauri/src/mission/MissionPlanner.jsx:343 | a drawn segment is a spline iff its end command is a spline waypoint |
| MissionPlanner.ZeroLatitudeUnjoined | cursed-mav-tauri/src/mission/MissionPlanner.jsx:328-331 | a command at latitude 0 starts and ends no segment |
| MissionPlanner.ClickedWaypointsJoin | cursed-mav-tauri/src/mission/MissionPlanner.jsx:201-221 | two left clicks at non-zero positions give exactly one straight segment between them |
| MissionPlanner.AddedRoiUnjoined | cursed-mav-tauri/src/mission/MissionPlanner.jsx:236-240 | a region-of-interest command from the menu keeps latitude 0 and so is never joined |

## Left out

- The background loops are not modelled: the one-second heartbeat (`send_heartbeat`) and the ten-second parameter poll (`send_param_request`) only appear as started tasks. `recv_messages` never ends; it is modelled over a finite trace.
- The MAVLink crate (`mavlink::connect`, `send`, `recv`, `set_protocol_version`) is foreign code. Its outcomes are inputs; the stream-request payload and the MAVLink header are not modelled.
- The clock is an input: elapsed seconds in `connect_to_mav`, `Date.now()`, `new Date()` and the ISO timestamp. The `u64` to `u32` truncation of elapsed seconds is taken as given.
- The quick_xml tokenizer, whitespace trimming and attribute unescaping are outside the model, as are the UTF-8 key error paths. The catalog reader works on the abstract events these would produce; any reader error is one `ReadError` event.
- Floating point is modelled as reals, with no NaN, infinities or rounding; `ParamChange.new_value` is `f32` in Rust, and that rounding is not modelled either.
- Numbers.ParseF64: `inf`, `infinity` and `nan` parse in Rust but are read as failures here. For the value check this gives the same verdict against finite bounds. A catalog `Range` whose bound is written that way is not modelled.
- JavaScript `parseFloat` of the edit box is an input: a number or NaN.
- `lib.rs` and `src/main.rs` are not modelled (start-up wiring). The absence of `get_all_parameters` from the handler list appears only as the failure branch of `ParamsView.LoadAll`.
- The lock errors of the backend commands are not modelled. `on_event.send` failures, which end `connect_to_mav` with `Err` (`cursed-mav-tauri/src-tauri/src/cmd_connect.rs`, lines 81-86, 109-113, 122-126 and 150-154), are assumed not to happen; `recv_messages` ignores `app.emit` failures, so the model has nothing to add there.
- The debug-build overflow panic of `1 << max_flag` is not modelled; the release-build masking is.
- JavaScript object key order is not modelled: the write enumerates rows in an order given as a parameter.
- JavaScript strings are UTF-16 while the model's strings are code points; `toLowerCase` is modelled for ASCII only.
- The parameter store that receives the routed parameter flush (`state/params`) is not part of this model. The flush is an output.
- UI-only code is not modelled: rendering, tables, maps and 3-D views, notifications, the context-menu position, range circles and the geometry helpers of the mission planner, and the web front end's panels.
- Browser storage is a value read or written; the history loaded from storage is taken to hold at most five entries.
- The panel's `saveSettings` runs from a handler closure that may see stale settings. The model uses the settings in force.
- `updateWaypointParameter` does not refresh the separately held selected command. The selection is not part of that operation's model.
- MissionPlanner.Coordinate: only states that a present coordinate is returned; a missing one is never read, because segments are built only between located commands.
- ParamsView.Drain: drains with no interference, as a reference. In the program the queueing effect re-runs each time the load effect shortens the queue, so undescribed names are queued again and a name the catalog lacks is fetched forever; `LoadPass` and `UncataloguedNeverDrains` model that. They let the queueing effect see the descriptions from before the batch's answers, which is the order when the batch's first name misses the cache; other render timings, and a new pass starting while an earlier one still awaits answers, are not modelled.
- ParamsView.JsAgreesWithBackend: stated for bitmasks whose shift is not 31; at 31 the two checks differ, as JsRejectsTopBitMask shows.
- ParameterMeta.BitmaskBoundRejectsAllFlagsSet: stated for the two-flag mask {0, 1}, as a witness of the single-flag bound, not for every mask.
- CmdConnect.ParamSetFor: `param_type`, the one field the source leaves at its default, is taken to be the crate's default `MAV_PARAM_TYPE_UINT8` (1); how the vehicle reads a value labelled that way is not modelled.
- Numbers.ParseU32: its own contract states the accepted alphabet, not the value; the value is stated by ParseU32RoundTrip and U32LiteralIsF64Literal.
- Numbers.ParseF64: its own contract only says an accepted string has a digit; values are stated by ParseF64OfNat, ParseF64OfNegatedNat and U32LiteralIsF64Literal.

=== FILE: cmd_connect.dfy ===
/** The backend's commands: connecting to the vehicle with retries,
    writing parameters, reading the catalog, and forwarding received
    messages. The MAVLink transport, the event channel and the clock are
    outside the model: open and send outcomes and elapsed times are
    scripted inputs, and each command returns the log of its observable
    effects together with the new state and its result. */
module CmdConnect {

  import opened Wrappers
  import opened SeqFacts
  import opened Text
  import opened Numbers
  import opened ParameterMeta
  import opened MavState
  import opened ParamId

  /** Progress reported to the front end while connecting. Serialised
      with the variant name in camelCase under `event` and the fields
      under `data`. */
  datatype ConnectUpdate =
    | Connected
    | Disconnected(reason: string)
    | Connecting(connectionTime: U32, retries: U32)
    | Failed(reason: string)

  /** The `event` tag a variant is serialised with. */
  function EventTag(u: ConnectUpdate): (tag: string)
    ensures |tag| > 0 && tag[0] in "cdf"
  {
    match u
    case Connected => "connected"
    case Disconnected(_) => "disconnected"
    case Connecting(_, _) => "connecting"
    case Failed(_) => "failed"
  }

  /** Distinct variants carry distinct tags, so the front end can tell
      them apart. */
  lemma EventTagInjective(a: ConnectUpdate, b: ConnectUpdate)
    requires EventTag(a) == EventTag(b)
    ensures a.Connected? <==> b.Connected?
    ensures a.Disconnected? <==> b.Disconnected?
    ensures a.Connecting? <==> b.Connecting?
    ensures a.Failed? <==> b.Failed?
  {
    assert "connected"[1] != "connecting"[8];
  }

  // connect_to_mav

  /** The number of opens before giving up. */
  const MaxRetries: nat := 30

  /** One `mavlink::connect` call: the link, or the error text. */
  datatype OpenOutcome = Opened(handle: ConnectionHandle) | OpenFailed(error: string)

  /** One pass of the retry loop: seconds since the command started (the
      clock reading truncated to `u32`) and what the open returned. */
  datatype Attempt = Attempt(elapsed: U32, outcome: OpenOutcome)

  datatype SendOutcome = Sent | SendFailed(error: string)

  /** `MAV_PARAM_TYPE_UINT8`, the first entry of `MAV_PARAM_TYPE` and the
      value the MAVLink crate's `Default` gives a `param_type` field. */
  const DefaultParamType: nat := 1

  datatype ParamSetData = ParamSetData(paramValue: real, targetSystem: nat, targetComponent: nat, paramId: seq<Byte>,
                                       paramType: nat)

  datatype Message = RequestParameters | RequestStream | ParamSet(data: ParamSetData)

  /** The background tasks started on a connected link. */
  datatype Task = Heartbeat | Receiver | ParamPoll

  datatype Effect =
    | Emit(update: ConnectUpdate)
    | SetProtocolV2
    | Send(msg: Message)
    | Store(handle: ConnectionHandle)
    | Spawn(task: Task)
    | Sleep(seconds: nat)

  datatype ConnectRun = ConnectRun(effects: seq<Effect>, state: MavConnState, result: Result<(), string>)

  /** The updates sent on the event channel, in order. */
  function Emitted(effects: seq<Effect>): (r: seq<ConnectUpdate>)
    ensures |r| <= |effects|
    decreases |effects|
  {
    if |effects| == 0 then []
    else (if effects[0].Emit? then [effects[0].update] else []) + Emitted(effects[1..])
  }

  lemma {:induction false} EmittedAppend(a: seq<Effect>, b: seq<Effect>)
    ensures Emitted(a + b) == Emitted(a) + Emitted(b)
    decreases |a|
  {
    if |a| == 0 {
      assert a + b == b;
    } else {
      assert (a + b)[0] == a[0];
      assert (a + b)[1..] == a[1..] + b;
      EmittedAppend(a[1..], b);
    }
  }

  lemma {:induction false} EmittedQuiet(effects: seq<Effect>)
    requires forall i | 0 <= i < |effects| :: !effects[i].Emit?
    ensures Emitted(effects) == []
    decreases |effects|
  {
    if |effects| > 0 {
      assert forall i | 0 <= i < |effects[1..]| :: effects[1..][i] == effects[i + 1];
      EmittedQuiet(effects[1..]);
    }
  }

  lemma EmittedSingle(e: Effect)
    ensures Emitted([e]) == if e.Emit? then [e.update] else []
  {
    assert [e][1..] == [];
  }

  predicate Starts(e: Effect) {
    e.Store? || e.Spawn?
  }

  predicate NoneStarted(effects: seq<Effect>) {
    forall i | 0 <= i < |effects| :: !Starts(effects[i])
  }

  function ParamRequestFailure(e: string): string {
    "Failed to send parameters request: " + e
  }

  const ParamRequestError := "Failed to send parameters request"

  function StreamRequestFailure(e: string): string {
    "Failed to send stream request: " + e
  }

  function ExhaustedMessage(e: string): string {
    "Failed to connect after " + NatToString(MaxRetries) + " attempts: " + e
  }

  const Launch := [Spawn(Heartbeat), Spawn(Receiver), Spawn(ParamPoll)]

  /** What follows a successful open: report it, switch to MAVLink 2,
      request the parameter list and the data streams, store the link and
      start the background tasks. A failed parameter request ends the
      command with an error before anything is stored; a failed stream
      request is reported but does not stop the command, which still
      stores the link (replacing any earlier one) and succeeds. */
  function Bootstrap(h: ConnectionHandle, paramSend: SendOutcome, streamSend: SendOutcome, st: MavConnState): (r: ConnectRun)
    ensures |r.effects| > 0 && r.effects[0] == Emit(Connected)
    ensures r.state.parameters == st.parameters
    ensures paramSend.SendFailed? ==>
      && r.result == Failure(ParamRequestError)
      && r.state == st
      && NoneStarted(r.effects)
      && Emitted(r.effects) == [Connected, Failed(ParamRequestFailure(paramSend.error))]
    ensures paramSend.Sent? ==>
      && r.result.Success?
      && r.state.connection == Some(h)
      && |r.effects| >= 4 && r.effects[|r.effects| - 4..] == [Store(h)] + Launch
      && Emitted(r.effects) ==
           [Connected] + (if streamSend.SendFailed? then [Failed(StreamRequestFailure(streamSend.error))] else [])
  {
    match paramSend
    case SendFailed(e) => ParamRequestFailed(e, st)
    case Sent => Bootstrapped(h, streamSend, st)
  }

  /** The parameter request failed: the run stops with an error. */
  function ParamRequestFailed(e: string, st: MavConnState): (r: ConnectRun)
    ensures |r.effects| > 0 && r.effects[0] == Emit(Connected)
    ensures r.result == Failure(ParamRequestError) && r.state == st
    ensures NoneStarted(r.effects)
    ensures Emitted(r.effects) == [Connected, Failed(ParamRequestFailure(e))]
  {
    var hello := [Emit(Connected)];
    var setup := [SetProtocolV2, Send(RequestParameters)];
    var failed := [Emit(Failed(ParamRequestFailure(e)))];
    var effects := hello + setup + failed;
    assert Emitted(effects) == [Connected, Failed(ParamRequestFailure(e))] by {
      EmittedSingle(Emit(Connected));
      EmittedAppend(hello + setup, failed);
      EmittedAppend(hello, setup);
      EmittedQuiet(setup);
      EmittedSingle(failed[0]);
    }
    ConnectRun(effects, st, Failure(ParamRequestError))
  }

  /** The parameter request went out: the link is stored and the tasks
      start, whatever became of the stream request. */
  function Bootstrapped(h: ConnectionHandle, streamSend: SendOutcome, st: MavConnState): (r: ConnectRun)
    ensures |r.effects| > 0 && r.effects[0] == Emit(Connected)
    ensures r.result.Success? && r.state == st.(connection := Some(h))
    ensures |r.effects| >= 4 && r.effects[|r.effects| - 4..] == [Store(h)] + Launch
    ensures Emitted(r.effects) ==
      [Connected] + (if streamSend.SendFailed? then [Failed(StreamRequestFailure(streamSend.error))] else [])
  {
    var hello := [Emit(Connected)];
    var setup := [SetProtocolV2, Send(RequestParameters), Send(RequestStream)];
    var report := if streamSend.SendFailed? then [Emit(Failed(StreamRequestFailure(streamSend.error)))] else [];
    var tail := [Store(h)] + Launch;
    var effects := hello + setup + report + tail;
    assert Emitted(effects) == [Connected] + Emitted(report) by {
      EmittedSingle(Emit(Connected));
      EmittedAppend(hello + setup + report, tail);
      EmittedAppend(hello + setup, report);
      EmittedAppend(hello, setup);
      EmittedQuiet(setup);
      EmittedQuiet(tail);
    }
    assert streamSend.SendFailed? ==> Emitted(report) == [Failed(StreamRequestFailure(streamSend.error))] by {
      if streamSend.SendFailed? {
        EmittedSingle(report[0]);
      }
    }
    assert effects[|effects| - 4..] == tail;
    ConnectRun(effects, st.(connection := Some(h)), Success(()))
  }

  /** Some pass from `from` on opened the link `h`. */
  predicate OpenedFrom(attempts: seq<Attempt>, from: nat, h: ConnectionHandle)
    requires |attempts| >= MaxRetries
  {
    exists i | from <= i < MaxRetries :: attempts[i].outcome == Opened(h)
  }

  /** The retry loop from the pass that has already seen `retries` failed
      opens. `attempts` scripts every pass the loop can make. */
  function ConnectFrom(attempts: seq<Attempt>, retries: nat, paramSend: SendOutcome, streamSend: SendOutcome,
                       st: MavConnState): (r: ConnectRun)
    requires |attempts| >= MaxRetries && retries < MaxRetries
    ensures r.state.parameters == st.parameters
    ensures r.state.connection == st.connection
         || (r.state.connection.Some? && OpenedFrom(attempts, retries, r.state.connection.value))
    ensures |r.effects| > 0 && r.effects[0] == Emit(Connecting(attempts[retries].elapsed, retries))
    decreases MaxRetries - retries
  {
    var a := attempts[retries];
    var connecting := [Emit(Connecting(a.elapsed, retries))];
    match a.outcome
    case Opened(h) =>
      var b := Bootstrap(h, paramSend, streamSend, st);
      ConnectRun(connecting + b.effects, b.state, b.result)
    case OpenFailed(e) =>
      if retries + 1 >= MaxRetries then
        ConnectRun(connecting + [Emit(Failed(ExhaustedMessage(e)))], st, Failure(ExhaustedMessage(e)))
      else
        var rest := ConnectFrom(attempts, retries + 1, paramSend, streamSend, st);
        ConnectRun(connecting + [Sleep(1)] + rest.effects, rest.state, rest.result)
  }

  /** `connect_to_mav`: the effects in order, the new state and the
      result. The event channel is taken never to fail. */
  function Connect(attempts: seq<Attempt>, paramSend: SendOutcome, streamSend: SendOutcome, st: MavConnState): (r: ConnectRun)
    requires |attempts| >= MaxRetries
    ensures r.state.parameters == st.parameters
    ensures r.state.connection == st.connection
         || (r.state.connection.Some? && OpenedFrom(attempts, 0, r.state.connection.value))
  {
    ConnectFrom(attempts, 0, paramSend, streamSend, st)
  }

  /** The `Connecting` reports of passes `from` up to `to`, each carrying
      its elapsed time and the number of failed opens before it. */
  function ConnectingReports(attempts: seq<Attempt>, from: nat, to: nat): (r: seq<ConnectUpdate>)
    requires from <= to <= |attempts| && to <= MaxRetries
    ensures |r| == to - from
    ensures forall k | 0 <= k < |r| :: r[k] == Connecting(attempts[from + k].elapsed, from + k)
  {
    seq(to - from, k requires 0 <= k < to - from => Connecting(attempts[from + k].elapsed, from + k))
  }

  predicate AllFailed(attempts: seq<Attempt>, from: nat, to: nat)
    requires from <= to <= |attempts|
  {
    forall i | from <= i < to :: attempts[i].outcome.OpenFailed?
  }

  /** The effects of the passes `from` up to `to` that all fail to open:
      a report and a one-second pause each. */
  function Waits(attempts: seq<Attempt>, from: nat, to: nat): (r: seq<Effect>)
    requires from <= to <= |attempts| && to <= MaxRetries
    ensures |r| == 2 * (to - from)
    decreases (to as int) - (from as int)
  {
    if from == to then []
    else [Emit(Connecting(attempts[from].elapsed, from)), Sleep(1)] + Waits(attempts, from + 1, to)
  }

  lemma {:induction false} WaitsEmitReports(attempts: seq<Attempt>, from: nat, to: nat)
    requires from <= to <= |attempts| && to <= MaxRetries
    ensures Emitted(Waits(attempts, from, to)) == ConnectingReports(attempts, from, to)
    ensures NoneStarted(Waits(attempts, from, to))
    decreases (to as int) - (from as int)
  {
    if from < to {
      var head := [Emit(Connecting(attempts[from].elapsed, from)), Sleep(1)];
      var rest := Waits(attempts, from + 1, to);
      WaitsEmitReports(attempts, from + 1, to);
      EmittedAppend(head, rest);
      assert Emitted(head) == [Connecting(attempts[from].elapsed, from)] by {
        assert head[1..] == [Sleep(1)];
        assert head[1..][1..] == [];
      }
      assert ConnectingReports(attempts, from, to) ==
        [Connecting(attempts[from].elapsed, from)] + ConnectingReports(attempts, from + 1, to);
      forall i | 0 <= i < |head + rest|
        ensures !Starts((head + rest)[i])
      {
        if i >= 2 {
          assert (head + rest)[i] == rest[i - 2];
        }
      }
    }
  }

  /** A failed open before the last pass: report, pause, next pass. */
  lemma FailStep(attempts: seq<Attempt>, retries: nat, paramSend: SendOutcome, streamSend: SendOutcome,
                 st: MavConnState)
    requires |attempts| >= MaxRetries && retries + 1 < MaxRetries
    requires attempts[retries].outcome.OpenFailed?
    ensures var r := ConnectFrom(attempts, retries, paramSend, streamSend, st);
      var rest := ConnectFrom(attempts, retries + 1, paramSend, streamSend, st);
      && r.effects == [Emit(Connecting(attempts[retries].elapsed, retries)), Sleep(1)] + rest.effects
      && r.state == rest.state && r.result == rest.result
  {
    var rest := ConnectFrom(attempts, retries + 1, paramSend, streamSend, st);
    var c := Emit(Connecting(attempts[retries].elapsed, retries));
    assert [c] + [Sleep(1)] + rest.effects == [c, Sleep(1)] + rest.effects;
  }

  /** The last pass fails too: report and give up. */
  lemma FailLast(attempts: seq<Attempt>, paramSend: SendOutcome, streamSend: SendOutcome, st: MavConnState)
    requires |attempts| >= MaxRetries
    requires attempts[MaxRetries - 1].outcome.OpenFailed?
    ensures var a := attempts[MaxRetries - 1];
      ConnectFrom(attempts, MaxRetries - 1, paramSend, streamSend, st) ==
        ConnectRun([Emit(Connecting(a.elapsed, MaxRetries - 1)), Emit(Failed(ExhaustedMessage(a.outcome.error)))],
                   st, Failure(ExhaustedMessage(a.outcome.error)))
  {
    var a := attempts[MaxRetries - 1];
    assert [Emit(Connecting(a.elapsed, MaxRetries - 1))] + [Emit(Failed(ExhaustedMessage(a.outcome.error)))]
        == [Emit(Connecting(a.elapsed, MaxRetries - 1)), Emit(Failed(ExhaustedMessage(a.outcome.error)))];
  }

  /** Pass `k` opens the link: its report, then the bootstrap. */
  lemma OpensHere(attempts: seq<Attempt>, k: nat, paramSend: SendOutcome, streamSend: SendOutcome,
                 st: MavConnState)
    requires |attempts| >= MaxRetries && k < MaxRetries
    requires attempts[k].outcome.Opened?
    ensures var r := ConnectFrom(attempts, k, paramSend, streamSend, st);
      var b := Bootstrap(attempts[k].outcome.handle, paramSend, streamSend, st);
      && r.effects == Waits(attempts, k, k) + [Emit(Connecting(attempts[k].elapsed, k))] + b.effects
      && r.state == b.state
      && r.result == b.result
  {
    var b := Bootstrap(attempts[k].outcome.handle, paramSend, streamSend, st);
    var c := [Emit(Connecting(attempts[k].elapsed, k))];
    assert Waits(attempts, k, k) == [];
    assert [] + c + b.effects == c + b.effects;
  }

  lemma {:induction false} OpensAtFrom(attempts: seq<Attempt>, retries: nat, k: nat, paramSend: SendOutcome,
                                       streamSend: SendOutcome, st: MavConnState)
    requires |attempts| >= MaxRetries && retries <= k < MaxRetries
    requires AllFailed(attempts, retries, k) && attempts[k].outcome.Opened?
    ensures var r := ConnectFrom(attempts, retries, paramSend, streamSend, st);
      var b := Bootstrap(attempts[k].outcome.handle, paramSend, streamSend, st);
      && r.effects == Waits(attempts, retries, k) + [Emit(Connecting(attempts[k].elapsed, k))] + b.effects
      && r.state == b.state
      && r.result == b.result
    decreases k - retries
  {
    var b := Bootstrap(attempts[k].outcome.handle, paramSend, streamSend, st);
    var c := [Emit(Connecting(attempts[k].elapsed, k))];
    if retries < k {
      FailStep(attempts, retries, paramSend, streamSend, st);
      OpensAtFrom(attempts, retries + 1, k, paramSend, streamSend, st);
      var head := [Emit(Connecting(attempts[retries].elapsed, retries)), Sleep(1)];
      var w := Waits(attempts, retries + 1, k);
      assert Waits(attempts, retries, k) == head + w;
      AppendAssoc(head, w + c, b.effects);
      AppendAssoc(head, w, c);
    } else {
      OpensHere(attempts, k, paramSend, streamSend, st);
    }
  }

  lemma {:induction false} ExhaustedFrom(attempts: seq<Attempt>, retries: nat, paramSend: SendOutcome,
                                         streamSend: SendOutcome, st: MavConnState)
    requires |attempts| >= MaxRetries && retries < MaxRetries
    requires AllFailed(attempts, retries, MaxRetries)
    ensures var r := ConnectFrom(attempts, retries, paramSend, streamSend, st);
      var last := attempts[MaxRetries - 1];
      && r.effects == Waits(attempts, retries, MaxRetries - 1)
                      + [Emit(Connecting(last.elapsed, MaxRetries - 1)), Emit(Failed(ExhaustedMessage(last.outcome.error)))]
      && r.state == st
      && r.result == Failure(ExhaustedMessage(last.outcome.error))
    decreases MaxRetries - retries
  {
    var last := attempts[MaxRetries - 1];
    var tail := [Emit(Connecting(last.elapsed, MaxRetries - 1)), Emit(Failed(ExhaustedMessage(last.outcome.error)))];
    if retries + 1 < MaxRetries {
      FailStep(attempts, retries, paramSend, streamSend, st);
      ExhaustedFrom(attempts, retries + 1, paramSend, streamSend, st);
      var head := [Emit(Connecting(attempts[retries].elapsed, retries)), Sleep(1)];
      var w := Waits(attempts, retries + 1, MaxRetries - 1);
      assert Waits(attempts, retries, MaxRetries - 1) == head + w;
      assert head + (w + tail) == head + w + tail;
    } else {
      FailLast(attempts, paramSend, streamSend, st);
      assert Waits(attempts, retries, MaxRetries - 1) == [];
      assert [] + tail == tail;
    }
  }

  /** The effects of `n` failed passes report every pass, then the
      failure, and start nothing. */
  lemma ExhaustedEffects(attempts: seq<Attempt>, n: nat, e: string)
    requires 0 < n <= |attempts| && n <= MaxRetries
    ensures var effects := Waits(attempts, 0, n - 1)
                           + [Emit(Connecting(attempts[n - 1].elapsed, n - 1)), Emit(Failed(ExhaustedMessage(e)))];
      && Emitted(effects) == ConnectingReports(attempts, 0, n) + [Failed(ExhaustedMessage(e))]
      && NoneStarted(effects)
  {
    var w := Waits(attempts, 0, n - 1);
    var c := Emit(Connecting(attempts[n - 1].elapsed, n - 1));
    var f := Emit(Failed(ExhaustedMessage(e)));
    WaitsEmitReports(attempts, 0, n - 1);
    EmittedAppend(w, [c, f]);
    assert Emitted([c, f]) == [c.update, f.update] by {
      EmittedAppend([c], [f]);
      assert [c] + [f] == [c, f];
      EmittedSingle(c);
      EmittedSingle(f);
    }
    ReportsExtend(attempts, n - 1);
    var effects := w + [c, f];
    forall i | 0 <= i < |effects|
      ensures !Starts(effects[i])
    {
      if i < |w| {
        assert effects[i] == w[i];
      }
    }
  }

  /** Thirty failed opens: thirty `Connecting` reports with retry counts
      0 to 29, one `Failed` naming the last error, an error result, the
      state untouched and no task started. */
  lemma ConnectExhausted(attempts: seq<Attempt>, paramSend: SendOutcome, streamSend: SendOutcome, st: MavConnState)
    requires |attempts| >= MaxRetries
    requires AllFailed(attempts, 0, MaxRetries)
    ensures var r := Connect(attempts, paramSend, streamSend, st);
      var e := attempts[MaxRetries - 1].outcome.error;
      && Emitted(r.effects) == ConnectingReports(attempts, 0, MaxRetries) + [Failed(ExhaustedMessage(e))]
      && r.state == st
      && r.result == Failure(ExhaustedMessage(e))
      && NoneStarted(r.effects)
  {
    ExhaustedFrom(attempts, 0, paramSend, streamSend, st);
    ExhaustedEffects(attempts, MaxRetries, attempts[MaxRetries - 1].outcome.error);
  }

  lemma ReportsExtend(attempts: seq<Attempt>, k: nat)
    requires k < |attempts| && k < MaxRetries
    ensures ConnectingReports(attempts, 0, k + 1) == ConnectingReports(attempts, 0, k) + [Connecting(attempts[k].elapsed, k)]
  {
  }

  /** The first open succeeds on pass `k`: `k` report-and-pause pairs,
      the report of pass `k`, then the bootstrap after the open. In the
      reports, the retry count is the number of failed opens so far. */
  lemma ConnectOpensAt(attempts: seq<Attempt>, k: nat, paramSend: SendOutcome, streamSend: SendOutcome, st: MavConnState)
    requires |attempts| >= MaxRetries && k < MaxRetries
    requires AllFailed(attempts, 0, k) && attempts[k].outcome.Opened?
    ensures var r := Connect(attempts, paramSend, streamSend, st);
      var b := Bootstrap(attempts[k].outcome.handle, paramSend, streamSend, st);
      && Emitted(r.effects) == ConnectingReports(attempts, 0, k + 1) + Emitted(b.effects)
      && r.state == b.state
      && r.result == b.result
  {
    var r := Connect(attempts, paramSend, streamSend, st);
    var b := Bootstrap(attempts[k].outcome.handle, paramSend, streamSend, st);
    var w := Waits(attempts, 0, k);
    var c := [Emit(Connecting(attempts[k].elapsed, k))];
    OpensAtFrom(attempts, 0, k, paramSend, streamSend, st);
    assert r.effects == w + c + b.effects;
    WaitsEmitReports(attempts, 0, k);
    EmittedAppend(w + c, b.effects);
    EmittedAppend(w, c);
    EmittedSingle(c[0]);
    ReportsExtend(attempts, k);
  }

  /** A connect whose stream request fails still succeeds and stores the
      link, yet its reports contain `Failed`. */
  lemma StreamFailureStillConnects(attempts: seq<Attempt>, e: string, st: MavConnState)
    requires |attempts| >= MaxRetries && attempts[0].outcome.Opened?
    ensures var r := Connect(attempts, Sent, SendFailed(e), st);
      && r.result.Success?
      && r.state.connection == Some(attempts[0].outcome.handle)
      && Failed(StreamRequestFailure(e)) in Emitted(r.effects)
  {
    ConnectOpensAt(attempts, 0, Sent, SendFailed(e), st);
    var b := Bootstrap(attempts[0].outcome.handle, Sent, SendFailed(e), st);
    assert Emitted(b.effects)[1] == Failed(StreamRequestFailure(e));
  }

  // set_parameters

  datatype ParamChange = ParamChange(paramName: string, newValue: real)

  /** The outcome of writing a batch: the messages the link accepted, in
      order, and the command's result. */
  datatype WriteRun = WriteRun(sent: seq<ParamSetData>, result: Result<(), string>)

  const NoConnectionError := "No active MavConnection. Call connect_to_mav first."

  function SendFailure(name: string, e: string): string {
    "Failed to send param " + name + " update: " + e
  }

  /** The `PARAM_SET` for one change, addressed to system 1, component 1.
      The remaining field, `param_type`, is left at its default, so every
      change is labelled with the same type whatever the parameter is. */
  function ParamSetFor(c: ParamChange): (m: ParamSetData)
    ensures m.paramId == EncodeParamId(c.paramName) && |m.paramId| == ParamIdLength
    ensures m.paramValue == c.newValue
    ensures m.targetSystem == 1 && m.targetComponent == 1
    ensures m.paramType == DefaultParamType
  {
    ParamSetData(c.newValue, 1, 1, EncodeParamId(c.paramName), DefaultParamType)
  }

  /** Sends the changes in order, one scripted outcome each, stopping at
      the first failure. The accepted messages are a prefix of the
      requested ones; the result is an error exactly when some send
      failed, and then it names the change whose send failed. */
  function SendChanges(changes: seq<ParamChange>, outcomes: seq<SendOutcome>): (r: WriteRun)
    requires |outcomes| >= |changes|
    ensures |r.sent| <= |changes|
    ensures forall k | 0 <= k < |r.sent| :: r.sent[k] == ParamSetFor(changes[k]) && outcomes[k].Sent?
    ensures r.result.Success? <==> |r.sent| == |changes|
    ensures r.result.Failure? ==>
      && outcomes[|r.sent|].SendFailed?
      && r.result.error == SendFailure(changes[|r.sent|].paramName, outcomes[|r.sent|].error)
    decreases |changes|
  {
    if |changes| == 0 then WriteRun([], Success(()))
    else
      match outcomes[0]
      case SendFailed(e) => WriteRun([], Failure(SendFailure(changes[0].paramName, e)))
      case Sent =>
        var rest := SendChanges(changes[1..], outcomes[1..]);
        WriteRun([ParamSetFor(changes[0])] + rest.sent, rest.result)
  }

  /** `set_parameters`. Without a link nothing is sent; otherwise the
      changes go out in order. The state is only read. */
  function SetParameters(st: MavConnState, changes: seq<ParamChange>, outcomes: seq<SendOutcome>): (r: WriteRun)
    requires |outcomes| >= |changes|
    ensures st.connection.None? ==> r == WriteRun([], Failure(NoConnectionError))
    ensures st.connection.Some? ==> r == SendChanges(changes, outcomes)
  {
    if st.connection.None? then WriteRun([], Failure(NoConnectionError))
    else SendChanges(changes, outcomes)
  }

  /** When every send succeeds, every change is sent once, in order. */
  lemma SendAllSucceed(changes: seq<ParamChange>, outcomes: seq<SendOutcome>)
    requires |outcomes| >= |changes|
    requires forall k | 0 <= k < |changes| :: outcomes[k].Sent?
    ensures SendChanges(changes, outcomes) == WriteRun(seq(|changes|, k requires 0 <= k < |changes| => ParamSetFor(changes[k])), Success(()))
  {
    var r := SendChanges(changes, outcomes);
    assert r.result.Success?;
    assert r.sent == seq(|changes|, k requires 0 <= k < |changes| => ParamSetFor(changes[k]));
  }

  /** A failure at change `i`, after `i` good sends, keeps those `i`
      messages and reports change `i`. */
  lemma SendStopsAtFirstFailure(changes: seq<ParamChange>, outcomes: seq<SendOutcome>, i: nat)
    requires |outcomes| >= |changes| && i < |changes|
    requires forall k | 0 <= k < i :: outcomes[k].Sent?
    requires outcomes[i].SendFailed?
    ensures var r := SendChanges(changes, outcomes);
      && r.sent == seq(i, k requires 0 <= k < i => ParamSetFor(changes[k]))
      && r.result == Failure(SendFailure(changes[i].paramName, outcomes[i].error))
  {
    var r := SendChanges(changes, outcomes);
    assert r.result.Failure?;
    assert |r.sent| == i;
    assert r.sent == seq(i, k requires 0 <= k < i => ParamSetFor(changes[k]));
  }

  // get_parameter_info and get_all_parameters

  /** The serialised form of a field type: the same variants with the
      same bounds, codes and names, tagged `range`, `bitmask`, `values`
      or `none`. */
  datatype FieldInfo =
    | RangeInfo(min: real, max: real, increment: Option<real>, units: Option<string>)
    | BitmaskInfo(flags: seq<CodeLabel>)
    | ValuesInfo(values: seq<CodeLabel>)
    | NoneInfo

  function FieldInfoTag(f: FieldInfo): string {
    match f
    case RangeInfo(_, _, _, _) => "range"
    case BitmaskInfo(_) => "bitmask"
    case ValuesInfo(_) => "values"
    case NoneInfo => "none"
  }

  datatype ParameterInfo = ParameterInfo(name: string, humanName: string, documentation: string, user: string,
                                         fieldType: FieldInfo)

  function ToFieldInfo(t: FieldType): FieldInfo {
    match t
    case Range(min, max, increment, units) => RangeInfo(min, max, increment, units)
    case Bitmask(flags) => BitmaskInfo(flags)
    case Values(values) => ValuesInfo(values)
    case Unconstrained => NoneInfo
  }

  function FromFieldInfo(f: FieldInfo): FieldType {
    match f
    case RangeInfo(min, max, increment, units) => Range(min, max, increment, units)
    case BitmaskInfo(flags) => Bitmask(flags)
    case ValuesInfo(values) => Values(values)
    case NoneInfo => Unconstrained
  }

  /** The conversion loses nothing, in both directions. */
  lemma FieldInfoRoundTrip(t: FieldType, f: FieldInfo)
    ensures FromFieldInfo(ToFieldInfo(t)) == t
    ensures ToFieldInfo(FromFieldInfo(f)) == f
  {
  }

  function ToInfo(name: string, p: Parameter): (i: ParameterInfo)
    ensures i.name == name
    ensures FromFieldInfo(i.fieldType) == p.fieldType
    ensures (i.humanName, i.documentation, i.user) == (p.humanName, p.documentation, p.user)
  {
    ParameterInfo(name, p.humanName, p.documentation, p.user, ToFieldInfo(p.fieldType))
  }

  /** `get_parameter_info`: never an error; some description exactly when
      the catalog has the name, echoing the name and carrying the stored
      parameter unchanged. */
  function GetParameterInfo(st: MavConnState, name: string): (r: Result<Option<ParameterInfo>, string>)
    ensures r.Success?
    ensures r.value.Some? <==> name in st.parameters
    ensures r.value.Some? ==>
      && r.value.value.name == name
      && FromFieldInfo(r.value.value.fieldType) == st.parameters[name].fieldType
      && r.value.value.humanName == st.parameters[name].humanName
      && r.value.value.documentation == st.parameters[name].documentation
      && r.value.value.user == st.parameters[name].user
  {
    if name in st.parameters then Success(Some(ToInfo(name, st.parameters[name]))) else Success(None)
  }

  /** `get_all_parameters`: one description per catalog entry, under the
      same key and named after it. (A poisoned lock, the only error, is
      outside the model.) */
  function GetAllParameters(st: MavConnState): (r: map<string, ParameterInfo>)
    ensures r.Keys == st.parameters.Keys
    ensures forall k | k in r :: r[k].name == k && FromFieldInfo(r[k].fieldType) == st.parameters[k].fieldType
  {
    map k | k in st.parameters :: ToInfo(k, st.parameters[k])
  }

  /** The bulk view and the single lookup agree on every name. */
  lemma AllAgreesWithSingle(st: MavConnState, name: string)
    ensures name in GetAllParameters(st) <==> GetParameterInfo(st, name).value.Some?
    ensures name in GetAllParameters(st) ==> GetAllParameters(st)[name] == GetParameterInfo(st, name).value.value
  {
  }

  // recv_messages

  /** One `recv` on the link: a message, a would-block error or any other
      read error. */
  datatype RecvResult<M> = Received(msg: M) | WouldBlock | ReadFailed

  function CountReceived<M>(trace: seq<RecvResult<M>>): nat
    decreases |trace|
  {
    if |trace| == 0 then 0 else (if trace[0].Received? then 1 else 0) + CountReceived(trace[1..])
  }

  /** The messages emitted to the front end over a finite stretch of the
      receive loop: one per received message, nothing for an error, and
      the loop carries on after errors. */
  function Forwarded<M>(trace: seq<RecvResult<M>>): (r: seq<M>)
    ensures |r| == CountReceived(trace)
    ensures forall k | 0 <= k < |r| :: Received(r[k]) in trace
    decreases |trace|
  {
    if |trace| == 0 then []
    else
      var rest := Forwarded(trace[1..]);
      assert forall k | 0 <= k < |rest| :: Received(rest[k]) in trace by {
        forall k | 0 <= k < |rest|
          ensures Received(rest[k]) in trace
        {
          var j :| 0 <= j < |trace[1..]| && trace[1..][j] == Received(rest[k]);
          assert trace[j + 1] == Received(rest[k]);
        }
      }
      match trace[0]
      case Received(m) => [m] + rest
      case WouldBlock => rest
      case ReadFailed => rest
  }

  /** Forwarding keeps arrival order across any split of the trace. */
  lemma {:induction false} ForwardedAppend<M>(a: seq<RecvResult<M>>, b: seq<RecvResult<M>>)
    ensures Forwarded(a + b) == Forwarded(a) + Forwarded(b)
    decreases |a|
  {
    if |a| == 0 {
      assert a + b == b;
    } else {
      assert (a + b)[0] == a[0];
      assert (a + b)[1..] == a[1..] + b;
      ForwardedAppend(a[1..], b);
    }
  }

  /** An error in the middle of the trace changes nothing that is
      forwarded. */
  lemma ErrorsForwardNothing<M>(a: seq<RecvResult<M>>, err: RecvResult<M>, b: seq<RecvResult<M>>)
    requires !err.Received?
    ensures Forwarded(a + [err] + b) == Forwarded(a + b)
  {
    ForwardedAppend(a + [err], b);
    ForwardedAppend(a, [err]);
    ForwardedAppend(a, b);
    assert Forwarded([err]) == [] by {
      assert [err][1..] == [];
    }
    assert Forwarded(a) + [] == Forwarded(a);
  }
}

=== FILE: connection_panel.dfy ===
/** The connection panel of the desktop front end: the connection string
    built from the settings, the short history of used settings, the
    status shown while the backend reports progress, and the settings
    restored at start-up. Browser storage and notifications are outside
    the model; storage reads and writes appear as values. */
module ConnectionPanel {

  import opened Wrappers
  import opened SeqFacts
  import opened Text
  import opened CmdConnect
  import opened MavState

  datatype Settings = Settings(connType: string, address: string, port: int)

  const DefaultSettings := Settings("tcp", "0.0.0.0", 8888)

  // getConnectionString

  /** The link scheme for a connection type; anything unknown is TCP. */
  function Scheme(connType: string): (r: string)
    ensures r in {"serial", "udpin", "tcpout"}
    ensures ':' !in r
  {
    if connType == "serial" then "serial"
    else if connType == "udp" then "udpin"
    else "tcpout"
  }

  /** `getConnectionString`: scheme, address and port joined by colons. */
  function ConnectionString(s: Settings): (r: string)
    ensures StartsWith(r, Scheme(s.connType) + ":")
  {
    var scheme := Scheme(s.connType);
    var r := scheme + ":" + s.address + ":" + IntToString(s.port);
    assert r[..|scheme + ":"|] == scheme + ":";
    r
  }

  /** Reads a connection string back into scheme, address and port. */
  function ParseConnectionString(c: string): Option<(string, string, nat)> {
    match SplitOnce(c, ':')
    case None => None
    case Some((scheme, rest)) =>
      match SplitOnce(rest, ':')
      case None => None
      case Some((address, port)) =>
        if |port| > 0 && AllDigits(port) then Some((scheme, address, DigitsValue(port))) else None
  }

  /** For an address without a colon and a non-negative port, the string
      carries exactly the scheme, address and port. */
  lemma ConnectionStringRoundTrip(s: Settings)
    requires ':' !in s.address && s.port >= 0
    ensures ParseConnectionString(ConnectionString(s)) == Some((Scheme(s.connType), s.address, s.port))
  {
    var scheme := Scheme(s.connType);
    var port := NatToString(s.port);
    var rest := s.address + ":" + port;
    SplitOnceAt(scheme, rest, ':');
    assert ConnectionString(s) == scheme + [':'] + rest;
    SplitOnceAt(s.address, port, ':');
    assert rest == s.address + [':'] + port;
    NatToStringRoundTrip(s.port);
  }

  // Connection history

  datatype HistoryEntry = HistoryEntry(connType: string, address: string, port: int, timestamp: string)

  const MaxHistory: nat := 5

  function Take<T>(s: seq<T>, n: nat): (r: seq<T>)
    ensures |r| == if |s| < n then |s| else n
    ensures r == s[..|r|]
  {
    if |s| <= n then s else s[..n]
  }

  /** The history after saving: the new entry first, then the older
      entries, at most five in all. */
  function UpdateHistory(history: seq<HistoryEntry>, e: HistoryEntry): (r: seq<HistoryEntry>)
    ensures |r| == if |history| + 1 < MaxHistory then |history| + 1 else MaxHistory
    ensures r[0] == e
    ensures r[1..] == history[..|r| - 1]
  {
    Take([e] + history, MaxHistory)
  }

  function Reverse<T>(s: seq<T>): (r: seq<T>)
    ensures |r| == |s|
    decreases |s|
  {
    if |s| == 0 then [] else Reverse(s[1..]) + [s[0]]
  }

  function SaveAll(history: seq<HistoryEntry>, es: seq<HistoryEntry>): seq<HistoryEntry>
    decreases |es|
  {
    if |es| == 0 then history else SaveAll(UpdateHistory(history, es[0]), es[1..])
  }

  lemma TakeOfTake<T>(a: seq<T>, b: seq<T>, n: nat)
    ensures Take(a + Take(b, n), n) == Take(a + b, n)
  {
    var tb := Take(b, n);
    var l := |Take(a + b, n)|;
    assert |Take(a + tb, n)| == l;
    forall i | 0 <= i < l
      ensures Take(a + tb, n)[i] == Take(a + b, n)[i]
    {
      if i >= |a| {
        assert (a + tb)[i] == tb[i - |a|];
      }
    }
  }

  /** Saving entries one after another leaves the five most recent, the
      newest first. */
  lemma {:induction false} HistoryKeepsNewestFive(history: seq<HistoryEntry>, es: seq<HistoryEntry>)
    requires |history| <= MaxHistory
    ensures SaveAll(history, es) == Take(Reverse(es) + history, MaxHistory)
    decreases |es|
  {
    if |es| == 0 {
      assert Reverse(es) + history == history;
    } else {
      var saved := UpdateHistory(history, es[0]);
      var older := Reverse(es[1..]);
      assert saved == Take([es[0]] + history, MaxHistory);
      HistoryKeepsNewestFive(saved, es[1..]);
      assert SaveAll(history, es) == Take(older + saved, MaxHistory);
      var all := older + ([es[0]] + history);
      TakeOfTake(older, [es[0]] + history, MaxHistory);
      assert Take(older + saved, MaxHistory) == Take(all, MaxHistory);
      assert Reverse(es) + history == all by {
        assert Reverse(es) == older + [es[0]];
        AppendAssoc(older, [es[0]], history);
      }
    }
  }

  // Status

  const StatusConnected := "Connected"
  const StatusConnecting := "Connecting"
  const StatusNotConnected := "Not Connected"

  datatype StatusColor = Green | Yellow | Gray

  /** `getStatusColor`. */
  function StatusColorOf(status: string): (c: StatusColor)
    ensures c == Green <==> status == StatusConnected
    ensures c == Yellow <==> status == StatusConnecting
  {
    if status == StatusConnected then Green
    else if status == StatusConnecting then Yellow
    else Gray
  }

  /** What the panel shows and keeps. `saved` is the settings record last
      written to storage. */
  datatype Panel = Panel(status: string, settings: Settings, connectionTime: int, retries: int,
                         error: Option<string>, history: seq<HistoryEntry>, saved: Option<Settings>)

  const InitialPanel := Panel("", DefaultSettings, 0, 0, None, [], None)

  /** `saveSettings`: stores the current settings and records them, with
      the time of saving, at the head of the history. */
  function SaveSettings(p: Panel, timestamp: string): (r: Panel)
    ensures r.saved == Some(p.settings)
    ensures r.history == UpdateHistory(p.history, HistoryEntry(p.settings.connType, p.settings.address, p.settings.port, timestamp))
    ensures r.status == p.status && r.settings == p.settings
  {
    var e := HistoryEntry(p.settings.connType, p.settings.address, p.settings.port, timestamp);
    p.(saved := Some(p.settings), history := UpdateHistory(p.history, e))
  }

  /** The status the panel shows after receiving an update. */
  function StatusAfter(u: ConnectUpdate): string {
    match u
    case Connected => StatusConnected
    case Connecting(_, _) => StatusConnecting
    case Failed(_) => StatusNotConnected
    case Disconnected(_) => StatusNotConnected
  }

  /** The channel handler. It dispatches on the serialised `event` tag,
      which names the variant (`EventTagInjective`). `connected` also
      saves the settings; `failed` and `disconnected` show the reason. */
  function OnEvent(p: Panel, u: ConnectUpdate, timestamp: string): (r: Panel)
    ensures r.status == StatusAfter(u)
    ensures r.settings == p.settings
    ensures (u.Failed? || u.Disconnected?) ==> r.error == Some(u.reason)
    ensures u.Connecting? ==> r.connectionTime == u.connectionTime && r.retries == u.retries
    ensures !u.Connected? ==> r.history == p.history
  {
    match u
    case Connected => SaveSettings(p.(status := StatusConnected), timestamp)
    case Connecting(t, n) => p.(connectionTime := t, retries := n, status := StatusConnecting)
    case Failed(reason) => p.(status := StatusNotConnected, error := Some(reason))
    case Disconnected(reason) => p.(status := StatusNotConnected, error := Some(reason))
  }

  /** No update in `us` reports a failure or a disconnect. */
  predicate NoErrorReports(us: seq<ConnectUpdate>) {
    forall k | 0 <= k < |us| :: !us[k].Failed? && !us[k].Disconnected?
  }

  /** The handler run on each update in turn. Only `failed` and
      `disconnected` write the error, so without them it stays as it was. */
  function OnEvents(p: Panel, us: seq<ConnectUpdate>, timestamp: string): (r: Panel)
    ensures r.settings == p.settings
    ensures NoErrorReports(us) ==> r.error == p.error
    decreases |us|
  {
    if |us| == 0 then p
    else
      assert NoErrorReports(us) ==> NoErrorReports(us[1..]) by {
        if NoErrorReports(us) {
          forall k | 0 <= k < |us[1..]|
            ensures !us[1..][k].Failed? && !us[1..][k].Disconnected?
          {
            assert us[1..][k] == us[k + 1];
          }
        }
      }
      OnEvents(OnEvent(p, us[0], timestamp), us[1..], timestamp)
  }

  lemma {:induction false} OnEventsAppend(p: Panel, a: seq<ConnectUpdate>, b: seq<ConnectUpdate>, timestamp: string)
    ensures OnEvents(p, a + b, timestamp) == OnEvents(OnEvents(p, a, timestamp), b, timestamp)
    decreases |a|
  {
    if |a| == 0 {
      assert a + b == b;
    } else {
      assert (a + b)[0] == a[0];
      assert (a + b)[1..] == a[1..] + b;
      OnEventsAppend(OnEvent(p, a[0], timestamp), a[1..], b, timestamp);
    }
  }

  /** The shown status follows the last update received. */
  lemma LastUpdateDecidesStatus(p: Panel, us: seq<ConnectUpdate>, timestamp: string)
    requires |us| > 0
    ensures OnEvents(p, us, timestamp).status == StatusAfter(us[|us| - 1])
  {
    var init := us[..|us| - 1];
    assert init + [us[|us| - 1]] == us;
    OnEventsAppend(p, init, [us[|us| - 1]], timestamp);
    assert [us[|us| - 1]][1..] == [];
  }

  /** `connect`: the error shown is cleared, the handler sees every
      update, then an error result is shown as well. A successful result
      changes nothing further, so it shows an error only when one of its
      updates reported one. */
  function ConnectSession(p: Panel, run: ConnectRun, timestamp: string): (r: Panel)
    ensures run.result.Failure? ==> r.status == StatusNotConnected && r.error == Some(run.result.error)
    ensures run.result.Success? ==> r == OnEvents(p.(error := None), Emitted(run.effects), timestamp)
    ensures run.result.Success? && NoErrorReports(Emitted(run.effects)) ==> r.error.None?
    ensures r.settings == p.settings
  {
    var seen := OnEvents(p.(error := None), Emitted(run.effects), timestamp);
    match run.result
    case Success(_) => seen
    case Failure(e) => seen.(status := StatusNotConnected, error := Some(e))
  }

  /** A connect whose stream request fails succeeds and leaves the link
      stored in the backend, yet the panel ends up showing "Not
      Connected" with the stream error: the last update it saw was
      `Failed`. */
  lemma StreamFailureShowsNotConnected(p: Panel, attempts: seq<Attempt>, e: string, st: MavConnState, timestamp: string)
    requires |attempts| >= MaxRetries && attempts[0].outcome.Opened?
    ensures var run := Connect(attempts, Sent, SendFailed(e), st);
      && run.result.Success?
      && run.state.connection.Some?
      && ConnectSession(p, run, timestamp).status == StatusNotConnected
      && ConnectSession(p, run, timestamp).error == Some(StreamRequestFailure(e))
  {
    var run := Connect(attempts, Sent, SendFailed(e), st);
    ConnectOpensAt(attempts, 0, Sent, SendFailed(e), st);
    var b := Bootstrap(attempts[0].outcome.handle, Sent, SendFailed(e), st);
    var us := Emitted(run.effects);
    assert us == ConnectingReports(attempts, 0, 1) + [Connected, Failed(StreamRequestFailure(e))];
    assert us == ConnectingReports(attempts, 0, 1) + [Connected] + [Failed(StreamRequestFailure(e))];
    var cleared := p.(error := None);
    LastUpdateDecidesStatus(cleared, us, timestamp);
    OnEventsAppend(cleared, ConnectingReports(attempts, 0, 1) + [Connected], [Failed(StreamRequestFailure(e))], timestamp);
    assert [Failed(StreamRequestFailure(e))][1..] == [];
  }

  /** A connect whose first open succeeds on pass `k` and whose requests
      are both sent ends showing "Connected" with no error, whatever error
      the panel showed before. */
  lemma CleanConnectShowsConnected(p: Panel, attempts: seq<Attempt>, k: nat, st: MavConnState, timestamp: string)
    requires |attempts| >= MaxRetries && k < MaxRetries
    requires AllFailed(attempts, 0, k) && attempts[k].outcome.Opened?
    ensures var run := Connect(attempts, Sent, Sent, st);
      && run.result.Success?
      && run.state.connection == Some(attempts[k].outcome.handle)
      && ConnectSession(p, run, timestamp).status == StatusConnected
      && ConnectSession(p, run, timestamp).error.None?
  {
    var run := Connect(attempts, Sent, Sent, st);
    ConnectOpensAt(attempts, k, Sent, Sent, st);
    var reports := ConnectingReports(attempts, 0, k + 1);
    var us := Emitted(run.effects);
    assert us == reports + [Connected];
    LastUpdateDecidesStatus(p.(error := None), us, timestamp);
    forall i | 0 <= i < |us|
      ensures !us[i].Failed? && !us[i].Disconnected?
    {
      if i < |reports| {
        assert us[i] == reports[i];
      }
    }
  }

  // Restoring settings

  /** The stored settings record; a field may be absent. */
  datatype StoredSettings = StoredSettings(connType: Option<string>, address: Option<string>, port: Option<int>)

  function OrString(v: Option<string>, default: string): (r: string)
    ensures v.Some? && v.value != "" ==> r == v.value
    ensures v.None? || v.value == "" ==> r == default
  {
    if v.Some? && v.value != "" then v.value else default
  }

  function OrPort(v: Option<int>, default: int): (r: int)
    ensures v.Some? && v.value != 0 ==> r == v.value
    ensures v.None? || v.value == 0 ==> r == default
  {
    if v.Some? && v.value != 0 then v.value else default
  }

  /** The settings restored at start-up: each stored field, or its default
      when it is absent or falsy (an empty string, a zero port). Without a
      stored record the current settings stay. */
  function LoadSettings(current: Settings, stored: Option<StoredSettings>): (r: Settings)
    ensures stored.None? ==> r == current
    ensures stored.Some? ==>
      && r.connType == OrString(stored.value.connType, DefaultSettings.connType)
      && r.address == OrString(stored.value.address, DefaultSettings.address)
      && r.port == OrPort(stored.value.port, DefaultSettings.port)
  {
    match stored
    case None => current
    case Some(s) =>
      Settings(OrString(s.connType, DefaultSettings.connType),
               OrString(s.address, DefaultSettings.address),
               OrPort(s.port, DefaultSettings.port))
  }

  /** Settings saved with truthy fields are restored unchanged. */
  lemma SaveThenLoad(current: Settings, s: Settings)
    requires s.connType != "" && s.address != "" && s.port != 0
    ensures LoadSettings(current, Some(StoredSettings(Some(s.connType), Some(s.address), Some(s.port)))) == s
  {
  }
}

=== FILE: drone_store.dfy ===
/** The front end's key/value store of the latest vehicle data. `None`
    stands for JavaScript's `undefined`, which the store uses both for a
    missing key and for a cleared value. */
module DroneStore {

  import opened Wrappers

  type StoreData<V> = map<string, Option<V>>

  /** `setMapValue`: a copy of the map with `key` bound to `value`. */
  function SetMapValue<V>(data: StoreData<V>, key: string, value: Option<V>): (r: StoreData<V>)
    ensures r.Keys == data.Keys + {key}
    ensures r[key] == value
    ensures forall k | k in data && k != key :: r[k] == data[k]
  {
    data[key := value]
  }

  /** `getMapValue`: the bound value, or `undefined` for a missing key. */
  function GetMapValue<V>(data: StoreData<V>, key: string): (r: Option<V>)
    ensures key in data ==> r == data[key]
    ensures key !in data ==> r.None?
  {
    if key in data then data[key] else None
  }

  /** `overrideMap`: the store takes the given map as its contents. Keys
      of the old contents that the new map lacks are gone, not cleared. */
  function OverrideMap<V>(data: StoreData<V>, newMap: StoreData<V>): (r: StoreData<V>)
    ensures forall k :: GetMapValue(r, k) == GetMapValue(newMap, k)
    ensures r.Keys == newMap.Keys
    ensures forall k | k in data && k !in newMap :: k !in r
  {
    newMap
  }

  /** `copyMapWithUndefinedValues`: the same keys, every value cleared. */
  function CopyWithUndefinedValues<V>(data: StoreData<V>): (r: StoreData<V>)
    ensures r.Keys == data.Keys
    ensures forall k | k in r :: r[k].None?
  {
    map k | k in data :: None
  }

  /** `reset`. */
  function Reset<V>(data: StoreData<V>): (r: StoreData<V>)
    ensures r.Keys == data.Keys
    ensures forall k :: GetMapValue(r, k).None?
  {
    CopyWithUndefinedValues(data)
  }

  /** Reading back a key just written gives the written value; every
      other key reads as before. */
  lemma GetAfterSet<V>(data: StoreData<V>, key: string, value: Option<V>, other: string)
    requires other != key
    ensures GetMapValue(SetMapValue(data, key, value), key) == value
    ensures GetMapValue(SetMapValue(data, key, value), other) == GetMapValue(data, other)
  {
  }

  /** A reset after an override keeps exactly the new map's keys: keys
      only the old contents had do not come back as `undefined`. */
  lemma ResetAfterOverride<V>(data: StoreData<V>, newMap: StoreData<V>)
    ensures Reset(OverrideMap(data, newMap)).Keys == newMap.Keys
    ensures Reset(OverrideMap(data, newMap)) == Reset(newMap)
  {
  }

  /** Resetting twice is resetting once, and a reset store reads the same
      as a store whose every key was set to `undefined`. */
  lemma ResetIdempotent<V>(data: StoreData<V>)
    ensures Reset(Reset(data)) == Reset(data)
    ensures forall k | k in data :: Reset(data) == Reset(SetMapValue(data, k, None))
  {
  }
}

=== FILE: mav_state.dfy ===
/** The record the backend commands share behind one lock: the open
    vehicle link, if any, and the parameter catalog read at start-up. */
module MavState {

  import opened Wrappers
  import opened ParameterMeta

  /** An open MAVLink connection. The link itself (a shared trait object)
      is outside the model; a handle only tells links apart. */
  datatype ConnectionHandle = ConnectionHandle(id: nat)

  datatype MavConnState = MavConnState(connection: Option<ConnectionHandle>, parameters: Catalog)

  /** `MavConnState::new`: no link yet, and exactly the given catalog. */
  function New(parameters: Catalog): (s: MavConnState)
    ensures s.connection.None?
    ensures s.parameters == parameters
  {
    MavConnState(None, parameters)
  }

  /** The derived `Default`: no link and an empty catalog. */
  function Default(): (s: MavConnState)
    ensures s.connection.None?
    ensures s.parameters == map[]
  {
    MavConnState(None, map[])
  }

  /** The default state is the state built from an empty catalog, and
      `new` keeps every key of its catalog readable. */
  lemma DefaultIsNewOfEmpty(parameters: Catalog)
    ensures Default() == New(map[])
    ensures forall k | k in parameters :: k in New(parameters).parameters
  {
  }
}

=== FILE: message_routing.dfy ===
/** Routing of incoming vehicle messages in the web front end: parameter
    values go to a parameter buffer that is flushed after every message;
    every other message becomes the latest datapoint of its topic, and the
    whole topic map is pushed to the drone store. The parameter store that
    receives the flush (`state/params`) is not part of this model: the
    flush is returned as an output. */
module MessageRouting {

  import opened Wrappers
  import opened Text
  import opened ParamId
  import opened DroneStore

  /** A decoded message: its type name, its `param_id` bytes (meaningful
      only for parameter values) and the rest, which is carried opaquely. */
  datatype Datapoint<P> = Datapoint(msgType: string, paramId: seq<Byte>, payload: P)

  /** The module-level stores of the routing code. */
  datatype Router<P> = Router(topics: map<string, Datapoint<P>>, params: map<string, Datapoint<P>>)

  /** What one message leaves behind: the router, the drone store and the
      map handed to the parameter store, if any. */
  datatype Routed<P> = Routed(router: Router<P>, drone: StoreData<Datapoint<P>>, flushed: Option<map<string, Datapoint<P>>>)

  const ParamsPrefix := "params/"

  /** `removeParamPrefix`: drops one leading `params/`. */
  function RemoveParamPrefix(s: string): (r: string)
    ensures StartsWith(s, ParamsPrefix) ==> s == ParamsPrefix + r
    ensures !StartsWith(s, ParamsPrefix) ==> r == s
  {
    if StartsWith(s, ParamsPrefix) then s[|ParamsPrefix|..] else s
  }

  /** Putting the prefix in front and removing it gives back the name. */
  lemma RemoveParamPrefixRoundTrip(name: string)
    ensures RemoveParamPrefix(ParamsPrefix + name) == name
  {
    assert (ParamsPrefix + name)[..|ParamsPrefix|] == ParamsPrefix;
  }

  /** Whether a topic carries parameter values: its lower-case form
      contains `param_value` (lower-casing restricted to ASCII). */
  predicate IsParamTopic(topic: string) {
    Contains(ToLowerAscii(topic), "param_value")
  }

  /** `parseDataFields`: a parameter value goes to the parameter buffer
      under its decoded name; anything else replaces the topic's previous
      datapoint. */
  function ParseDataFields<P>(topic: string, d: Datapoint<P>, r: Router<P>): (r': Router<P>)
    ensures IsParamTopic(topic) ==> r'.topics == r.topics && r'.params == r.params[DecodeParamId(d.paramId) := d]
    ensures !IsParamTopic(topic) ==> r'.params == r.params && r'.topics == r.topics[topic := d]
  {
    if IsParamTopic(topic) then r.(params := r.params[DecodeParamId(d.paramId) := d])
    else r.(topics := r.topics[topic := d])
  }

  function Lift<P>(m: map<string, Datapoint<P>>): StoreData<Datapoint<P>> {
    map k | k in m :: Some(m[k])
  }

  /** `parseWebMessage`: routes under the message's own type, pushes the
      topic map to the drone store, and flushes a non-empty parameter
      buffer, replacing it by an empty one. */
  function ParseWebMessage<P>(d: Datapoint<P>, r: Router<P>, drone: StoreData<Datapoint<P>>): (out: Routed<P>)
    ensures out.router.params == map[]
    ensures out.drone == Lift(out.router.topics)
    ensures out.router.topics == if IsParamTopic(d.msgType) then r.topics else r.topics[d.msgType := d]
    ensures out.flushed.Some? <==> IsParamTopic(d.msgType) || |r.params| > 0
  {
    var routed := ParseDataFields(d.msgType, d, r);
    var pushed := OverrideMap(drone, Lift(routed.topics));
    if |routed.params| > 0 then Routed(routed.(params := map[]), pushed, Some(routed.params))
    else Routed(routed, pushed, None)
  }

  /** Routing a stream of messages, one at a time. */
  function ParseAll<P>(ds: seq<Datapoint<P>>, r: Router<P>, drone: StoreData<Datapoint<P>>): (out: Routed<P>)
    ensures |ds| > 0 ==> out.router.params == map[] && out.drone == Lift(out.router.topics)
    ensures r.topics.Keys <= out.router.topics.Keys
    ensures forall t | t in out.router.topics && t !in r.topics :: !IsParamTopic(t)
    decreases |ds|
  {
    if |ds| == 0 then Routed(r, drone, None)
    else
      var first := ParseWebMessage(ds[0], r, drone);
      ParseAll(ds[1..], first.router, first.drone)
  }

  /** The last message of type `t` in `ds`, if there is one. */
  function LastOfType<P>(ds: seq<Datapoint<P>>, t: string): (r: Option<Datapoint<P>>)
    ensures r.Some? ==> r.value in ds && r.value.msgType == t
    ensures r.None? ==> forall i | 0 <= i < |ds| :: ds[i].msgType != t
    decreases |ds|
  {
    if |ds| == 0 then None
    else if ds[|ds| - 1].msgType == t then Some(ds[|ds| - 1])
    else
      var r := LastOfType(ds[..|ds| - 1], t);
      assert forall i | 0 <= i < |ds| - 1 :: ds[..|ds| - 1][i] == ds[i];
      r
  }

  /** After an empty parameter buffer (the state between messages), each
      message flushes exactly the one parameter value it carries, and
      nothing when it is not a parameter value. */
  lemma FlushIsSingleParam<P>(d: Datapoint<P>, r: Router<P>, drone: StoreData<Datapoint<P>>)
    requires r.params == map[]
    ensures var out := ParseWebMessage(d, r, drone);
      && (IsParamTopic(d.msgType) ==> out.flushed == Some(map[DecodeParamId(d.paramId) := d]))
      && (!IsParamTopic(d.msgType) ==> out.flushed.None? && out.router.topics == r.topics[d.msgType := d])
  {
  }

  /** Topic routing keeps, for every non-parameter type, the last message
      of that type: last write wins, and parameter values never reach the
      topic map. */
  lemma {:induction false} TopicsHoldLastOfType<P>(ds: seq<Datapoint<P>>, t: string)
    requires !IsParamTopic(t)
    ensures var out := ParseAll(ds, Router(map[], map[]), map[]);
      && (t in out.router.topics <==> LastOfType(ds, t).Some?)
      && (t in out.router.topics ==> out.router.topics[t] == LastOfType(ds, t).value)
    decreases |ds|
  {
    if |ds| > 0 {
      var init := ds[..|ds| - 1];
      var d := ds[|ds| - 1];
      assert init + [d] == ds;
      var mid := ParseAll(init, Router(map[], map[]), map[]);
      var topics := ParseAll(ds, Router(map[], map[]), map[]).router.topics;
      ParseAllSnoc(init, d, Router(map[], map[]), map[]);
      assert topics == ParseWebMessage(d, mid.router, mid.drone).router.topics;
      TopicsHoldLastOfType(init, t);
      assert LastOfType(ds, t) == if d.msgType == t then Some(d) else LastOfType(init, t);
    }
  }

  lemma {:induction false} ParseAllSnoc<P>(ds: seq<Datapoint<P>>, d: Datapoint<P>, r: Router<P>, drone: StoreData<Datapoint<P>>)
    ensures var mid := ParseAll(ds, r, drone);
      ParseAll(ds + [d], r, drone).router == ParseWebMessage(d, mid.router, mid.drone).router
    decreases |ds|
  {
    if |ds| == 0 {
      assert ([] + [d])[1..] == [];
      assert ds + [d] == [d];
    } else {
      var first := ParseWebMessage(ds[0], r, drone);
      assert (ds + [d])[0] == ds[0];
      assert (ds + [d])[1..] == ds[1..] + [d];
      ParseAllSnoc(ds[1..], d, first.router, first.drone);
    }
  }

  /** Topic names in the store are never parameter topics. */
  lemma {:induction false} TopicsAreNotParamTopics<P>(ds: seq<Datapoint<P>>, t: string)
    requires IsParamTopic(t)
    ensures t !in ParseAll(ds, Router(map[], map[]), map[]).router.topics
    decreases |ds|
  {
    if |ds| > 0 {
      var init := ds[..|ds| - 1];
      var d := ds[|ds| - 1];
      assert init + [d] == ds;
      var mid := ParseAll(init, Router(map[], map[]), map[]);
      var topics := ParseAll(ds, Router(map[], map[]), map[]).router.topics;
      ParseAllSnoc(init, d, Router(map[], map[]), map[]);
      assert topics == ParseWebMessage(d, mid.router, mid.drone).router.topics;
      TopicsAreNotParamTopics(init, t);
    }
  }

  /** `getCurrentTime`: hours, minutes and seconds of the local clock,
      each zero-padded to two digits and joined with colons. */
  function FormatTime(hours: nat, minutes: nat, seconds: nat): (r: string)
    requires hours < 24 && minutes < 60 && seconds < 60
    ensures |r| == 8 && r[2] == ':' && r[5] == ':'
    ensures AllDigits(r[..2]) && AllDigits(r[3..5]) && AllDigits(r[6..])
  {
    Pad2(hours) + ":" + Pad2(minutes) + ":" + Pad2(seconds)
  }

  /** Each two-digit field reads back as the number it shows. */
  lemma FormatTimeFields(hours: nat, minutes: nat, seconds: nat)
    requires hours < 24 && minutes < 60 && seconds < 60
    ensures var r := FormatTime(hours, minutes, seconds);
      DigitsValue(r[..2]) == hours && DigitsValue(r[3..5]) == minutes && DigitsValue(r[6..]) == seconds
  {
    var r := FormatTime(hours, minutes, seconds);
    assert r[..2] == Pad2(hours);
    assert r[3..5] == Pad2(minutes);
    assert r[6..] == Pad2(seconds);
    Pad2Value(hours);
    Pad2Value(minutes);
    Pad2Value(seconds);
  }
}

=== FILE: metadata_cache.dfy ===
/** The parameter editor's metadata cache: a JavaScript `Map` used as a
    bounded least-recently-used store. A `Map` iterates in insertion
    order, so the cache is its key order plus its contents. Cached values
    are parameter descriptions, which are always truthy, so a present key
    is a hit. */
module MetadataCache {

  import opened Wrappers
  import opened SeqFacts

  const MaxSize: nat := 1000

  datatype Cache<V> = Cache(order: seq<string>, data: map<string, V>)

  predicate Distinct(s: seq<string>) {
    forall i, j | 0 <= i < j < |s| :: s[i] != s[j]
  }

  /** The key order lists each stored key exactly once. */
  ghost predicate Valid<V>(c: Cache<V>) {
    Distinct(c.order) && (forall k :: k in c.data <==> k in c.order)
  }

  /** The order with `key` deleted. */
  function RemoveKey(order: seq<string>, key: string): (r: seq<string>)
    ensures key !in r
    ensures forall x :: x in r <==> x in order && x != key
    ensures key !in order ==> r == order
    ensures |r| <= |order|
    decreases |order|
  {
    if |order| == 0 then []
    else
      var rest := RemoveKey(order[1..], key);
      if order[0] == key then rest else [order[0]] + rest
  }

  /** Deleting a key keeps the remaining keys distinct. */
  lemma {:induction false} RemoveKeyDistinct(order: seq<string>, key: string)
    requires Distinct(order)
    ensures Distinct(RemoveKey(order, key))
    decreases |order|
  {
    if |order| > 0 {
      DistinctTail(order);
      RemoveKeyDistinct(order[1..], key);
      var rest := RemoveKey(order[1..], key);
      if order[0] != key {
        assert order[0] !in rest;
        var r := [order[0]] + rest;
        assert forall j | 0 <= j < |rest| :: r[j + 1] == rest[j];
      }
    }
  }

  /** Deleting from a concatenation deletes from each part, so the keys
      that remain keep their relative order. */
  lemma {:induction false} RemoveKeyAppend(a: seq<string>, b: seq<string>, key: string)
    ensures RemoveKey(a + b, key) == RemoveKey(a, key) + RemoveKey(b, key)
    decreases |a|
  {
    if |a| == 0 {
      assert a + b == b;
    } else {
      assert (a + b)[0] == a[0];
      assert (a + b)[1..] == a[1..] + b;
      RemoveKeyAppend(a[1..], b, key);
      if a[0] != key {
        AppendAssoc([a[0]], RemoveKey(a[1..], key), RemoveKey(b, key));
      }
    }
  }

  /** Deleting a key that occurs once cuts it out and closes the gap. */
  lemma RemoveKeySplit(a: seq<string>, b: seq<string>, key: string)
    requires key !in a && key !in b
    ensures RemoveKey(a + [key] + b, key) == a + b
  {
    var ak := a + [key];
    RemoveKeyAppend(ak, b, key);
    RemoveKeyAppend(a, [key], key);
    assert RemoveKey([key], key) == [] by {
      assert [key][1..] == [];
    }
    assert RemoveKey(a, key) == a;
    assert RemoveKey(b, key) == b;
    assert RemoveKey(ak, key) == a + [];
    assert a + [] == a;
  }

  /** `get`: a hit moves the key to the newest position and returns its
      value, leaving the contents alone; a miss changes nothing. */
  function Get<V>(c: Cache<V>, key: string): (r: (Cache<V>, Option<V>))
    ensures key in c.data ==> r.1 == Some(c.data[key])
    ensures key !in c.data ==> r.1.None? && r.0 == c
    ensures r.0.data == c.data
    ensures key in c.data ==> |r.0.order| > 0 && r.0.order[|r.0.order| - 1] == key
    ensures key in c.data && key in c.order ==> forall x :: x in r.0.order <==> x in c.order
  {
    if key in c.data then (Cache(RemoveKey(c.order, key) + [key], c.data), Some(c.data[key]))
    else (c, None)
  }

  /** `set`: when the cache is full it first drops its oldest key, even if
      `key` is already stored; then the value is stored, keeping the
      key's position if it is still present and appending it otherwise. */
  function Set<V>(c: Cache<V>, key: string, value: V): (r: Cache<V>)
    ensures key in r.data && r.data[key] == value
    ensures forall k | k in r.data && k != key :: k in c.data && r.data[k] == c.data[k]
    ensures |c.data| >= MaxSize && |c.order| > 0 && c.order[0] != key ==> c.order[0] !in r.data
    ensures |c.data| >= MaxSize && |c.order| > 0 ==> forall k | k in c.data && k != c.order[0] :: k in r.data
    ensures |c.data| >= MaxSize && |c.order| > 0 ==>
      r.order == c.order[1..] + (if key in c.data && key != c.order[0] then [] else [key])
    ensures |c.data| < MaxSize ==> forall k | k in c.data :: k in r.data
    ensures |c.data| < MaxSize ==> r.order == c.order + (if key in c.data then [] else [key])
  {
    var trimmed :=
      if |c.data| >= MaxSize && |c.order| > 0 then Cache(c.order[1..], c.data - {c.order[0]}) else c;
    if key in trimmed.data then Cache(trimmed.order, trimmed.data[key := value])
    else Cache(trimmed.order + [key], trimmed.data[key := value])
  }

  lemma DistinctTail(s: seq<string>)
    requires Distinct(s) && |s| > 0
    ensures Distinct(s[1..]) && s[0] !in s[1..]
  {
    assert forall j | 0 <= j < |s| - 1 :: s[1..][j] == s[j + 1];
  }

  lemma DistinctSnoc(s: seq<string>, x: string)
    requires Distinct(s) && x !in s
    ensures Distinct(s + [x])
  {
    forall i, j | 0 <= i < j < |s + [x]|
      ensures (s + [x])[i] != (s + [x])[j]
    {
      if j == |s| {
        assert (s + [x])[i] == s[i];
      }
    }
  }

  /** `get` keeps the key order a listing of the stored keys. */
  lemma GetValid<V>(c: Cache<V>, key: string)
    requires Valid(c)
    ensures Valid(Get(c, key).0)
  {
    if key in c.data {
      RemoveKeyDistinct(c.order, key);
      DistinctSnoc(RemoveKey(c.order, key), key);
    }
  }

  /** `set` keeps the key order a listing of the stored keys. */
  lemma SetValid<V>(c: Cache<V>, key: string, value: V)
    requires Valid(c)
    ensures Valid(Set(c, key, value))
  {
    if |c.data| >= MaxSize && |c.order| > 0 {
      DistinctTail(c.order);
      var t := Cache(c.order[1..], c.data - {c.order[0]});
      assert forall k :: k in t.data <==> k in t.order;
      if key !in t.data {
        DistinctSnoc(t.order, key);
      }
    } else if key !in c.data {
      DistinctSnoc(c.order, key);
    }
  }

  /** A hit on a key listed once, between `a` and `b`, leaves the order
      `a`, then `b`, then the key: the others keep their relative order. */
  lemma GetMovesToNewest<V>(c: Cache<V>, a: seq<string>, b: seq<string>, key: string)
    requires key in c.data && c.order == a + [key] + b
    requires key !in a && key !in b
    ensures Get(c, key).0.order == a + b + [key]
  {
    RemoveKeySplit(a, b, key);
  }

  /** After a hit on a valid cache of two or more keys, that key is not
      the one the next full `set` drops. */
  lemma GetProtectsFromEviction<V>(c: Cache<V>, key: string)
    requires Valid(c) && key in c.data && |c.order| >= 2
    ensures Get(c, key).0.order[0] != key
  {
    var other := if c.order[0] != key then c.order[0] else c.order[1];
    assert other in c.order && other != key;
    var rest := RemoveKey(c.order, key);
    assert other in rest;
    assert Get(c, key).0.order == rest + [key];
    assert rest[0] != key;
  }

  /** A valid cache that is not empty has a non-empty key order. */
  lemma NonEmptyOrder<V>(c: Cache<V>)
    requires Valid(c) && |c.data| > 0
    ensures |c.order| > 0
  {
    var k :| k in c.data;
    assert k in c.order;
  }

  lemma UpdateSize<V>(m: map<string, V>, key: string, value: V)
    ensures |m[key := value]| <= |m| + 1
    ensures key in m ==> |m[key := value]| == |m|
  {
    assert m[key := value].Keys == m.Keys + {key};
    if key in m {
      assert m.Keys + {key} == m.Keys;
    }
  }

  lemma RemoveSize<V>(m: map<string, V>, key: string)
    requires key in m
    ensures |m - {key}| == |m| - 1
  {
    assert (m - {key}).Keys == m.Keys - {key};
  }

  /** The cache never holds more than `MaxSize` entries. */
  lemma SetBounded<V>(c: Cache<V>, key: string, value: V)
    requires Valid(c) && |c.data| <= MaxSize
    ensures |Set(c, key, value).data| <= MaxSize
  {
    if |c.data| >= MaxSize {
      NonEmptyOrder(c);
      var o := c.order[0];
      assert o in c.data;
      var d := c.data - {o};
      RemoveSize(c.data, o);
      UpdateSize(d, key, value);
    } else {
      UpdateSize(c.data, key, value);
    }
  }

  /** Setting a key that is already stored in a full cache still drops
      the oldest entry, so the cache shrinks by one. */
  lemma SetEvictsEvenWhenPresent<V>(c: Cache<V>, key: string, value: V)
    requires Valid(c) && |c.data| == MaxSize
    requires key in c.data && c.order[0] != key
    ensures |Set(c, key, value).data| == MaxSize - 1
    ensures c.order[0] !in Set(c, key, value).data
  {
    NonEmptyOrder(c);
    var o := c.order[0];
    assert o in c.data;
    var d := c.data - {o};
    RemoveSize(c.data, o);
    assert key in d;
    UpdateSize(d, key, value);
  }

  /** A value just stored is found by the next lookup. */
  lemma SetThenGet<V>(c: Cache<V>, key: string, value: V)
    ensures Get(Set(c, key, value), key).1 == Some(value)
  {
  }
}

=== FILE: mission_planner.dfy ===
/** The mission planner's command list: the table of command types with
    their MAVLink command numbers and default parameters, the edits the
    planner offers (click to append, add from the menu, delete, move,
    change a parameter, expand), and the choice of line segments drawn
    between consecutive commands. */
module MissionPlanner {

  import opened Wrappers

  // Command types

  datatype CommandType =
    | Waypoint | Takeoff | Land | Rtl | LoiterTime | LoiterTurns | SplineWaypoint
    | DoChangeSpeed | Delay | WaitUntil | DoSetRoi | DoSetServo | DoRepeatServo
    | DoDigicamControl | DoMountControl

  /** The key a command type has in the table and in a command's `type`. */
  function TypeKey(t: CommandType): string {
    match t
    case Waypoint => "WAYPOINT"
    case Takeoff => "TAKEOFF"
    case Land => "LAND"
    case Rtl => "RTL"
    case LoiterTime => "LOITER_TIME"
    case LoiterTurns => "LOITER_TURNS"
    case SplineWaypoint => "SPLINE_WAYPOINT"
    case DoChangeSpeed => "DO_CHANGE_SPEED"
    case Delay => "DELAY"
    case WaitUntil => "WAIT_UNTIL"
    case DoSetRoi => "DO_SET_ROI"
    case DoSetServo => "DO_SET_SERVO"
    case DoRepeatServo => "DO_REPEAT_SERVO"
    case DoDigicamControl => "DO_DIGICAM_CONTROL"
    case DoMountControl => "DO_MOUNT_CONTROL"
  }

  /** The MAVLink command number of each type. `WAIT_UNTIL` carries 113,
      the number the table gives it, although the table's own note on
      that entry names `MAV_CMD_CONDITION_DELAY`, which the `DELAY` entry
      numbers 112: the number and the note disagree, and the model keeps
      the number. */
  function MavCmd(t: CommandType): (n: nat)
    ensures 16 <= n <= 205
  {
    match t
    case Waypoint => 16
    case Takeoff => 22
    case Land => 21
    case Rtl => 20
    case LoiterTime => 19
    case LoiterTurns => 18
    case SplineWaypoint => 82
    case DoChangeSpeed => 178
    case Delay => 112
    case WaitUntil => 113
    case DoSetRoi => 201
    case DoSetServo => 183
    case DoRepeatServo => 184
    case DoDigicamControl => 203
    case DoMountControl => 205
  }

  /** No two command types share a command number or a key. */
  lemma CommandTableInjective(a: CommandType, b: CommandType)
    ensures MavCmd(a) == MavCmd(b) ==> a == b
    ensures TypeKey(a) == TypeKey(b) ==> a == b
  {
  }

  /** A parameter's value: a number, a flag or (from an emptied input
      field) text. */
  datatype ParamValue = Num(x: real) | Flag(b: bool) | Text(s: string)

  type Params = map<string, ParamValue>

  /** JavaScript truthiness of a looked-up parameter; a missing one is
      `undefined`. */
  predicate Truthy(v: Option<ParamValue>) {
    match v
    case None => false
    case Some(Num(x)) => x != 0.0
    case Some(Flag(b)) => b
    case Some(Text(s)) => |s| > 0
  }

  function Lookup(p: Params, key: string): Option<ParamValue> {
    if key in p then Some(p[key]) else None
  }

  const Latitude := "latitude"
  const Longitude := "longitude"
  const Altitude := "altitude"

  function DefaultParams(t: CommandType): (p: Params)
    ensures (t.Waypoint? || t.Land? || t.LoiterTime? || t.LoiterTurns? || t.SplineWaypoint? || t.DoSetRoi?
             || t.DoMountControl?) <==> Latitude in p && Longitude in p
    ensures Latitude in p && Longitude in p ==> p[Latitude] == Num(0.0) && p[Longitude] == Num(0.0)
  {
    match t
    case Waypoint => map["latitude" := Num(0.0), "longitude" := Num(0.0), "altitude" := Num(50.0), "delay" := Num(0.0),
                         "acceptRadius" := Num(2.0), "passRadius" := Num(0.0), "yawAngle" := Num(0.0),
                         "terrainAlt" := Flag(false)]
    case Takeoff => map["altitude" := Num(50.0), "minPitch" := Num(15.0), "yawAngle" := Num(0.0), "terrainAlt" := Flag(false)]
    case Land => map["latitude" := Num(0.0), "longitude" := Num(0.0), "altitude" := Num(0.0), "abortAlt" := Num(10.0),
                     "landSpeed" := Num(0.5), "yawAngle" := Num(0.0), "precisionLanding" := Flag(false),
                     "terrainAlt" := Flag(false)]
    case Rtl => map["altitude" := Num(50.0), "landSpeed" := Num(0.5), "terrainAlt" := Flag(false), "loiterTime" := Num(0.0)]
    case LoiterTime => map["time" := Num(30.0), "radius" := Num(50.0), "latitude" := Num(0.0), "longitude" := Num(0.0),
                           "altitude" := Num(50.0), "xtrack_location" := Num(0.0), "heading_required" := Num(0.0),
                           "terrainAlt" := Flag(false)]
    case LoiterTurns => map["turns" := Num(1.0), "radius" := Num(50.0), "latitude" := Num(0.0), "longitude" := Num(0.0),
                            "altitude" := Num(50.0), "xtrack_location" := Num(0.0), "heading_required" := Num(0.0),
                            "terrainAlt" := Flag(false)]
    case SplineWaypoint => map["delay" := Num(0.0), "latitude" := Num(0.0), "longitude" := Num(0.0),
                               "altitude" := Num(50.0), "next_lat" := Num(0.0), "next_lon" := Num(0.0),
                               "next_alt" := Num(0.0), "terrainAlt" := Flag(false)]
    case DoChangeSpeed => map["speed" := Num(5.0), "speedType" := Num(0.0), "throttle" := Num(-1.0), "relative" := Num(0.0)]
    case Delay => map["delay" := Num(0.0), "hour" := Num(0.0), "minute" := Num(0.0), "second" := Num(0.0)]
    case WaitUntil => map["hour" := Num(0.0), "minute" := Num(0.0), "second" := Num(0.0), "timeOfDay" := Flag(true)]
    case DoSetRoi => map["latitude" := Num(0.0), "longitude" := Num(0.0), "altitude" := Num(0.0), "roiMode" := Num(0.0),
                         "terrainAlt" := Flag(false)]
    case DoSetServo => map["servoNumber" := Num(1.0), "pwm" := Num(1500.0)]
    case DoRepeatServo => map["servoNumber" := Num(1.0), "pwm" := Num(1500.0), "repeatCount" := Num(1.0),
                              "delayBetween" := Num(0.0)]
    case DoDigicamControl => map["sessionControl" := Num(1.0), "zoomLevel" := Num(0.0), "zoomType" := Num(0.0),
                                 "focusLock" := Num(0.0), "shutterCommand" := Num(1.0)]
    case DoMountControl => map["pitch" := Num(0.0), "roll" := Num(0.0), "yaw" := Num(0.0), "altitudeMode" := Num(0.0),
                               "latitude" := Num(0.0), "longitude" := Num(0.0), "altitude" := Num(0.0)]
  }

  // The command list

  /** A command in the list; its id is the clock reading when it was
      created. */
  datatype Command = Command(id: int, cmdType: CommandType, parameters: Params)

  /** The planner's list, its selected command (a copy) and the ids of the
      expanded list items. */
  datatype Planner = Planner(waypoints: seq<Command>, selected: Option<Command>, expanded: set<int>)

  /** The defaults with the position and altitude laid over them. */
  function Placed(t: CommandType, lat: real, lng: real, altitude: real): (p: Params)
    ensures p.Keys == DefaultParams(t).Keys + {Latitude, Longitude, Altitude}
    ensures p[Latitude] == Num(lat) && p[Longitude] == Num(lng) && p[Altitude] == Num(altitude)
    ensures forall k | k in DefaultParams(t) && k != Latitude && k != Longitude && k != Altitude :: p[k] == DefaultParams(t)[k]
  {
    DefaultParams(t)[Latitude := Num(lat)][Longitude := Num(lng)][Altitude := Num(altitude)]
  }

  /** A click on the map clears the selection; a left click (button 0)
      also appends a command of the current type at the clicked point and
      the default altitude. */
  function HandleMapClick(p: Planner, button: int, lat: real, lng: real, now: int, current: CommandType,
                          defaultAltitude: real): (r: Planner)
    ensures r.selected.None? && r.expanded == p.expanded
    ensures button != 0 ==> r.waypoints == p.waypoints
    ensures button == 0 ==>
      r.waypoints == p.waypoints + [Command(now, current, Placed(current, lat, lng, defaultAltitude))]
  {
    if button == 0 then Planner(p.waypoints + [Command(now, current, Placed(current, lat, lng, defaultAltitude))], None, p.expanded)
    else p.(selected := None)
  }

  /** Only waypoints and landings take the position from the menu. */
  predicate TakesPosition(t: CommandType) {
    t.Waypoint? || t.Land?
  }

  /** "Add command" from the context menu: appends a command of type `t`,
      placed at the menu's position only for a waypoint or a landing, and
      selects it. */
  function AddCommand(p: Planner, t: CommandType, lat: real, lng: real, now: int, defaultAltitude: real): (r: Planner)
    ensures |r.waypoints| == |p.waypoints| + 1 && r.waypoints[..|p.waypoints|] == p.waypoints
    ensures r.selected == Some(r.waypoints[|p.waypoints|]) && r.expanded == p.expanded
    ensures var c := r.waypoints[|p.waypoints|];
      && c.id == now && c.cmdType == t
      && (TakesPosition(t) ==> c.parameters == Placed(t, lat, lng, defaultAltitude))
      && (!TakesPosition(t) ==> c.parameters == DefaultParams(t))
  {
    var params := if TakesPosition(t) then Placed(t, lat, lng, defaultAltitude) else DefaultParams(t);
    var c := Command(now, t, params);
    Planner(p.waypoints + [c], Some(c), p.expanded)
  }

  /** The list without the commands carrying `id`, in the same order. */
  function WithoutId(ws: seq<Command>, id: int): (r: seq<Command>)
    ensures |r| <= |ws|
    ensures forall k | 0 <= k < |r| :: r[k].id != id
    decreases |ws|
  {
    if |ws| == 0 then []
    else
      var rest := WithoutId(ws[1..], id);
      if ws[0].id == id then rest
      else
        var r := [ws[0]] + rest;
        assert forall k | 1 <= k < |r| :: r[k] == rest[k - 1];
        r
  }

  /** Exactly the commands with another id survive a removal. */
  lemma {:induction false} WithoutIdMembers(ws: seq<Command>, id: int)
    ensures forall c :: c in WithoutId(ws, id) <==> c in ws && c.id != id
    decreases |ws|
  {
    if |ws| > 0 {
      WithoutIdMembers(ws[1..], id);
      assert ws == [ws[0]] + ws[1..];
    }
  }

  /** Removal works piecewise, so the kept commands stay in order. */
  lemma {:induction false} WithoutIdAppend(a: seq<Command>, b: seq<Command>, id: int)
    ensures WithoutId(a + b, id) == WithoutId(a, id) + WithoutId(b, id)
    decreases |a|
  {
    if |a| == 0 {
      assert a + b == b;
    } else {
      WithoutIdAppend(a[1..], b, id);
      assert (a + b)[1..] == a[1..] + b;
    }
  }

  /** A list without the id is left as it is. */
  lemma {:induction false} WithoutAbsentId(ws: seq<Command>, id: int)
    requires forall k | 0 <= k < |ws| :: ws[k].id != id
    ensures WithoutId(ws, id) == ws
    decreases |ws|
  {
    if |ws| > 0 {
      WithoutAbsentId(ws[1..], id);
    }
  }

  /** Deleting a command removes every entry with its id and clears the
      selection only when the selected command had that id. */
  function DeleteWaypoint(p: Planner, id: int): (r: Planner)
    ensures r.waypoints == WithoutId(p.waypoints, id) && r.expanded == p.expanded
    ensures r.selected.None? <==> p.selected.None? || p.selected.value.id == id
    ensures r.selected.Some? ==> r.selected == p.selected
  {
    var selected := if p.selected.Some? && p.selected.value.id == id then None else p.selected;
    Planner(WithoutId(p.waypoints, id), selected, p.expanded)
  }

  /** Deleting twice is deleting once. */
  lemma DeleteIdempotent(p: Planner, id: int)
    ensures DeleteWaypoint(DeleteWaypoint(p, id), id) == DeleteWaypoint(p, id)
  {
    WithoutAbsentId(WithoutId(p.waypoints, id), id);
  }

  /** The position of the first command with `id`, as `findIndex`. */
  function FindIndex(ws: seq<Command>, id: int): (r: Option<nat>)
    ensures r.None? <==> forall k | 0 <= k < |ws| :: ws[k].id != id
    ensures r.Some? ==> r.value < |ws| && ws[r.value].id == id && forall k | 0 <= k < r.value :: ws[k].id != id
    decreases |ws|
  {
    if |ws| == 0 then None
    else if ws[0].id == id then Some(0)
    else match FindIndex(ws[1..], id)
      case None => None
      case Some(i) => Some(i + 1)
  }

  datatype Direction = Up | Down

  function Swap(ws: seq<Command>, i: nat, j: nat): (r: seq<Command>)
    requires i < |ws| && j < |ws|
    ensures |r| == |ws| && r[i] == ws[j] && r[j] == ws[i]
    ensures forall k | 0 <= k < |ws| && k != i && k != j :: r[k] == ws[k]
    ensures multiset(r) == multiset(ws)
  {
    ws[i := ws[j]][j := ws[i]]
  }

  /** Moving a command exchanges it with its neighbour above or below; an
      unknown id, or a move past either end, changes nothing. */
  function MoveWaypoint(ws: seq<Command>, id: int, dir: Direction): (r: seq<Command>)
    ensures |r| == |ws| && multiset(r) == multiset(ws)
    ensures FindIndex(ws, id).None? ==> r == ws
    ensures FindIndex(ws, id) == Some(0) && dir.Up? ==> r == ws
    ensures FindIndex(ws, id) == Some(|ws| - 1) && dir.Down? ==> r == ws
  {
    match FindIndex(ws, id)
    case None => ws
    case Some(i) =>
      var j := if dir.Up? then i - 1 else i + 1;
      if j < 0 || j >= |ws| then ws else Swap(ws, i, j)
  }

  /** A move that happens exchanges exactly the command and its
      neighbour. */
  lemma MoveSwapsNeighbours(ws: seq<Command>, id: int, dir: Direction, i: nat)
    requires FindIndex(ws, id) == Some(i)
    requires if dir.Up? then i > 0 else i + 1 < |ws|
    ensures var j := if dir.Up? then i - 1 else i + 1;
      var r := MoveWaypoint(ws, id, dir);
      && r[j] == ws[i] && r[i] == ws[j]
      && forall k | 0 <= k < |ws| && k != i && k != j :: r[k] == ws[k]
  {
  }

  /** Moving a command up and then down again restores the list. */
  lemma UpThenDownRestores(ws: seq<Command>, id: int)
    requires FindIndex(ws, id).Some? && FindIndex(ws, id).value > 0
    ensures MoveWaypoint(MoveWaypoint(ws, id, Up), id, Down) == ws
  {
    var i := FindIndex(ws, id).value;
    var up := MoveWaypoint(ws, id, Up);
    assert up == Swap(ws, i, i - 1);
    assert forall k | 0 <= k < i - 1 :: up[k] == ws[k];
    assert FindIndex(up, id) == Some(i - 1);
    assert MoveWaypoint(up, id, Down) == Swap(up, i - 1, i);
    assert Swap(up, i - 1, i) == ws;
  }

  /** Changing a parameter rewrites it in every command with the id and
      leaves everything else alone. */
  function UpdateWaypointParameter(ws: seq<Command>, id: int, name: string, value: ParamValue): (r: seq<Command>)
    ensures |r| == |ws|
    ensures forall k | 0 <= k < |ws| ::
      && r[k].id == ws[k].id && r[k].cmdType == ws[k].cmdType
      && r[k].parameters.Keys == ws[k].parameters.Keys + (if ws[k].id == id then {name} else {})
      && (ws[k].id == id ==> r[k].parameters[name] == value)
      && (forall n | n in ws[k].parameters && (n != name || ws[k].id != id) :: r[k].parameters[n] == ws[k].parameters[n])
  {
    seq(|ws|, k requires 0 <= k < |ws| =>
      if ws[k].id == id then ws[k].(parameters := ws[k].parameters[name := value]) else ws[k])
  }

  /** Writing the same value twice is writing it once. */
  lemma UpdateIdempotent(ws: seq<Command>, id: int, name: string, value: ParamValue)
    ensures UpdateWaypointParameter(UpdateWaypointParameter(ws, id, name, value), id, name, value)
         == UpdateWaypointParameter(ws, id, name, value)
  {
    var once := UpdateWaypointParameter(ws, id, name, value);
    var twice := UpdateWaypointParameter(once, id, name, value);
    forall k | 0 <= k < |ws|
      ensures twice[k] == once[k]
    {
      if ws[k].id == id {
        assert twice[k].parameters == once[k].parameters;
      }
    }
  }

  /** Opening or closing a list item flips only that item. */
  function ToggleExpanded(expanded: set<int>, id: int): (r: set<int>)
    ensures id in r <==> id !in expanded
    ensures forall x | x != id :: x in r <==> x in expanded
  {
    if id in expanded then expanded - {id} else expanded + {id}
  }

  lemma ToggleTwice(expanded: set<int>, id: int)
    ensures ToggleExpanded(ToggleExpanded(expanded, id), id) == expanded
  {
  }

  // Line segments

  datatype LineKind = Straight | Spline

  /** A segment: its kind, the altitudes at both ends and the
      (longitude, latitude) of both ends. */
  datatype Line = Line(kind: LineKind, startAlt: ParamValue, endAlt: ParamValue,
                       start: (ParamValue, ParamValue), end: (ParamValue, ParamValue))

  /** The command has a position: both latitude and longitude truthy, so
      a coordinate of exactly 0 counts as no position. */
  predicate Located(c: Command) {
    Truthy(Lookup(c.parameters, Latitude)) && Truthy(Lookup(c.parameters, Longitude))
  }

  /** The type pairs that never get a segment. */
  predicate Excluded(current: CommandType, next: CommandType) {
    current.Rtl? || next.Rtl? || current.Delay? || next.WaitUntil? || current.DoChangeSpeed?
  }

  /** Whether consecutive commands are joined by a segment. */
  predicate Joined(current: Command, next: Command) {
    Located(current) && Located(next) && !Excluded(current.cmdType, next.cmdType)
  }

  /** `altitude || 0`. */
  function AltitudeOrZero(c: Command): (v: ParamValue)
    ensures Truthy(Lookup(c.parameters, Altitude)) ==> v == c.parameters[Altitude]
    ensures !Truthy(Lookup(c.parameters, Altitude)) ==> v == Num(0.0)
  {
    if Truthy(Lookup(c.parameters, Altitude)) then c.parameters[Altitude] else Num(0.0)
  }

  /** A located command's coordinate (segments are only built between
      located commands, so the fallback is never drawn). */
  function Coordinate(c: Command, key: string): (v: ParamValue)
    ensures key in c.parameters ==> v == c.parameters[key]
  {
    if key in c.parameters then c.parameters[key] else Num(0.0)
  }

  /** The segment from `current` to `next`: a spline when it leads to a
      spline waypoint. */
  function SegmentOf(current: Command, next: Command): (l: Line)
    ensures l.kind.Spline? <==> next.cmdType.SplineWaypoint?
  {
    Line(if next.cmdType.SplineWaypoint? then Spline else Straight,
         AltitudeOrZero(current), AltitudeOrZero(next),
         (Coordinate(current, Longitude), Coordinate(current, Latitude)),
         (Coordinate(next, Longitude), Coordinate(next, Latitude)))
  }

  /** Whether each consecutive pair is joined, position by position. */
  function JoinFlags(ws: seq<Command>): (f: seq<bool>)
    ensures |ws| > 0 ==> |f| == |ws| - 1
    ensures |ws| == 0 ==> f == []
    ensures forall i | 0 <= i < |f| :: f[i] == Joined(ws[i], ws[i + 1])
  {
    if |ws| == 0 then [] else seq(|ws| - 1, i requires 0 <= i < |ws| - 1 => Joined(ws[i], ws[i + 1]))
  }

  /** The positions, from `from` on, whose flag is set, in order. */
  function TrueIndices(flags: seq<bool>, from: nat): (r: seq<nat>)
    ensures forall k | 0 <= k < |r| :: from <= r[k] < |flags| && flags[r[k]]
    ensures forall k, l | 0 <= k < l < |r| :: r[k] < r[l]
    ensures from <= |flags| ==> |r| <= |flags| - from
    ensures from >= |flags| ==> r == []
    decreases |flags| - from
  {
    if from >= |flags| then []
    else
      var rest := TrueIndices(flags, from + 1);
      if flags[from] then
        var r := [from] + rest;
        assert forall k | 0 <= k < |rest| :: r[k + 1] == rest[k];
        r
      else rest
  }

  /** Every set flag from `from` on is listed. */
  lemma {:induction false} TrueIndicesComplete(flags: seq<bool>, from: nat, i: nat)
    requires from <= i < |flags| && flags[i]
    ensures i in TrueIndices(flags, from)
    decreases i - from
  {
    if from < i {
      TrueIndicesComplete(flags, from + 1, i);
    }
  }

  /** The reference for the segment filter: the positions `i` whose
      command is joined to command `i + 1`, in increasing order. */
  function JoinedIndices(ws: seq<Command>): (r: seq<nat>)
    ensures forall k | 0 <= k < |r| :: r[k] + 1 < |ws| && Joined(ws[r[k]], ws[r[k] + 1])
    ensures forall k, l | 0 <= k < l < |r| :: r[k] < r[l]
  {
    TrueIndices(JoinFlags(ws), 0)
  }

  /** Every joined consecutive pair is listed. */
  lemma JoinedIndicesComplete(ws: seq<Command>, i: nat)
    requires i + 1 < |ws| && Joined(ws[i], ws[i + 1])
    ensures i in JoinedIndices(ws)
  {
    TrueIndicesComplete(JoinFlags(ws), 0, i);
  }

  /** The segment between positions `i` and `i + 1`. */
  function SegmentAt(ws: seq<Command>, i: nat): Line
    requires i + 1 < |ws|
  {
    SegmentOf(ws[i], ws[i + 1])
  }

  /** The segments for the set flags from position `from` on, in list
      order; flag `i` stands for the pair at `i` and `i + 1`. */
  function LinesFrom(ws: seq<Command>, flags: seq<bool>, from: nat): (r: seq<Line>)
    requires |flags| < |ws| || |flags| == 0
    ensures |r| == |TrueIndices(flags, from)|
    decreases |flags| - from
  {
    if from >= |flags| then []
    else
      var rest := LinesFrom(ws, flags, from + 1);
      if flags[from] then [SegmentAt(ws, from)] + rest else rest
  }

  /** The `k`-th segment joins the pair at the `k`-th set flag. */
  lemma {:induction false} LinesFromAt(ws: seq<Command>, flags: seq<bool>, from: nat, k: nat)
    requires |flags| < |ws| || |flags| == 0
    requires k < |LinesFrom(ws, flags, from)|
    ensures var i := TrueIndices(flags, from)[k];
      i + 1 < |ws| && LinesFrom(ws, flags, from)[k] == SegmentAt(ws, i)
    decreases |flags| - from
  {
    var later := TrueIndices(flags, from + 1);
    if flags[from] {
      assert TrueIndices(flags, from) == [from] + later;
      if k > 0 {
        LinesFromAt(ws, flags, from + 1, k - 1);
      }
    } else {
      assert TrueIndices(flags, from) == later;
      LinesFromAt(ws, flags, from + 1, k);
    }
  }

  /** `getWaypointLines`: one segment per joined consecutive pair, in
      list order, so at most one fewer than there are commands. */
  function WaypointLines(ws: seq<Command>): (r: seq<Line>)
    ensures |ws| > 0 ==> |r| <= |ws| - 1
    ensures |ws| <= 1 ==> r == []
    ensures |r| == |JoinedIndices(ws)|
  {
    LinesFrom(ws, JoinFlags(ws), 0)
  }

  /** The `k`-th segment joins the `k`-th joined pair. */
  lemma LineAt(ws: seq<Command>, k: nat)
    requires k < |WaypointLines(ws)|
    ensures var i := JoinedIndices(ws)[k];
      i + 1 < |ws| && Joined(ws[i], ws[i + 1]) && WaypointLines(ws)[k] == SegmentOf(ws[i], ws[i + 1])
  {
    LinesFromAt(ws, JoinFlags(ws), 0, k);
  }

  /** Every joined consecutive pair gets its segment. */
  lemma JoinedPairsDrawn(ws: seq<Command>, i: nat)
    requires i + 1 < |ws| && Joined(ws[i], ws[i + 1])
    ensures SegmentOf(ws[i], ws[i + 1]) in WaypointLines(ws)
  {
    var d := JoinedIndices(ws);
    var lines := WaypointLines(ws);
    JoinedIndicesComplete(ws, i);
    var k :| 0 <= k < |d| && d[k] == i;
    assert k < |lines|;
    LineAt(ws, k);
    assert lines[k] == SegmentOf(ws[i], ws[i + 1]);
  }

  /** A segment is drawn as a spline exactly when it leads to a spline
      waypoint. */
  lemma SplineIffNextIsSpline(ws: seq<Command>, k: nat)
    requires k < |WaypointLines(ws)|
    ensures var i := JoinedIndices(ws)[k];
      WaypointLines(ws)[k].kind.Spline? <==> ws[i + 1].cmdType.SplineWaypoint?
  {
    LineAt(ws, k);
  }

  /** A command at latitude 0 touches no segment. */
  lemma ZeroLatitudeUnjoined(ws: seq<Command>, i: nat)
    requires i < |ws| && Lookup(ws[i].parameters, Latitude) == Some(Num(0.0))
    ensures i !in JoinedIndices(ws) && (i > 0 ==> i - 1 !in JoinedIndices(ws))
  {
    var d := JoinedIndices(ws);
    assert !Located(ws[i]);
    forall k | 0 <= k < |d|
      ensures d[k] != i && d[k] + 1 != i
    {
      assert Joined(ws[d[k]], ws[d[k] + 1]);
    }
  }

  /** Two waypoints clicked at non-zero coordinates are joined by one
      straight segment at the default altitude. */
  lemma ClickedWaypointsJoin(lat1: real, lng1: real, lat2: real, lng2: real, t1: int, t2: int, alt: real)
    requires lat1 != 0.0 && lng1 != 0.0 && lat2 != 0.0 && lng2 != 0.0 && alt != 0.0
    ensures var p := HandleMapClick(HandleMapClick(Planner([], None, {}), 0, lat1, lng1, t1, Waypoint, alt),
                                    0, lat2, lng2, t2, Waypoint, alt);
      WaypointLines(p.waypoints) == [Line(Straight, Num(alt), Num(alt), (Num(lng1), Num(lat1)), (Num(lng2), Num(lat2)))]
  {
    var c1 := Command(t1, Waypoint, Placed(Waypoint, lat1, lng1, alt));
    var c2 := Command(t2, Waypoint, Placed(Waypoint, lat2, lng2, alt));
    var ws := [c1, c2];
    assert HandleMapClick(Planner([], None, {}), 0, lat1, lng1, t1, Waypoint, alt).waypoints == [c1];
    assert [c1] + [c2] == ws;
    assert Joined(c1, c2);
    assert JoinFlags(ws) == [true];
    assert TrueIndices([true], 1) == [];
    assert JoinedIndices(ws) == [0];
  }

  /** A region of interest added from the menu stays at latitude 0, so
      it is never joined, wherever the menu was opened. */
  lemma AddedRoiUnjoined(p: Planner, lat: real, lng: real, now: int, alt: real)
    ensures var ws := AddCommand(p, DoSetRoi, lat, lng, now, alt).waypoints;
      |p.waypoints| !in JoinedIndices(ws) && (|p.waypoints| > 0 ==> |p.waypoints| - 1 !in JoinedIndices(ws))
  {
    var ws := AddCommand(p, DoSetRoi, lat, lng, now, alt).waypoints;
    assert Lookup(ws[|p.waypoints|].parameters, Latitude) == Some(Num(0.0));
    ZeroLatitudeUnjoined(ws, |p.waypoints|);
  }
}

=== FILE: numbers.dfy ===
/** The integer widths and number parsers the catalog relies on: Rust's
    `u32`, `str::parse::<u32>` and the decimal part of `str::parse::<f64>`. */
module Numbers {

  import opened Wrappers
  import opened Text

  const U32Limit: int := 0x1_0000_0000

  /** Rust `u32`. */
  type U32 = x: int | 0 <= x < U32Limit

  function Pow2(n: nat): (r: nat)
    ensures r >= 1
  {
    if n == 0 then 1 else 2 * Pow2(n - 1)
  }

  function Pow10(n: nat): (r: nat)
    ensures r >= 1
  {
    if n == 0 then 1 else 10 * Pow10(n - 1)
  }

  lemma {:induction false} Pow2Monotonic(a: nat, b: nat)
    requires a <= b
    ensures Pow2(a) <= Pow2(b)
    decreases b
  {
    if a < b {
      Pow2Monotonic(a, b - 1);
    }
  }

  /** The largest shift result a `u32` can hold. */
  lemma Pow2ThirtyOne()
    ensures Pow2(31) == 0x8000_0000
  {
    assert Pow2(1) == 2;
    assert Pow2(2) == 4;
    assert Pow2(3) == 8;
    assert Pow2(4) == 16;
    assert Pow2(5) == 32;
    assert Pow2(6) == 64;
    assert Pow2(7) == 128;
    assert Pow2(8) == 256;
    assert Pow2(9) == 512;
    assert Pow2(10) == 1024;
    assert Pow2(11) == 2048;
    assert Pow2(12) == 4096;
    assert Pow2(13) == 8192;
    assert Pow2(14) == 16384;
    assert Pow2(15) == 32768;
    assert Pow2(16) == 65536;
    assert Pow2(17) == 131072;
    assert Pow2(18) == 262144;
    assert Pow2(19) == 524288;
    assert Pow2(20) == 1048576;
    assert Pow2(21) == 2097152;
    assert Pow2(22) == 4194304;
    assert Pow2(23) == 8388608;
    assert Pow2(24) == 16777216;
    assert Pow2(25) == 33554432;
    assert Pow2(26) == 67108864;
    assert Pow2(27) == 134217728;
    assert Pow2(28) == 268435456;
    assert Pow2(29) == 536870912;
    assert Pow2(30) == 1073741824;
    assert Pow2(31) == 2147483648;
  }

  /** Rust `1u32 << n` in a release build: the shift amount is masked to
      its low five bits, so the result always fits in a `u32`. (A debug
      build panics when `n >= 32` instead.) */
  function ShiftLeftOne(n: U32): (r: U32)
    ensures r == Pow2(n % 32)
  {
    Pow2Monotonic(n % 32, 31);
    Pow2ThirtyOne();
    Pow2(n % 32)
  }

  /** Rust `str::parse::<u32>`: an optional `+`, then one or more ASCII
      digits whose value fits in 32 bits. A `-`, whitespace, a fraction or
      an empty digit run is an error. */
  function ParseU32(s: string): (r: Option<U32>)
    ensures r.Some? ==> |s| > 0 && HasDigit(s)
    ensures r.Some? ==> forall i | 0 <= i < |s| :: IsDigit(s[i]) || (i == 0 && s[i] == '+')
  {
    var digits := if |s| > 0 && s[0] == '+' then s[1..] else s;
    if |digits| == 0 || !AllDigits(digits) then None
    else if DigitsValue(digits) < U32Limit then
      assert forall i | 0 < i < |s| :: s[i] == s[1..][i - 1];
      assert IsDigit(s[|s| - 1]);
      Some(DigitsValue(digits))
    else None
  }

  /** Some character of `s` is a decimal digit. */
  predicate HasDigit(s: string) {
    exists i | 0 <= i < |s| :: IsDigit(s[i])
  }

  /** Every `u32` written in decimal parses back to itself. */
  lemma ParseU32RoundTrip(n: U32)
    ensures ParseU32(NatToString(n)) == Some(n)
  {
    NatToStringRoundTrip(n);
  }

  /** A string starting with `-` is never a `u32`. */
  lemma ParseU32RejectsMinus(s: string)
    ensures ParseU32("-" + s) == None
  {
    assert ("-" + s)[0] == '-';
  }

  /** Splits off an optional leading sign. */
  function SplitSign(s: string): (bool, string) {
    if |s| > 0 && (s[0] == '+' || s[0] == '-') then (s[0] == '-', s[1..]) else (false, s)
  }

  function IndexOfExponent(s: string): (r: Option<nat>)
    ensures r.Some? ==> r.value < |s| && (s[r.value] == 'e' || s[r.value] == 'E')
    ensures r.None? ==> 'e' !in s && 'E' !in s
    decreases |s|
  {
    if |s| == 0 then None
    else if s[0] == 'e' || s[0] == 'E' then Some(0)
    else match IndexOfExponent(s[1..])
      case None => None
      case Some(i) => Some(i + 1)
  }

  /** `Digit+ | Digit+ '.' Digit* | Digit* '.' Digit+` and its value. */
  function ParseMantissa(m: string): Option<real> {
    if '.' in m then
      var (ip, fp) := SplitOnce(m, '.').value;
      if AllDigits(ip) && AllDigits(fp) && |ip| + |fp| > 0 then
        Some(DigitsValue(ip) as real + DigitsValue(fp) as real / Pow10(|fp|) as real)
      else None
    else if |m| > 0 && AllDigits(m) then Some(DigitsValue(m) as real)
    else None
  }

  /** `Sign? Digit+` as the decimal exponent. */
  function ParseExponent(e: string): Option<int> {
    var (negative, digits) := SplitSign(e);
    if |digits| == 0 || !AllDigits(digits) then None
    else
      var v: int := DigitsValue(digits);
      Some(if negative then -v else v)
  }

  function Scale(x: real, e: int): real {
    if e >= 0 then x * Pow10(e) as real else x / Pow10(-e) as real
  }

  /** The decimal grammar of Rust `str::parse::<f64>`: optional sign,
      mantissa with optional point, optional exponent. The words `inf`,
      `infinity` and `nan` parse in Rust but give values that fail every
      comparison against finite bounds, so they appear here as failures;
      rounding to the nearest double is not modelled. */
  function ParseF64(s: string): (r: Option<real>)
    ensures r.Some? ==> |s| > 0 && HasDigit(s)
  {
    var (negative, body) := SplitSign(s);
    UnsignedNeedsDigit(s);
    match ParseUnsigned(body)
    case None => None
    case Some(x) => Some(if negative then -x else x)
  }

  /** A number without its sign: mantissa and optional exponent. */
  function ParseUnsigned(body: string): Option<real> {
    match IndexOfExponent(body)
    case None => ParseMantissa(body)
    case Some(i) =>
      match (ParseMantissa(body[..i]), ParseExponent(body[i + 1..]))
      case (Some(m), Some(e)) => Some(Scale(m, e))
      case _ => None
  }

  /** Whatever follows the sign needs a digit to be a number. */
  lemma UnsignedNeedsDigit(s: string)
    ensures ParseUnsigned(SplitSign(s).1).Some? ==> HasDigit(s)
  {
    var body := SplitSign(s).1;
    if !HasDigit(s) {
      forall i | 0 <= i < |body|
        ensures !IsDigit(body[i])
      {
        assert body[i] == s[i + |s| - |body|];
      }
      match IndexOfExponent(body)
      case None =>
        MantissaNeedsDigit(body);
      case Some(i) =>
        var m := body[..i];
        assert forall j | 0 <= j < |m| :: !IsDigit(m[j]);
        MantissaNeedsDigit(m);
    }
  }

  /** A plain decimal integer parses as the same real number. */
  lemma ParseF64OfNat(n: nat)
    ensures ParseF64(NatToString(n)) == Some(n as real)
  {
    var s := NatToString(n);
    assert !IsDigit('+') && !IsDigit('-') && !IsDigit('e') && !IsDigit('E') && !IsDigit('.');
    assert SplitSign(s) == (false, s);
    assert '.' !in s;
    NatToStringRoundTrip(n);
  }

  /** A negated decimal integer parses as the negated real number. */
  lemma ParseF64OfNegatedNat(n: nat)
    ensures ParseF64("-" + NatToString(n)) == Some(-(n as real))
  {
    var d := NatToString(n);
    var s := "-" + d;
    assert s[1..] == d;
    assert SplitSign(s) == (true, d);
    assert !IsDigit('e') && !IsDigit('E') && !IsDigit('.');
    assert '.' !in d;
    NatToStringRoundTrip(n);
  }

  /** Whatever parses as a `u32` parses as the same `f64`. */
  lemma U32LiteralIsF64Literal(s: string)
    requires ParseU32(s).Some?
    ensures ParseF64(s) == Some(ParseU32(s).value as real)
  {
    var digits := if s[0] == '+' then s[1..] else s;
    assert |digits| > 0 && AllDigits(digits) && ParseU32(s).value == DigitsValue(digits);
    assert !IsDigit('+') && !IsDigit('-') && !IsDigit('e') && !IsDigit('E') && !IsDigit('.');
    assert SplitSign(s) == (false, digits);
    assert '.' !in digits && 'e' !in digits && 'E' !in digits;
    assert ParseUnsigned(digits) == Some(DigitsValue(digits) as real);
  }

  /** A mantissa needs a digit. */
  lemma MantissaNeedsDigit(m: string)
    requires forall i | 0 <= i < |m| :: !IsDigit(m[i])
    ensures ParseMantissa(m) == None
  {
    if '.' in m {
      var (ip, fp) := SplitOnce(m, '.').value;
      assert m == ip + ['.'] + fp;
      assert |ip| > 0 ==> ip[0] == m[0];
      assert |fp| > 0 ==> fp[0] == m[|ip| + 1];
    }
  }
}

=== FILE: param_id.dfy ===
/** The 16-byte `param_id` field of the MAVLink `PARAM_SET` and
    `PARAM_VALUE` messages (message ids 23 and 22 of the MAVLink common
    message set): a `char[16]` padded with NULs and, at exactly 16
    characters, without a terminator. Encoding is the backend's copy into
    the field; decoding is the front end's `String.fromCharCode` over the
    bytes followed by removing every NUL. */
module ParamId {

  import opened Text

  const ParamIdLength: nat := 16

  function Zeros(n: nat): (r: seq<Byte>)
    ensures |r| == n
    ensures forall i | 0 <= i < n :: r[i] == 0
  {
    seq(n, i => 0)
  }

  /** The first `min(len, 16)` UTF-8 bytes of the name followed by zeros.
      A longer name is cut silently, possibly inside a multi-byte
      character. */
  function EncodeParamId(name: string): (r: seq<Byte>)
    ensures |r| == ParamIdLength
    ensures forall i | 0 <= i < ParamIdLength ::
      r[i] == if i < |Utf8Encode(name)| then Utf8Encode(name)[i] else 0
  {
    var bytes := Utf8Encode(name);
    var n := if |bytes| < ParamIdLength then |bytes| else ParamIdLength;
    bytes[..n] + Zeros(ParamIdLength - n)
  }

  /** Each byte as the character with that code (so bytes above 127 read
      as Latin-1, not as UTF-8), then every NUL removed. */
  function DecodeParamId(bytes: seq<Byte>): (r: string)
    ensures '\0' !in r
    ensures |r| <= |bytes|
  {
    RemoveChar(seq(|bytes|, i requires 0 <= i < |bytes| => bytes[i] as char), '\0')
  }

  predicate ShortAsciiName(name: string) {
    IsAscii(name) && |name| <= ParamIdLength && '\0' !in name
  }

  /** A name of at most 16 ASCII characters without NUL reads back as
      itself. */
  lemma ParamIdRoundTrip(name: string)
    requires ShortAsciiName(name)
    ensures DecodeParamId(EncodeParamId(name)) == name
  {
    Utf8EncodeAscii(name);
    var bytes := EncodeParamId(name);
    var chars := seq(|bytes|, i requires 0 <= i < |bytes| => bytes[i] as char);
    assert chars == name + seq(ParamIdLength - |name|, i => '\0');
    RemoveCharAppend(name, seq(ParamIdLength - |name|, i => '\0'), '\0');
    RemoveCharAbsent(name, '\0');
    RemoveCharOnly(seq(ParamIdLength - |name|, i => '\0'), '\0');
  }

  /** Distinct short ASCII names never share a `param_id`. */
  lemma ParamIdInjective(a: string, b: string)
    requires ShortAsciiName(a) && ShortAsciiName(b)
    requires EncodeParamId(a) == EncodeParamId(b)
    ensures a == b
  {
    ParamIdRoundTrip(a);
    ParamIdRoundTrip(b);
  }

  /** Names longer than 16 bytes are truncated: every longer name that
      starts with the same 16 bytes gets the same field. */
  lemma LongNamesTruncate(a: string, b: string)
    requires |Utf8Encode(a)| >= ParamIdLength && |Utf8Encode(b)| >= ParamIdLength
    requires Utf8Encode(a)[..ParamIdLength] == Utf8Encode(b)[..ParamIdLength]
    ensures EncodeParamId(a) == EncodeParamId(b)
  {
    var ea := EncodeParamId(a);
    var eb := EncodeParamId(b);
    forall i | 0 <= i < ParamIdLength
      ensures ea[i] == eb[i]
    {
      assert Utf8Encode(a)[i] == Utf8Encode(a)[..ParamIdLength][i];
      assert Utf8Encode(b)[i] == Utf8Encode(b)[..ParamIdLength][i];
    }
  }
}

=== FILE: parameter_meta.dfy ===
/** The parameter catalog of the autopilot: parameter descriptors, the
    value check a descriptor performs (`Parameter::validate_value`), and the
    catalog reader (`parse_parameters`) as a fold over the XML reader's
    events. The XML tokenizer and attribute unescaping are outside the
    model: the input is the event sequence the reader would produce, with
    attribute values already unescaped. */
module ParameterMeta {

  import opened Wrappers
  import opened SeqFacts
  import opened Text
  import opened Numbers

  /** One `code:label` entry of a `values` or `bitmask` element (Rust
      `Value` and `BitFlag`, which have the same shape). */
  datatype CodeLabel = CodeLabel(code: U32, name: string)

  /** The value space of a parameter. `Unconstrained` is Rust's
      `FieldType::None`. Range bounds are reals: `f64` rounding, NaN and
      infinities are not modelled. */
  datatype FieldType =
    | Range(min: real, max: real, increment: Option<real>, units: Option<string>)
    | Bitmask(flags: seq<CodeLabel>)
    | Values(values: seq<CodeLabel>)
    | Unconstrained

  datatype Parameter = Parameter(humanName: string, documentation: string, user: string, fieldType: FieldType)

  type Catalog = map<string, Parameter>

  // Validation

  /** Highest declared bit position, 0 when there are no flags
      (`flags.iter().map(|f| f.code).max().unwrap_or(0)`). */
  function MaxCode(flags: seq<CodeLabel>): (m: U32)
    ensures forall i | 0 <= i < |flags| :: flags[i].code <= m
    ensures |flags| == 0 ==> m == 0
    ensures |flags| > 0 ==> exists i | 0 <= i < |flags| :: flags[i].code == m
    decreases |flags|
  {
    if |flags| == 0 then 0
    else
      var rest := MaxCode(flags[1..]);
      assert forall i | 1 <= i < |flags| :: flags[i] == flags[1..][i - 1];
      if flags[0].code >= rest then flags[0].code else rest
  }

  predicate HasCode(entries: seq<CodeLabel>, code: int) {
    exists i | 0 <= i < |entries| :: entries[i].code == code
  }

  /** `Parameter::validate_value`. A range accepts a number within both
      bounds inclusive; a value list accepts exactly its declared codes; a
      bitmask accepts a `u32` up to `1 << max_code` (sic: the highest
      single flag, not all flags together, and with the shift amount
      masked to five bits); an unconstrained parameter accepts anything.
      A string that does not parse is rejected by every constrained type. */
  function ValidateValue(p: Parameter, value: string): (ok: bool)
    ensures p.fieldType.Unconstrained? ==> ok
    ensures ok && p.fieldType.Range? ==> ParseF64(value).Some?
    ensures ok && (p.fieldType.Bitmask? || p.fieldType.Values?) ==> ParseU32(value).Some?
    ensures ok && p.fieldType.Values? ==> HasCode(p.fieldType.values, ParseU32(value).value)
  {
    match p.fieldType
    case Range(min, max, _, _) =>
      (match ParseF64(value)
       case Some(x) => min <= x && x <= max
       case None => false)
    case Bitmask(flags) =>
      (match ParseU32(value)
       case Some(n) => n <= ShiftLeftOne(MaxCode(flags))
       case None => false)
    case Values(values) =>
      (match ParseU32(value)
       case Some(n) => HasCode(values, n)
       case None => false)
    case Unconstrained => true
  }

  /** A range check on a whole number accepts exactly the numbers between
      the bounds, both ends included. */
  lemma RangeIsInclusive(p: Parameter, n: nat)
    requires p.fieldType.Range?
    ensures ValidateValue(p, NatToString(n)) <==> p.fieldType.min <= n as real <= p.fieldType.max
  {
    ParseF64OfNat(n);
  }

  /** A value list accepts a code iff the catalog declares it. */
  lemma ValuesAcceptExactlyDeclared(p: Parameter, code: U32)
    requires p.fieldType.Values?
    ensures ValidateValue(p, NatToString(code)) <==> HasCode(p.fieldType.values, code)
  {
    ParseU32RoundTrip(code);
  }

  /** A bitmask accepts a `u32` iff it is at most one shifted by the
      highest declared position (taken modulo 32). */
  lemma BitmaskBound(p: Parameter, n: U32)
    requires p.fieldType.Bitmask?
    ensures ValidateValue(p, NatToString(n)) <==> n <= Pow2(MaxCode(p.fieldType.flags) % 32)
  {
    ParseU32RoundTrip(n);
  }

  /** Negative numbers never pass a bitmask or value-list check. */
  lemma NegativeRejected(p: Parameter, digits: string)
    requires p.fieldType.Bitmask? || p.fieldType.Values?
    ensures !ValidateValue(p, "-" + digits)
  {
    ParseU32RejectsMinus(digits);
  }

  /** The bound is `1 << max_code`, not `(1 << (max_code + 1)) - 1`: with
      flags at bits 0 and 1, the mask 3 (both flags set) is rejected while
      the mask 2 (only the highest flag) is accepted. */
  lemma BitmaskBoundRejectsAllFlagsSet(p: Parameter, low: string, high: string)
    requires p.fieldType == Bitmask([CodeLabel(0, low), CodeLabel(1, high)])
    ensures ValidateValue(p, NatToString(2)) && !ValidateValue(p, NatToString(3))
  {
    var flags := p.fieldType.flags;
    assert MaxCode(flags[1..]) == 1;
    var m := MaxCode(flags);
    assert m == 1;
    assert Pow2(m % 32) == 2 by {
      assert m % 32 == 1;
      assert Pow2(1) == 2;
    }
    BitmaskBound(p, 2);
    BitmaskBound(p, 3);
  }

  /** The worked examples: range [0, 10] accepts "5" and rejects "11" and
      "abc"; a value list {1, 2} accepts "2" and rejects "3". */
  lemma ValidationExamples()
    ensures var r := Parameter("", "", "", Range(0.0, 10.0, None, None));
      ValidateValue(r, "5") && !ValidateValue(r, "11") && !ValidateValue(r, "abc")
    ensures var v := Parameter("", "", "", Values([CodeLabel(1, "A"), CodeLabel(2, "B")]));
      ValidateValue(v, "2") && !ValidateValue(v, "3")
  {
    var r := Parameter("", "", "", Range(0.0, 10.0, None, None));
    assert NatToString(5) == "5" && NatToString(11) == "11";
    RangeIsInclusive(r, 5);
    RangeIsInclusive(r, 11);
    assert !HasDigit("abc");
    var vs := [CodeLabel(1, "A"), CodeLabel(2, "B")];
    var v := Parameter("", "", "", Values(vs));
    assert vs[1].code == 2;
    assert !HasCode(vs, 3);
    ValuesAcceptExactlyDeclared(v, 2);
    ValuesAcceptExactlyDeclared(v, 3);
    assert NatToString(2) == "2";
    assert NatToString(3) == "3";
  }

  // Reading the catalog

  /** Only parameters of this vehicle namespace are kept. */
  const VehiclePrefix := "ArduCopter:"

  datatype Attr = Attr(key: string, value: string)

  /** The reader events that matter. `Other` stands for every event the
      reader ignores (self-closing elements, text, other end tags, other
      start tags); `ReadError` for a reader or unescaping error. */
  datatype Event =
    | StartParam(attrs: seq<Attr>)
    | StartField(attrs: seq<Attr>)
    | StartValues(attrs: seq<Attr>)
    | StartBitmask(attrs: seq<Attr>)
    | EndParam
    | Other
    | ReadError

  datatype ParseError = ParseError

  /** The fold's state: the catalog so far, the open parameter (if any) and
      the field type waiting for the next `</param>`. */
  datatype ParseState = ParseState(catalog: Catalog, current: Option<(string, Parameter)>, pending: Option<FieldType>)

  const Initial := ParseState(map[], None, None)

  /** The attributes a `<param>` start tag sets. */
  datatype ParamHeader = ParamHeader(name: string, humanName: string, documentation: string, user: string)

  const EmptyHeader := ParamHeader("", "", "", "")

  /** The stored key for a `name` attribute: every occurrence of the
      namespace removed. */
  function StoredKey(value: string): string {
    RemoveAll(value, VehiclePrefix)
  }

  /** The attribute `a` is a `name` carrying the namespace. */
  predicate NamesKey(a: Attr, key: string) {
    a.key == "name" && StartsWith(a.value, VehiclePrefix) && StoredKey(a.value) == key
  }

  function ApplyParamAttr(h: ParamHeader, a: Attr): ParamHeader {
    if a.key == "name" then
      if StartsWith(a.value, VehiclePrefix) then h.(name := StoredKey(a.value)) else h
    else if a.key == "humanName" then h.(humanName := a.value)
    else if a.key == "documentation" then h.(documentation := a.value)
    else if a.key == "user" then h.(user := a.value)
    else h
  }

  /** Folds a `<param>` tag's attributes into `h`; a later attribute wins,
      and a `name` without the namespace leaves the name as it was. */
  function ReadParamAttrs(attrs: seq<Attr>, h: ParamHeader): (r: ParamHeader)
    ensures r.name == h.name || exists i | 0 <= i < |attrs| :: NamesKey(attrs[i], r.name)
    decreases |attrs|
  {
    if |attrs| == 0 then h
    else
      var r := ReadParamAttrs(attrs[1..], ApplyParamAttr(h, attrs[0]));
      assert forall i | 1 <= i < |attrs| :: attrs[i] == attrs[1..][i - 1];
      r
  }

  /** The attributes a `<field>` tag sets. */
  datatype FieldAttrs = FieldAttrs(kind: Option<string>, min: Option<real>, max: Option<real>,
                                   increment: Option<real>, units: Option<string>)

  const NoFieldAttrs := FieldAttrs(None, None, None, None, None)

  /** A `Range` attribute value with at least two tokens, whose first
      token reads as `min` and second as `max` (each possibly failing). */
  predicate RangeTokens(value: string, min: Option<real>, max: Option<real>) {
    var parts := SplitWhitespace(value);
    |parts| >= 2 && ParseF64(parts[0]) == min && ParseF64(parts[1]) == max
  }

  function ApplyFieldAttr(f: FieldAttrs, a: Attr): FieldAttrs {
    if a.key == "name" then f.(kind := Some(a.value))
    else if a.key == "Range" then
      var parts := SplitWhitespace(a.value);
      if |parts| >= 2 then f.(min := ParseF64(parts[0]), max := ParseF64(parts[1])) else f
    else if a.key == "Increment" then f.(increment := ParseF64(a.value))
    else if a.key == "Units" then f.(units := Some(a.value))
    else f
  }

  /** Folds a `<field>` tag's attributes into `f`. The kind comes from a
      `name` attribute and the bounds from a `Range` attribute with at
      least two tokens. */
  function ReadFieldAttrs(attrs: seq<Attr>, f: FieldAttrs): (r: FieldAttrs)
    ensures r.kind == f.kind || exists i | 0 <= i < |attrs| :: attrs[i].key == "name" && r.kind == Some(attrs[i].value)
    ensures (r.min, r.max) == (f.min, f.max)
         || exists i | 0 <= i < |attrs| :: attrs[i].key == "Range" && RangeTokens(attrs[i].value, r.min, r.max)
    decreases |attrs|
  {
    if |attrs| == 0 then f
    else
      var r := ReadFieldAttrs(attrs[1..], ApplyFieldAttr(f, attrs[0]));
      assert forall i | 1 <= i < |attrs| :: attrs[i] == attrs[1..][i - 1];
      r
  }

  /** A `<field>` replaces the pending type only when it is a `Range`
      field with both bounds read; any other field leaves it alone. */
  function FieldStep(pending: Option<FieldType>, f: FieldAttrs): (r: Option<FieldType>)
    ensures r != pending ==> f.kind == Some("Range") && f.min.Some? && f.max.Some?
    ensures r != pending ==> r == Some(Range(f.min.value, f.max.value, f.increment, f.units))
  {
    if f.kind == Some("Range") && f.min.Some? && f.max.Some? then
      Some(Range(f.min.value, f.max.value, f.increment, f.units))
    else pending
  }

  /** One `code:label` attribute value: split at the first `:`, the code
      trimmed and read as a `u32`, the label trimmed. */
  function ParseCodeLabel(value: string): (r: Option<CodeLabel>)
    ensures r.Some? ==> ':' in value && Trimmed(r.value.name)
  {
    match SplitOnce(value, ':')
    case None => None
    case Some((code, tag)) =>
      match ParseU32(Trim(code))
      case None => None
      case Some(c) => Some(CodeLabel(c, Trim(tag)))
  }

  /** A code written in decimal, a colon and any label read back as that
      code and the trimmed label. */
  lemma CodeLabelRoundTrip(code: U32, tag: string)
    ensures ParseCodeLabel(NatToString(code) + ":" + tag) == Some(CodeLabel(code, Trim(tag)))
  {
    var d := NatToString(code);
    assert forall i | 0 <= i < |d| :: d[i] != ':';
    SplitOnceAt(d, tag, ':');
    assert d + ":" + tag == d + [':'] + tag;
    assert !IsWhitespace(d[0]) && !IsWhitespace(d[|d| - 1]);
    TrimOfTrimmed(d);
    ParseU32RoundTrip(code);
  }

  predicate LabelsTrimmed(entries: seq<CodeLabel>) {
    forall k | 0 <= k < |entries| :: Trimmed(entries[k].name)
  }

  lemma LabelsTrimmedCons(e: CodeLabel, rest: seq<CodeLabel>)
    requires Trimmed(e.name) && LabelsTrimmed(rest)
    ensures LabelsTrimmed([e] + rest)
  {
    var r := [e] + rest;
    assert forall k | 1 <= k < |r| :: r[k] == rest[k - 1];
  }

  /** Every attribute of a `values` or `bitmask` tag, whatever its key,
      contributes the entry it reads as; the others are skipped. */
  function ParseCodeLabels(attrs: seq<Attr>): (r: seq<CodeLabel>)
    ensures |r| <= |attrs|
    ensures LabelsTrimmed(r)
    decreases |attrs|
  {
    if |attrs| == 0 then []
    else
      var rest := ParseCodeLabels(attrs[1..]);
      match ParseCodeLabel(attrs[0].value)
      case None => rest
      case Some(e) =>
        LabelsTrimmedCons(e, rest);
        [e] + rest
  }

  /** Entries are read attribute by attribute, in order. */
  lemma {:induction false} ParseCodeLabelsAppend(a: seq<Attr>, b: seq<Attr>)
    ensures ParseCodeLabels(a + b) == ParseCodeLabels(a) + ParseCodeLabels(b)
    decreases |a|
  {
    if |a| == 0 {
      assert a + b == b;
    } else {
      assert (a + b)[1..] == a[1..] + b;
      ParseCodeLabelsAppend(a[1..], b);
    }
  }

  /** One reader event applied to the state (errors are handled by
      `Advance`). */
  function Step(st: ParseState, e: Event): (r: ParseState)
    requires !e.ReadError?
    ensures st.catalog.Keys <= r.catalog.Keys
    ensures !e.EndParam? ==> r.catalog == st.catalog
    ensures e.EndParam? && st.current.Some? ==>
      r.catalog.Keys == st.catalog.Keys + {st.current.value.0} && r.current.None? && r.pending.None?
    ensures e.EndParam? && st.current.None? ==> r == st
  {
    match e
    case StartParam(attrs) =>
      var h := ReadParamAttrs(attrs, EmptyHeader);
      if h.name != "" then
        st.(current := Some((h.name, Parameter(h.humanName, h.documentation, h.user, Unconstrained))))
      else st
    case StartField(attrs) =>
      st.(pending := FieldStep(st.pending, ReadFieldAttrs(attrs, NoFieldAttrs)))
    case StartValues(attrs) =>
      var vs := ParseCodeLabels(attrs);
      if |vs| > 0 then st.(pending := Some(Values(vs))) else st
    case StartBitmask(attrs) =>
      var fs := ParseCodeLabels(attrs);
      if |fs| > 0 then st.(pending := Some(Bitmask(fs))) else st
    case EndParam =>
      (match st.current
       case None => st
       case Some((name, p)) =>
         var ft := if st.pending.Some? then st.pending.value else p.fieldType;
         ParseState(st.catalog[name := p.(fieldType := ft)], None, None))
    case Other => st
  }

  /** Runs the reader events from `st`; the first reader error aborts. */
  function Advance(st: ParseState, es: seq<Event>): (r: Result<ParseState, ParseError>)
    ensures r.Success? ==> st.catalog.Keys <= r.value.catalog.Keys
    decreases |es|
  {
    if |es| == 0 then Success(st)
    else if es[0].ReadError? then Failure(ParseError)
    else Advance(Step(st, es[0]), es[1..])
  }

  /** `parse_parameters`: the catalog the event stream describes. */
  function ParseParameters(es: seq<Event>): (r: Result<Catalog, ParseError>)
    ensures r.Failure? <==> HasReadError(es)
    ensures r.Success? ==> forall k | k in r.value :: k != "" && DeclaredIn(es, k)
  {
    AdvanceFailsIffReadError(Initial, es);
    match Advance(Initial, es)
    case Success(st) =>
      AdvanceKeepsKeysDeclared(Initial, [], es);
      assert [] + es == es;
      Success(st.catalog)
    case Failure(e) => Failure(e)
  }

  predicate HasReadError(es: seq<Event>) {
    exists i | 0 <= i < |es| :: es[i].ReadError?
  }

  /** Running two event streams in a row is running their concatenation. */
  lemma {:induction false} AdvanceAppend(st: ParseState, a: seq<Event>, b: seq<Event>)
    ensures Advance(st, a + b) ==
      (match Advance(st, a)
       case Success(mid) => Advance(mid, b)
       case Failure(e) => Failure(e))
    decreases |a|
  {
    if |a| == 0 {
      assert a + b == b;
    } else {
      assert (a + b)[0] == a[0];
      assert (a + b)[1..] == a[1..] + b;
      if !a[0].ReadError? {
        AdvanceAppend(Step(st, a[0]), a[1..], b);
      }
    }
  }

  /** A reader error anywhere aborts the whole parse, and nothing else
      does: malformed entries are skipped, never fatal. */
  lemma {:induction false} AdvanceFailsIffReadError(st: ParseState, es: seq<Event>)
    ensures Advance(st, es).Failure? <==> HasReadError(es)
    decreases |es|
  {
    if |es| > 0 && !es[0].ReadError? {
      AdvanceFailsIffReadError(Step(st, es[0]), es[1..]);
      assert HasReadError(es) <==> HasReadError(es[1..]) by {
        if HasReadError(es) {
          var i :| 0 <= i < |es| && es[i].ReadError?;
          assert es[1..][i - 1] == es[i];
        }
        if HasReadError(es[1..]) {
          var i :| 0 <= i < |es[1..]| && es[1..][i].ReadError?;
          assert es[i + 1] == es[1..][i];
        }
      }
    }
  }

  /** A `<param ...>` ... `</param>` pair with nothing between. A kept
      name stores the parameter under its key with the pending type (or
      `Unconstrained`), overwriting an earlier entry with that key, and
      clears the pending type. A dropped name stores nothing and leaves
      the pending type in place, so it carries into the next parameter. */
  lemma ParamBlock(st: ParseState, attrs: seq<Attr>)
    ensures var h := ReadParamAttrs(attrs, EmptyHeader);
      h.name != "" ==>
        Advance(st, [StartParam(attrs), EndParam]) ==
          Success(ParseState(st.catalog[h.name := Parameter(h.humanName, h.documentation, h.user,
                                                            st.pending.GetOr(Unconstrained))],
                             None, None))
    ensures ReadParamAttrs(attrs, EmptyHeader).name == "" && st.current.None? ==>
      Advance(st, [StartParam(attrs), EndParam]) == Success(st)
  {
    var es := [StartParam(attrs), EndParam];
    var s1 := Step(st, StartParam(attrs));
    var s2 := Step(s1, EndParam);
    assert es[1..] == [EndParam];
    assert es[1..][1..] == [];
    assert Advance(s1, [EndParam]) == Advance(s2, []);
    assert Advance(st, es) == Success(s2);
  }

  /** The `name` of a `<param>` whose value is the namespace followed by a
      colon-free name is stored under that name. */
  lemma PrefixedNameKey(n: string)
    requires ':' !in n
    ensures ReadParamAttrs([Attr("name", VehiclePrefix + n)], EmptyHeader).name == n
  {
    var v := VehiclePrefix + n;
    assert v[..|VehiclePrefix|] == VehiclePrefix;
    RemoveAllLeading(VehiclePrefix, n);
    assert [Attr("name", v)][1..] == [];
  }

  /** A `name` without the namespace leaves a fresh parameter unnamed, so
      it is dropped. */
  lemma ForeignNameDropped(v: string)
    requires !StartsWith(v, VehiclePrefix)
    ensures ReadParamAttrs([Attr("name", v)], EmptyHeader).name == ""
  {
    assert [Attr("name", v)][1..] == [];
  }

  /** `Declares(e, k)`: the event opens a parameter with a namespaced name
      whose stored key is `k`. */
  predicate Declares(e: Event, key: string) {
    e.StartParam? && exists j | 0 <= j < |e.attrs| :: NamesKey(e.attrs[j], key)
  }

  predicate DeclaredIn(es: seq<Event>, key: string) {
    exists i | 0 <= i < |es| :: Declares(es[i], key)
  }

  /** Every key the state holds is non-empty and declared by some event. */
  predicate KeysDeclared(st: ParseState, es: seq<Event>) {
    && (forall k | k in st.catalog :: k != "" && DeclaredIn(es, k))
    && (st.current.Some? ==> st.current.value.0 != "" && DeclaredIn(es, st.current.value.0))
  }

  lemma DeclaredInExtend(es: seq<Event>, e: Event, key: string)
    requires DeclaredIn(es, key)
    ensures DeclaredIn(es + [e], key)
  {
    var i :| 0 <= i < |es| && Declares(es[i], key);
    assert (es + [e])[i] == es[i];
  }

  lemma StepKeepsKeysDeclared(st: ParseState, done: seq<Event>, e: Event)
    requires !e.ReadError?
    requires KeysDeclared(st, done)
    ensures KeysDeclared(Step(st, e), done + [e])
  {
    var next := Step(st, e);
    var all := done + [e];
    assert all[|done|] == e;
    forall k | k in st.catalog
      ensures DeclaredIn(all, k)
    {
      DeclaredInExtend(done, e, k);
    }
    if st.current.Some? {
      DeclaredInExtend(done, e, st.current.value.0);
    }
    if e.StartParam? {
      var h := ReadParamAttrs(e.attrs, EmptyHeader);
      if h.name != "" {
        assert Declares(e, h.name);
      }
    }
  }

  lemma {:induction false} AdvanceKeepsKeysDeclared(st: ParseState, done: seq<Event>, es: seq<Event>)
    requires KeysDeclared(st, done)
    requires Advance(st, es).Success?
    ensures KeysDeclared(Advance(st, es).value, done + es)
    decreases |es|
  {
    if |es| == 0 {
      assert done + es == done;
    } else {
      var next := Step(st, es[0]);
      var done' := done + [es[0]];
      var rest := es[1..];
      assert Advance(st, es) == Advance(next, rest);
      StepKeepsKeysDeclared(st, done, es[0]);
      AdvanceKeepsKeysDeclared(next, done', rest);
      ShiftHead(done, es);
    }
  }

  lemma ExampleParamOpens()
    ensures Step(Initial, StartParam([Attr("name", "ArduCopter:FOO")]))
         == ParseState(map[], Some(("FOO", Parameter("", "", "", Unconstrained))), None)
  {
    PrefixedNameKey("FOO");
    assert VehiclePrefix + "FOO" == "ArduCopter:FOO";
  }

  lemma RangeTokensRead()
    ensures SplitWhitespace("0 100") == ["0", "100"]
  {
    var ts := ["0", "100"];
    assert IsToken(ts[0]) && IsToken(ts[1]);
    SplitJoinRoundTrip(ts);
    assert JoinSpaced(ts) == "0 100";
  }

  lemma RangeBoundsRead()
    ensures ParseF64("0") == Some(0.0) && ParseF64("100") == Some(100.0)
  {
    ParseF64OfNat(0);
    ParseF64OfNat(100);
    assert NatToString(0) == "0";
    assert NatToString(100) == "100";
  }

  lemma ReadFieldAttrsPair(a: Attr, b: Attr, f: FieldAttrs)
    ensures ReadFieldAttrs([a, b], f) == ApplyFieldAttr(ApplyFieldAttr(f, a), b)
  {
    var f1 := ApplyFieldAttr(f, a);
    var f2 := ApplyFieldAttr(f1, b);
    assert [a, b][1..] == [b];
    assert [b][1..] == [];
    assert ReadFieldAttrs([], f2) == f2;
    assert ReadFieldAttrs([b], f1) == f2;
  }

  lemma RangeFieldRead()
    ensures ReadFieldAttrs([Attr("name", "Range"), Attr("Range", "0 100")], NoFieldAttrs)
         == FieldAttrs(Some("Range"), Some(0.0), Some(100.0), None, None)
  {
    var a := Attr("name", "Range");
    var b := Attr("Range", "0 100");
    ReadFieldAttrsPair(a, b, NoFieldAttrs);
    RangeTokensRead();
    RangeBoundsRead();
  }

  lemma AdvanceCons(st: ParseState, e: Event, rest: seq<Event>)
    requires !e.ReadError?
    ensures Advance(st, [e] + rest) == Advance(Step(st, e), rest)
  {
    assert ([e] + rest)[1..] == rest;
  }

  const ExampleOpen := ParseState(map[], Some(("FOO", Parameter("", "", "", Unconstrained))), None)
  const ExampleRanged := ExampleOpen.(pending := Some(Range(0.0, 100.0, None, None)))
  const ExampleStored := ParseState(map["FOO" := Parameter("", "", "", Range(0.0, 100.0, None, None))], None, None)

  lemma ExampleFieldRead()
    ensures Step(ExampleOpen, StartField([Attr("name", "Range"), Attr("Range", "0 100")])) == ExampleRanged
  {
    RangeFieldRead();
  }

  lemma ExampleParamEnds()
    ensures Step(ExampleRanged, EndParam) == ExampleStored
  {
  }

  lemma AdvanceThree(st: ParseState, e0: Event, e1: Event, e2: Event)
    requires !e0.ReadError? && !e1.ReadError? && !e2.ReadError?
    ensures Advance(st, [e0, e1, e2]) == Success(Step(Step(Step(st, e0), e1), e2))
  {
    var s1 := Step(st, e0);
    var s2 := Step(s1, e1);
    AdvanceCons(st, e0, [e1, e2]);
    AdvanceCons(s1, e1, [e2]);
    AdvanceCons(s2, e2, []);
    assert [e0] + [e1, e2] == [e0, e1, e2];
    assert [e1] + [e2] == [e1, e2];
    assert [e2] + [] == [e2];
  }

  /** The `FOO` block of the worked example leaves `FOO` stored with its
      range. */
  lemma ExampleBlock()
    ensures Advance(Initial, [StartParam([Attr("name", "ArduCopter:FOO")]),
                              StartField([Attr("name", "Range"), Attr("Range", "0 100")]),
                              EndParam])
         == Success(ExampleStored)
  {
    AdvanceThree(Initial, StartParam([Attr("name", "ArduCopter:FOO")]),
                 StartField([Attr("name", "Range"), Attr("Range", "0 100")]), EndParam);
    ExampleParamOpens();
    ExampleFieldRead();
    ExampleParamEnds();
  }

  /** The worked example: `ArduCopter:FOO` with a field `Range="0 100"`
      is stored as `FOO` with range [0, 100]; `Rover:BAR` is absent. */
  lemma CatalogExample()
    ensures ParseParameters([
        StartParam([Attr("name", "ArduCopter:FOO")]),
        StartField([Attr("name", "Range"), Attr("Range", "0 100")]),
        EndParam,
        StartParam([Attr("name", "Rover:BAR")]),
        EndParam])
      == Success(map["FOO" := Parameter("", "", "", Range(0.0, 100.0, None, None))])
  {
    var foo := [StartParam([Attr("name", "ArduCopter:FOO")]),
                StartField([Attr("name", "Range"), Attr("Range", "0 100")]),
                EndParam];
    var bar := [StartParam([Attr("name", "Rover:BAR")]), EndParam];
    var s3 := ExampleStored;
    ExampleBlock();
    assert !StartsWith("Rover:BAR", VehiclePrefix);
    ForeignNameDropped("Rover:BAR");
    ParamBlock(s3, [Attr("name", "Rover:BAR")]);
    AdvanceAppend(Initial, foo, bar);
    assert foo + bar == [
        StartParam([Attr("name", "ArduCopter:FOO")]),
        StartField([Attr("name", "Range"), Attr("Range", "0 100")]),
        EndParam,
        StartParam([Attr("name", "Rover:BAR")]),
        EndParam];
  }
}

=== FILE: params_view.dfy ===
/** The parameter editor: the table of parameters seen on the link, the
    queue that fetches their descriptions ten at a time through the
    metadata cache, the freshness indicator, the client-side value check,
    and the edit, reset and write actions. React state updates become
    pure functions from the old state to the new one. */
module ParamsView {

  import opened Wrappers
  import opened Text
  import opened Numbers
  import opened ParameterMeta
  import opened MavState
  import opened ParamId
  import opened CmdConnect
  import opened MetadataCache

  /** Descriptions fetched so far, by parameter name. */
  type Metadata = map<string, ParameterInfo>

  // The metadata load queue

  const BatchSize: nat := 10

  /** Splits the queue into the next batch and the rest. */
  function TakeBatch(queue: seq<string>): (r: (seq<string>, seq<string>))
    ensures r.0 + r.1 == queue
    ensures |r.0| == if |queue| < BatchSize then |queue| else BatchSize
  {
    if |queue| <= BatchSize then (queue, []) else (queue[..BatchSize], queue[BatchSize..])
  }

  /** The table's names, in enumeration order, that have no description
      and are not queued yet. */
  function NewNames(names: seq<string>, metadata: Metadata, queue: seq<string>): (r: seq<string>)
    ensures forall i | 0 <= i < |r| :: r[i] in names && r[i] !in metadata && r[i] !in queue
    ensures forall n | n in names && n !in metadata && n !in queue :: n in r
    ensures Distinct(names) ==> Distinct(r)
    decreases |names|
  {
    if |names| == 0 then []
    else
      var rest := NewNames(names[1..], metadata, queue);
      assert Distinct(names) ==> names[0] !in rest by {
        if Distinct(names) {
          DistinctTail(names);
        }
      }
      assert Distinct(names) ==> Distinct(rest) by {
        if Distinct(names) {
          DistinctTail(names);
        }
      }
      if names[0] !in metadata && names[0] !in queue then
        var r := [names[0]] + rest;
        assert forall j | 0 <= j < |rest| :: r[j + 1] == rest[j];
        r
      else rest
  }

  /** When every name is described, none is new. */
  lemma {:induction false} NothingNew(names: seq<string>, metadata: Metadata, queue: seq<string>)
    requires forall n | n in names :: n in metadata
    ensures NewNames(names, metadata, queue) == []
    decreases |names|
  {
    if |names| > 0 {
      assert names[0] in metadata;
      assert forall n | n in names[1..] :: n in names;
      NothingNew(names[1..], metadata, queue);
    }
  }

  /** Queues every described-less, unqueued name of the table. */
  function Enqueue(queue: seq<string>, names: seq<string>, metadata: Metadata): (r: seq<string>)
    ensures queue <= r
    ensures forall n | n in names && n !in metadata :: n in r
    ensures forall n | n in r :: n in queue || (n in names && n !in metadata)
  {
    queue + NewNames(names, metadata, queue)
  }

  /** Queueing never puts a name in the queue twice. */
  lemma EnqueueKeepsDistinct(queue: seq<string>, names: seq<string>, metadata: Metadata)
    requires Distinct(queue) && Distinct(names)
    ensures Distinct(Enqueue(queue, names, metadata))
  {
    var added := NewNames(names, metadata, queue);
    var r := queue + added;
    forall i, j | 0 <= i < j < |r|
      ensures r[i] != r[j]
    {
      if j >= |queue| {
        assert r[j] == added[j - |queue|];
        if i >= |queue| {
          assert r[i] == added[i - |queue|];
        }
      }
    }
  }

  /** Every cached description is the backend's description of a
      catalog entry. */
  ghost predicate CacheAgrees(cache: Cache<ParameterInfo>, st: MavConnState) {
    forall k | k in cache.data :: k in st.parameters && cache.data[k] == ToInfo(k, st.parameters[k])
  }

  datatype Loaded = Loaded(cache: Cache<ParameterInfo>, metadata: Metadata)

  /** Loads one name: a cache hit is used as is; otherwise the backend is
      asked and a description it returns is cached and recorded. */
  function LoadOne(cache: Cache<ParameterInfo>, metadata: Metadata, st: MavConnState, name: string): (r: Loaded)
    ensures forall k | k != name :: (k in r.metadata <==> k in metadata)
    ensures forall k | k in metadata && k != name :: r.metadata[k] == metadata[k]
    ensures CacheAgrees(cache, st) ==>
      && CacheAgrees(r.cache, st)
      && (name in r.metadata <==> name in metadata || name in st.parameters)
      && (name in st.parameters ==> r.metadata[name] == ToInfo(name, st.parameters[name]))
  {
    var (hit, cached) := Get(cache, name);
    if cached.Some? then Loaded(hit, metadata[name := cached.value])
    else
      match GetParameterInfo(st, name)
      case Success(Some(info)) => Loaded(Set(hit, name, info), metadata[name := info])
      case _ => Loaded(hit, metadata)
  }

  /** Loads a batch of names in order. */
  function LoadBatch(cache: Cache<ParameterInfo>, metadata: Metadata, st: MavConnState, batch: seq<string>): (r: Loaded)
    ensures forall k | k !in batch :: (k in r.metadata <==> k in metadata)
    ensures forall k | k in metadata && k !in batch :: r.metadata[k] == metadata[k]
    ensures CacheAgrees(cache, st) ==>
      && CacheAgrees(r.cache, st)
      && (forall n | n in batch :: n in r.metadata <==> n in metadata || n in st.parameters)
      && (forall n | n in batch && n in st.parameters :: r.metadata[n] == ToInfo(n, st.parameters[n]))
    decreases |batch|
  {
    if |batch| == 0 then Loaded(cache, metadata)
    else
      var first := LoadOne(cache, metadata, st, batch[0]);
      LoadBatch(first.cache, first.metadata, st, batch[1..])
  }

  /** Drains the queue ten names at a time. Batching changes nothing:
      it ends where loading the whole queue in one go does. */
  function Drain(cache: Cache<ParameterInfo>, metadata: Metadata, st: MavConnState, queue: seq<string>): (r: Loaded)
    ensures r == LoadBatch(cache, metadata, st, queue)
    decreases |queue|
  {
    if |queue| == 0 then Loaded(cache, metadata)
    else
      var (batch, rest) := TakeBatch(queue);
      var loaded := LoadBatch(cache, metadata, st, batch);
      LoadBatchAppend(cache, metadata, st, batch, rest);
      Drain(loaded.cache, loaded.metadata, st, rest)
  }

  /** Loading `a` then `b` is loading `a + b`. */
  lemma {:induction false} LoadBatchAppend(cache: Cache<ParameterInfo>, metadata: Metadata, st: MavConnState,
                                           a: seq<string>, b: seq<string>)
    ensures var first := LoadBatch(cache, metadata, st, a);
      LoadBatch(first.cache, first.metadata, st, b) == LoadBatch(cache, metadata, st, a + b)
    decreases |a|
  {
    if |a| == 0 {
      assert a + b == b;
    } else {
      var ab := a + b;
      assert ab[0] == a[0] && ab[1..] == a[1..] + b;
      var one := LoadOne(cache, metadata, st, a[0]);
      LoadBatchAppend(one.cache, one.metadata, st, a[1..], b);
    }
  }

  /** Once the queue is drained, every name of the table that the
      catalog knows carries the backend's description, when the cache
      only ever held backend descriptions. */
  lemma QueueCoversTable(cache: Cache<ParameterInfo>, metadata: Metadata, st: MavConnState,
                         queue: seq<string>, names: seq<string>)
    requires CacheAgrees(cache, st)
    ensures var r := Drain(cache, metadata, st, Enqueue(queue, names, metadata));
      forall n | n in names && n in st.parameters :: n in r.metadata
  {
    var q := Enqueue(queue, names, metadata);
    assert Drain(cache, metadata, st, q) == LoadBatch(cache, metadata, st, q);
  }

  // The load effect and the queueing effect together

  /** The queue and the descriptions after a pass of the load effect. */
  datatype Pass = Pass(queue: seq<string>, loaded: Loaded)

  /** One pass of the load effect with the queueing effect in the loop.
      The load effect takes a batch and stores the rest as the queue. That
      store re-runs the queueing effect, which appends every table name
      still undescribed and not in the shortened queue, before the batch's
      backend answers arrive; the names being loaded are queued again.
      With an empty queue the load effect does nothing. */
  function LoadPass(names: seq<string>, cache: Cache<ParameterInfo>, metadata: Metadata, st: MavConnState,
                    queue: seq<string>): (r: Pass)
    ensures |queue| == 0 ==> r == Pass(queue, Loaded(cache, metadata))
    ensures |queue| > 0 ==> forall n | n in names && n !in metadata :: n in r.queue
    ensures |queue| > 0 ==> forall n | n in r.queue :: n in queue || n in names
    ensures |queue| > 0 ==> r.loaded == LoadBatch(cache, metadata, st, TakeBatch(queue).0)
  {
    if |queue| == 0 then Pass(queue, Loaded(cache, metadata))
    else
      var (batch, rest) := TakeBatch(queue);
      Pass(Enqueue(rest, names, metadata), LoadBatch(cache, metadata, st, batch))
  }

  /** `k` passes in a row. */
  function Passes(k: nat, names: seq<string>, cache: Cache<ParameterInfo>, metadata: Metadata,
                  st: MavConnState, queue: seq<string>): (r: Pass)
    ensures forall n | n in r.queue :: n in queue || n in names
    decreases k
  {
    if k == 0 then Pass(queue, Loaded(cache, metadata))
    else
      var p := LoadPass(names, cache, metadata, st, queue);
      Passes(k - 1, names, p.loaded.cache, p.loaded.metadata, st, p.queue)
  }

  /** A table name the catalog lacks is never described and never leaves
      the queue, so the queue never empties and the backend is asked
      about that name again each time it comes round. */
  lemma {:induction false} UncataloguedNeverDrains(k: nat, names: seq<string>, cache: Cache<ParameterInfo>,
                                                   metadata: Metadata, st: MavConnState, queue: seq<string>,
                                                   n: string)
    requires CacheAgrees(cache, st)
    requires n in names && n in queue && n !in metadata && n !in st.parameters
    ensures var r := Passes(k, names, cache, metadata, st, queue);
      n in r.queue && |r.queue| > 0 && n !in r.loaded.metadata
    decreases k
  {
    if k > 0 {
      var p := LoadPass(names, cache, metadata, st, queue);
      assert p.loaded == LoadBatch(cache, metadata, st, TakeBatch(queue).0);
      assert n !in p.loaded.metadata;
      assert CacheAgrees(p.loaded.cache, st);
      assert n in p.queue;
      UncataloguedNeverDrains(k - 1, names, p.loaded.cache, p.loaded.metadata, st, p.queue, n);
    }
  }

  /** Loading keeps the cache's key order a listing of its keys and its
      size within bounds. */
  lemma LoadOneKeepsCacheValid(cache: Cache<ParameterInfo>, metadata: Metadata, st: MavConnState, name: string)
    requires Valid(cache) && |cache.data| <= MaxSize
    ensures var r := LoadOne(cache, metadata, st, name);
      Valid(r.cache) && |r.cache.data| <= MaxSize
  {
    var r := LoadOne(cache, metadata, st, name);
    var (hit, cached) := Get(cache, name);
    GetValid(cache, name);
    assert hit.data == cache.data;
    if cached.None? && name in st.parameters {
      var info := ToInfo(name, st.parameters[name]);
      assert r.cache == Set(hit, name, info);
      SetValid(hit, name, info);
      SetBounded(hit, name, info);
    } else {
      assert r.cache == hit;
    }
  }

  lemma {:induction false} LoadBatchKeepsCacheValid(cache: Cache<ParameterInfo>, metadata: Metadata,
                                                    st: MavConnState, batch: seq<string>)
    requires Valid(cache) && |cache.data| <= MaxSize
    ensures var r := LoadBatch(cache, metadata, st, batch);
      Valid(r.cache) && |r.cache.data| <= MaxSize
    decreases |batch|
  {
    if |batch| > 0 {
      var first := LoadOne(cache, metadata, st, batch[0]);
      LoadOneKeepsCacheValid(cache, metadata, st, batch[0]);
      LoadBatchKeepsCacheValid(first.cache, first.metadata, st, batch[1..]);
    }
  }

  /** The start-up bulk load: a reply replaces every description, an
      error leaves them as they were. */
  function LoadAll(metadata: Metadata, reply: Result<map<string, ParameterInfo>, string>): (r: Metadata)
    ensures reply.Failure? ==> r == metadata
    ensures reply.Success? ==> r == reply.value
  {
    match reply
    case Success(all) => all
    case Failure(_) => metadata
  }

  /** After a successful bulk load no catalog name is ever queued. */
  lemma BulkLoadLeavesNothingToQueue(metadata: Metadata, st: MavConnState, names: seq<string>)
    requires forall n | n in names :: n in st.parameters
    ensures Enqueue([], names, LoadAll(metadata, Success(GetAllParameters(st)))) == []
  {
    NothingNew(names, GetAllParameters(st), []);
    assert [] + NewNames(names, GetAllParameters(st), []) == NewNames(names, GetAllParameters(st), []);
  }

  // The parameter table

  /** A row: the last value the vehicle reported, the edit waiting to be
      written (if any) and when the vehicle last reported it. */
  datatype ParamEntry = ParamEntry(name: string, value: real, newValue: Option<real>, updatedAt: Option<int>)

  type ParamsMap = map<string, ParamEntry>

  /** The pending edit a added report keeps: `existing.newValue || null`
      turns a missing row, a missing edit and an edit of zero alike into
      no edit. */
  function KeptEdit(pm: ParamsMap, name: string): (r: Option<real>)
    ensures r.Some? <==> name in pm && pm[name].newValue.Some? && pm[name].newValue.value != 0.0
    ensures r.Some? ==> r == pm[name].newValue
  {
    if name in pm && pm[name].newValue.Some? && pm[name].newValue.value != 0.0 then pm[name].newValue else None
  }

  /** A `PARAM_VALUE` report: the id bytes as characters with every NUL
      removed name the row, which takes the reported value and the
      report's time and keeps a non-zero pending edit. */
  function Upsert(pm: ParamsMap, paramId: seq<Byte>, value: real, now: int): (r: ParamsMap)
    ensures r.Keys == pm.Keys + {DecodeParamId(paramId)}
    ensures var name := DecodeParamId(paramId);
      r[name] == ParamEntry(name, value, KeptEdit(pm, name), Some(now))
    ensures forall k | k in pm && k != DecodeParamId(paramId) :: r[k] == pm[k]
  {
    var name := DecodeParamId(paramId);
    pm[name := ParamEntry(name, value, KeptEdit(pm, name), Some(now))]
  }

  /** The vehicle's report for a name it was sent under lands on that
      name's row. */
  lemma UpsertOfEncodedName(pm: ParamsMap, name: string, value: real, now: int)
    requires ShortAsciiName(name)
    ensures var r := Upsert(pm, EncodeParamId(name), value, now);
      name in r && r[name].value == value && r[name].updatedAt == Some(now)
  {
    ParamIdRoundTrip(name);
  }

  /** A repeated report changes nothing but the time. */
  lemma UpsertRepeated(pm: ParamsMap, paramId: seq<Byte>, value: real, t1: int, t2: int)
    ensures Upsert(Upsert(pm, paramId, value, t1), paramId, value, t2) == Upsert(pm, paramId, value, t2)
  {
  }

  /** A pending edit of zero is lost at the next report of that
      parameter, while any other pending edit survives it. */
  lemma ReportDropsZeroEdit(pm: ParamsMap, paramId: seq<Byte>, value: real, now: int)
    requires DecodeParamId(paramId) in pm
    ensures var name := DecodeParamId(paramId);
      Upsert(pm, paramId, value, now)[name].newValue ==
        if pm[name].newValue == Some(0.0) then None else pm[name].newValue
  {
  }

  // The freshness indicator

  datatype Indicator = Blue | Green | Yellow | Red

  /** A pending edit shows blue; otherwise the age of the last report
      shows green under ten seconds, yellow under a minute, and red after
      that or when there was never a report. Times are in milliseconds. */
  function IndicatorColor(e: ParamEntry, now: int): (c: Indicator)
    ensures c == Blue <==> e.newValue.Some?
    ensures c == Green <==> e.newValue.None? && e.updatedAt.Some? && now - e.updatedAt.value < 10000
    ensures c == Yellow <==> e.newValue.None? && e.updatedAt.Some? && 10000 <= now - e.updatedAt.value < 60000
  {
    if e.newValue.Some? then Blue
    else if e.updatedAt.None? then Red
    else
      var diffSec := (now - e.updatedAt.value) as real / 1000.0;
      if diffSec < 10.0 then Green
      else if diffSec < 60.0 then Yellow
      else Red
  }

  function Staleness(c: Indicator): nat {
    match c
    case Blue => 0
    case Green => 1
    case Yellow => 2
    case Red => 3
  }

  /** Without edits or new reports a row only ever gets staler. */
  lemma IndicatorAges(e: ParamEntry, t1: int, t2: int)
    requires e.newValue.None? && t1 <= t2
    ensures Staleness(IndicatorColor(e, t1)) <= Staleness(IndicatorColor(e, t2))
  {
  }

  /** A row that was just reported, with nothing pending, is green. */
  lemma FreshReportIsGreen(pm: ParamsMap, paramId: seq<Byte>, value: real, now: int)
    requires KeptEdit(pm, DecodeParamId(paramId)).None?
    ensures IndicatorColor(Upsert(pm, paramId, value, now)[DecodeParamId(paramId)], now) == Green
  {
  }

  // Client-side validation

  /** A JavaScript number as `parseFloat` returns it; infinities are not
      modelled. */
  datatype JsNumber = Num(x: real) | NaN

  /** `1 << maxFlag` in JavaScript: the shift count is taken modulo 32 and
      the result read as a signed 32-bit integer, so a highest flag at bit
      31 gives -2147483648. With no flags `Math.max()` is -Infinity, which
      converts to a shift count of 0. */
  function JsShiftBound(flags: seq<CodeLabel>): (r: int)
    ensures |flags| == 0 ==> r == 1
    ensures MaxCode(flags) % 32 != 31 ==> r == Pow2(MaxCode(flags) % 32)
    ensures MaxCode(flags) % 32 == 31 ==> r < 0
  {
    if |flags| == 0 then 1
    else
      var s := MaxCode(flags) % 32;
      if s == 31 then -(Pow2(31) as int) else Pow2(s)
  }

  /** The editor's check of a value: anything goes without a description;
      NaN is refused; a range accepts its bounds inclusive; a value list
      accepts a number whose floor is a declared code; a bitmask accepts
      0 up to `1 << maxFlag`; an unconstrained parameter accepts all. */
  function ValidateValueJs(meta: Option<ParameterInfo>, v: JsNumber): (ok: bool)
    ensures meta.None? ==> ok
    ensures meta.Some? && v.NaN? ==> !ok
    ensures meta.Some? && meta.value.fieldType.NoneInfo? && v.Num? ==> ok
    ensures ok && meta.Some? && meta.value.fieldType.RangeInfo? ==>
      v.Num? && meta.value.fieldType.min <= v.x <= meta.value.fieldType.max
    ensures meta.Some? && meta.value.fieldType.RangeInfo? && v.Num? ==>
      (ok <==> meta.value.fieldType.min <= v.x <= meta.value.fieldType.max)
    ensures meta.Some? && meta.value.fieldType.ValuesInfo? && v.Num? ==>
      (ok <==> HasCode(meta.value.fieldType.values, v.x.Floor))
    ensures meta.Some? && meta.value.fieldType.BitmaskInfo? && v.Num? ==>
      (ok <==> 0.0 <= v.x <= JsShiftBound(meta.value.fieldType.flags) as real)
  {
    match meta
    case None => true
    case Some(info) =>
      match v
      case NaN => false
      case Num(x) =>
        match info.fieldType
        case RangeInfo(min, max, _, _) => min <= x && x <= max
        case ValuesInfo(values) => HasCode(values, x.Floor)
        case BitmaskInfo(flags) => 0.0 <= x && x <= JsShiftBound(flags) as real
        case NoneInfo => true
  }

  /** On whole numbers the editor and the backend agree, as long as no
      bitmask's highest flag sits at bit 31. */
  lemma JsAgreesWithBackend(name: string, p: Parameter, n: U32)
    requires p.fieldType.Bitmask? ==> MaxCode(p.fieldType.flags) % 32 != 31
    ensures ValidateValueJs(Some(ToInfo(name, p)), Num(n as real)) == ValidateValue(p, NatToString(n))
  {
    match p.fieldType
    case Range(_, _, _, _) => RangeIsInclusive(p, n);
    case Values(_) => ValuesAcceptExactlyDeclared(p, n);
    case Bitmask(_) => BitmaskBound(p, n);
    case Unconstrained =>
  }

  /** A range accepts fractions in the editor: 0.5 passes the range 0..1. */
  lemma JsRangeAcceptsFraction(name: string)
    ensures ValidateValueJs(Some(ToInfo(name, Parameter("", "", "", Range(0.0, 1.0, None, None)))), Num(0.5))
  {
  }

  /** With the highest flag at bit 31 the editor refuses every value,
      zero included, though the backend accepts zero. */
  lemma JsRejectsTopBitMask()
    ensures var p := Parameter("", "", "", Bitmask([CodeLabel(31, "TOP")]));
      && (forall x: real :: !ValidateValueJs(Some(ToInfo("P", p)), Num(x)))
      && ValidateValue(p, NatToString(0))
  {
    var flags := [CodeLabel(31, "TOP")];
    var p := Parameter("", "", "", Bitmask(flags));
    assert flags[1..] == [];
    assert MaxCode(flags) == 31;
    var info := ToInfo("P", p);
    assert info.fieldType == BitmaskInfo(flags);
    assert JsShiftBound(flags) < 0;
    forall x: real
      ensures !ValidateValueJs(Some(info), Num(x))
    {
    }
    BitmaskBound(p, 0);
  }

  /** The editor floors before looking a value up, so it accepts 2.5 for
      a list declaring 2, which the backend refuses. */
  lemma JsFloorsListedValues()
    ensures var p := Parameter("", "", "", Values([CodeLabel(2, "Two")]));
      && ValidateValueJs(Some(ToInfo("P", p)), Num(2.5))
      && !ValidateValue(p, "2.5")
  {
    var values := [CodeLabel(2, "Two")];
    assert (2.5).Floor == 2;
    assert values[0].code == 2;
    assert !IsDigit('.');
    assert "2.5"[1] == '.';
  }

  // Editing, resetting and writing

  /** Leaving the value editor: a number the check accepts becomes the
      row's pending edit; anything else is refused (a notification) and
      the table is unchanged. The flag says whether it was accepted. */
  function ApplyEdit(pm: ParamsMap, metadata: Metadata, name: string, input: JsNumber): (r: (ParamsMap, bool))
    ensures r.0.Keys == pm.Keys
    ensures forall k | k in pm && k != name :: r.0[k] == pm[k]
    ensures r.1 <==> input.Num? && ValidateValueJs(if name in metadata then Some(metadata[name]) else None, input)
    ensures name in pm ==> r.0[name] == if r.1 then pm[name].(newValue := Some(input.x)) else pm[name]
  {
    var meta := if name in metadata then Some(metadata[name]) else None;
    if input.Num? && ValidateValueJs(meta, input) then
      (if name in pm then pm[name := pm[name].(newValue := Some(input.x))] else pm, true)
    else (pm, false)
  }

  /** "Reset changes": every pending edit is dropped; nothing else moves. */
  function ResetChanges(pm: ParamsMap): (r: ParamsMap)
    ensures r.Keys == pm.Keys
    ensures forall k | k in r :: r[k].newValue.None?
    ensures forall k | k in r ::
      r[k].name == pm[k].name && r[k].value == pm[k].value && r[k].updatedAt == pm[k].updatedAt
  {
    map k | k in pm :: pm[k].(newValue := None)
  }

  lemma ResetIdempotent(pm: ParamsMap)
    ensures ResetChanges(ResetChanges(pm)) == ResetChanges(pm)
  {
  }

  /** The row `n` has an edit waiting. */
  predicate Pending(pm: ParamsMap, n: string) {
    n in pm && pm[n].newValue.Some?
  }

  /** The change that writes row `n`'s pending edit. */
  function EditOf(pm: ParamsMap, n: string): ParamChange
    requires Pending(pm, n)
  {
    ParamChange(n, pm[n].newValue.value)
  }

  /** The change is some row's pending edit. */
  predicate IsEdit(pm: ParamsMap, c: ParamChange) {
    Pending(pm, c.paramName) && c == EditOf(pm, c.paramName)
  }

  /** The pending edits, in the table's enumeration order. */
  function EditedChanges(pm: ParamsMap, names: seq<string>): (r: seq<ParamChange>)
    ensures |r| <= |names|
    ensures forall i | 0 <= i < |r| :: r[i].paramName in names && IsEdit(pm, r[i])
    ensures forall n | n in names && Pending(pm, n) :: EditOf(pm, n) in r
    decreases |names|
  {
    if |names| == 0 then []
    else
      var rest := EditedChanges(pm, names[1..]);
      var n := names[0];
      assert forall m | m in names :: m == n || m in names[1..];
      if Pending(pm, n) then [EditOf(pm, n)] + rest else rest
  }

  /** Without a pending edit there is nothing to write. */
  lemma {:induction false} NoPendingNoChanges(pm: ParamsMap, names: seq<string>)
    requires forall k | k in pm :: !Pending(pm, k)
    ensures EditedChanges(pm, names) == []
    decreases |names|
  {
    if |names| > 0 {
      NoPendingNoChanges(pm, names[1..]);
    }
  }

  /** No two changes write the same row. */
  predicate DistinctNames(changes: seq<ParamChange>) {
    forall i, j | 0 <= i < j < |changes| :: changes[i].paramName != changes[j].paramName
  }

  /** Pending edits from distinct names name distinct parameters. */
  lemma {:induction false} EditedChangesDistinct(pm: ParamsMap, names: seq<string>)
    requires Distinct(names)
    ensures DistinctNames(EditedChanges(pm, names))
    decreases |names|
  {
    if |names| > 0 {
      DistinctTail(names);
      EditedChangesDistinct(pm, names[1..]);
      var rest := EditedChanges(pm, names[1..]);
      var n := names[0];
      assert forall j | 0 <= j < |rest| :: rest[j].paramName != n;
      if Pending(pm, n) {
        var r := [EditOf(pm, n)] + rest;
        assert r == EditedChanges(pm, names);
        assert r[0].paramName == n;
        forall i, j | 0 <= i < j < |r|
          ensures r[i].paramName != r[j].paramName
        {
          assert r[j] == rest[j - 1];
          if i > 0 {
            assert r[i] == rest[i - 1];
            assert rest[i - 1].paramName != rest[j - 1].paramName;
          } else {
            assert rest[j - 1].paramName != n;
          }
        }
      }
    }
  }

  predicate Mentions(changes: seq<ParamChange>, k: string) {
    exists i | 0 <= i < |changes| :: changes[i].paramName == k
  }

  /** A written change: the row takes the new value as its value, has no
      pending edit and counts as just reported. */
  function Written(e: ParamEntry, newValue: real, now: int): ParamEntry {
    e.(value := newValue, newValue := None, updatedAt := Some(now))
  }

  /** After a successful write, each written change updates its row, in
      order; rows that no longer exist are skipped. */
  function ApplyWritten(pm: ParamsMap, changes: seq<ParamChange>, now: int): (r: ParamsMap)
    ensures r.Keys == pm.Keys
    ensures forall k | k in pm && !Mentions(changes, k) :: r[k] == pm[k]
    decreases |changes|
  {
    if |changes| == 0 then pm
    else
      var c := changes[0];
      var next := if c.paramName in pm then pm[c.paramName := Written(pm[c.paramName], c.newValue, now)] else pm;
      var r := ApplyWritten(next, changes[1..], now);
      assert forall k | !Mentions(changes, k) :: !Mentions(changes[1..], k) by {
        forall k | Mentions(changes[1..], k)
          ensures Mentions(changes, k)
        {
          var i :| 0 <= i < |changes[1..]| && changes[1..][i].paramName == k;
          assert changes[i + 1].paramName == k;
        }
      }
      r
  }

  /** With distinct names, every change lands on its own row. */
  lemma {:induction false} ApplyWrittenLands(pm: ParamsMap, changes: seq<ParamChange>, now: int)
    requires DistinctNames(changes)
    ensures forall i | 0 <= i < |changes| && changes[i].paramName in pm ::
      ApplyWritten(pm, changes, now)[changes[i].paramName] == Written(pm[changes[i].paramName], changes[i].newValue, now)
    decreases |changes|
  {
    if |changes| > 0 {
      var c := changes[0];
      var next := if c.paramName in pm then pm[c.paramName := Written(pm[c.paramName], c.newValue, now)] else pm;
      var tail := changes[1..];
      ApplyWrittenLands(next, tail, now);
      assert !Mentions(tail, c.paramName) by {
        forall i | 0 <= i < |tail|
          ensures tail[i].paramName != c.paramName
        {
          assert tail[i] == changes[i + 1];
        }
      }
      forall i | 0 <= i < |changes| && changes[i].paramName in pm
        ensures ApplyWritten(pm, changes, now)[changes[i].paramName] == Written(pm[changes[i].paramName], changes[i].newValue, now)
      {
        if i > 0 {
          assert changes[i] == tail[i - 1];
        }
      }
    }
  }

  /** "Write changes": with no pending edit nothing is sent (and the
      result carries no run). Otherwise the edits go to `set_parameters`;
      on success each edited row takes its new value, on failure the
      table is left as it was even if some messages went out. */
  function WriteChanges(pm: ParamsMap, names: seq<string>, st: MavConnState, outcomes: seq<SendOutcome>, now: int)
    : (r: (ParamsMap, Option<WriteRun>))
    requires |outcomes| >= |names|
    ensures r.1.None? <==> |EditedChanges(pm, names)| == 0
    ensures r.1.None? ==> r.0 == pm
    ensures r.1.Some? ==> r.1.value == SetParameters(st, EditedChanges(pm, names), outcomes)
    ensures r.1.Some? && r.1.value.result.Failure? ==> r.0 == pm
    ensures r.0.Keys == pm.Keys
  {
    var changes := EditedChanges(pm, names);
    if |changes| == 0 then (pm, None)
    else
      var run := SetParameters(st, changes, outcomes);
      if run.result.Success? then (ApplyWritten(pm, changes, now), Some(run)) else (pm, Some(run))
  }

  /** Writing back the table's own pending edits turns each into its
      row's value and leaves rows without an edit alone. */
  lemma WrittenRows(pm: ParamsMap, names: seq<string>, now: int)
    requires Distinct(names)
    ensures var r := ApplyWritten(pm, EditedChanges(pm, names), now);
      && (forall k | k in pm && k in names && pm[k].newValue.Some? :: r[k] == Written(pm[k], pm[k].newValue.value, now))
      && (forall k | k in pm && pm[k].newValue.None? :: r[k] == pm[k])
  {
    var changes := EditedChanges(pm, names);
    var r := ApplyWritten(pm, changes, now);
    EditedChangesDistinct(pm, names);
    ApplyWrittenLands(pm, changes, now);
    forall k | k in pm && k in names && pm[k].newValue.Some?
      ensures r[k] == Written(pm[k], pm[k].newValue.value, now)
    {
      assert Pending(pm, k);
      var i :| 0 <= i < |changes| && changes[i] == EditOf(pm, k);
      assert changes[i].paramName == k;
    }
    forall k | k in pm && pm[k].newValue.None?
      ensures !Mentions(changes, k)
    {
      forall i | 0 <= i < |changes|
        ensures changes[i].paramName != k
      {
        assert IsEdit(pm, changes[i]);
      }
    }
  }

  /** A successful write sends one message per pending edit and turns
      each edit into the row's value; rows without an edit are kept. */
  lemma WriteSuccess(pm: ParamsMap, names: seq<string>, st: MavConnState, outcomes: seq<SendOutcome>, now: int)
    requires |outcomes| >= |names| && Distinct(names)
    requires var r := WriteChanges(pm, names, st, outcomes, now); r.1.Some? && r.1.value.result.Success?
    ensures var r := WriteChanges(pm, names, st, outcomes, now);
      && |r.1.value.sent| == |EditedChanges(pm, names)|
      && (forall k | k in pm && k in names && pm[k].newValue.Some? ::
            r.0[k] == Written(pm[k], pm[k].newValue.value, now))
      && (forall k | k in pm && pm[k].newValue.None? :: r.0[k] == pm[k])
  {
    var changes := EditedChanges(pm, names);
    var r := WriteChanges(pm, names, st, outcomes, now);
    assert r.0 == ApplyWritten(pm, changes, now);
    WrittenRows(pm, names, now);
  }

  /** Once every row's edit has been written, writing again sends
      nothing. */
  lemma WriteTwiceSendsOnce(pm: ParamsMap, names: seq<string>, st: MavConnState, outcomes: seq<SendOutcome>,
                            now: int, later: int)
    requires |outcomes| >= |names| && Distinct(names)
    requires forall k | k in pm :: k in names
    requires var r := WriteChanges(pm, names, st, outcomes, now); r.1.Some? && r.1.value.result.Success?
    ensures var r := WriteChanges(pm, names, st, outcomes, now);
      WriteChanges(r.0, names, st, outcomes, later).1.None?
  {
    WriteSuccess(pm, names, st, outcomes, now);
  }

  /** After "Reset changes" a write sends nothing. */
  lemma ResetThenWriteSendsNothing(pm: ParamsMap, names: seq<string>, st: MavConnState, outcomes: seq<SendOutcome>,
                                   now: int)
    requires |outcomes| >= |names|
    ensures WriteChanges(ResetChanges(pm), names, st, outcomes, now) == (ResetChanges(pm), None)
  {
    NoPendingNoChanges(ResetChanges(pm), names);
  }

  /** An accepted edit is what the next write sends for that row. */
  lemma EditIsSent(pm: ParamsMap, metadata: Metadata, name: string, x: real, names: seq<string>)
    requires name in pm && name in names
    requires ApplyEdit(pm, metadata, name, Num(x)).1
    ensures exists i | 0 <= i < |EditedChanges(ApplyEdit(pm, metadata, name, Num(x)).0, names)| ::
      EditedChanges(ApplyEdit(pm, metadata, name, Num(x)).0, names)[i] == ParamChange(name, x)
  {
    var edited := ApplyEdit(pm, metadata, name, Num(x)).0;
    var r := EditedChanges(edited, names);
    var i :| 0 <= i < |r| && r[i].paramName == name;
    assert r[i] == ParamChange(name, x);
  }
}

=== FILE: raw_logs.dfy ===
/** The raw message log: a bounded buffer of the most recent messages and
    the one-line preview shown for each. */
module RawLogs {

  const MaxMessages: nat := 2000

  /** Appends a message; when the buffer then exceeds its bound, only the
      newest `MaxMessages` entries are kept. */
  function Append<T>(prev: seq<T>, payload: T): (r: seq<T>)
    ensures |r| == if |prev| + 1 > MaxMessages then MaxMessages else |prev| + 1
    ensures r == (prev + [payload])[|prev| + 1 - |r|..]
    ensures r[|r| - 1] == payload
  {
    var next := prev + [payload];
    if |next| > MaxMessages then next[|next| - MaxMessages..] else next
  }

  /** The newest `n` entries of `s` (all of them when there are fewer). */
  function Newest<T>(s: seq<T>, n: nat): (r: seq<T>)
    ensures |r| == if |s| < n then |s| else n
  {
    if |s| <= n then s else s[|s| - n..]
  }

  function AppendAll<T>(log: seq<T>, payloads: seq<T>): seq<T>
    decreases |payloads|
  {
    if |payloads| == 0 then log else AppendAll(Append(log, payloads[0]), payloads[1..])
  }

  lemma NewestOfNewest<T>(s: seq<T>, x: T)
    ensures Newest(Newest(s, MaxMessages) + [x], MaxMessages) == Newest(s + [x], MaxMessages)
  {
    var t := Newest(s, MaxMessages);
    if |s| > MaxMessages {
      assert (t + [x])[|t + [x]| - MaxMessages..] == (s + [x])[|s + [x]| - MaxMessages..];
    }
  }

  /** A stream of messages appended to a bounded log leaves the newest
      `MaxMessages` of everything, in arrival order. */
  lemma {:induction false} AppendAllKeepsNewest<T>(log: seq<T>, payloads: seq<T>)
    requires |log| <= MaxMessages
    ensures AppendAll(log, payloads) == Newest(log + payloads, MaxMessages)
    decreases |payloads|
  {
    if |payloads| == 0 {
      assert log + payloads == log;
    } else {
      var next := Append(log, payloads[0]);
      assert next == Newest(log + [payloads[0]], MaxMessages);
      AppendAllKeepsNewest(next, payloads[1..]);
      assert log + payloads == (log + [payloads[0]]) + payloads[1..];
      NewestConcat(log + [payloads[0]], payloads[1..]);
    }
  }

  lemma {:induction false} NewestConcat<T>(a: seq<T>, b: seq<T>)
    ensures Newest(Newest(a, MaxMessages) + b, MaxMessages) == Newest(a + b, MaxMessages)
    decreases |b|
  {
    if |b| == 0 {
      assert Newest(a, MaxMessages) + b == Newest(a, MaxMessages);
      assert a + b == a;
    } else {
      var init := b[..|b| - 1];
      var x := b[|b| - 1];
      assert b == init + [x];
      NewestConcat(a, init);
      assert Newest(a, MaxMessages) + b == (Newest(a, MaxMessages) + init) + [x];
      assert a + b == (a + init) + [x];
      NewestOfNewest(Newest(a, MaxMessages) + init, x);
      NewestOfNewest(a + init, x);
    }
  }

  /** `handleClearLogs`. */
  function Clear<T>(log: seq<T>): (r: seq<T>)
    ensures |r| == 0
  {
    []
  }

  const PreviewLength: nat := 100

  /** The preview of a serialised message: itself when short enough,
      otherwise its first 100 characters and an ellipsis. */
  function Preview(s: string): (r: string)
    ensures |s| <= PreviewLength ==> r == s
    ensures |s| > PreviewLength ==> |r| == PreviewLength + 3 && r[PreviewLength..] == "..."
    ensures |s| > PreviewLength ==> r[..PreviewLength] == s[..PreviewLength]
  {
    if |s| > PreviewLength then s[..PreviewLength] + "..." else s
  }

  /** The preview never exceeds 103 characters and always starts like
      the message. */
  lemma PreviewBounded(s: string)
    ensures |Preview(s)| <= PreviewLength + 3
    ensures var n := if |s| < PreviewLength then |s| else PreviewLength; Preview(s)[..n] == s[..n]
  {
  }
}

=== FILE: seq_facts.dfy ===
/** Sequence identities used by several proofs. Stated once, with nothing
    else in scope, they are cheap to prove and cheap to use. */
module SeqFacts {

  lemma AppendAssoc<T>(a: seq<T>, b: seq<T>, c: seq<T>)
    ensures a + b + c == a + (b + c)
  {
  }

  /** Moving the head of `es` onto the end of `done` keeps the whole. */
  lemma ShiftHead<T>(done: seq<T>, es: seq<T>)
    requires |es| > 0
    ensures done + [es[0]] + es[1..] == done + es
  {
    assert es == [es[0]] + es[1..];
    AppendAssoc(done, [es[0]], es[1..]);
  }
}

=== FILE: text.dfy ===
/** String operations the source takes from its languages' standard
    libraries: prefix tests, substring search and removal, splitting at a
    character or at whitespace, trimming, decimal rendering and UTF-8
    encoding. Strings are sequences of Unicode scalar values. */
module Text {

  import opened Wrappers
  import opened SeqFacts

  /** A byte of an encoded string. */
  type Byte = b: int | 0 <= b < 256

  predicate StartsWith(s: string, p: string) {
    |p| <= |s| && s[..|p|] == p
  }

  /** `p` occurs somewhere in `s` (JavaScript `includes`). */
  predicate Contains(s: string, p: string)
    decreases |s|
  {
    StartsWith(s, p) || (|s| > 0 && Contains(s[1..], p))
  }

  /** Removes every occurrence of `pat`, scanning left to right and taking
      non-overlapping matches, as Rust's `str::replace(pat, "")` does. */
  function RemoveAll(s: string, pat: string): (r: string)
    requires |pat| > 0
    ensures |r| <= |s|
    ensures !Contains(s, pat) ==> r == s
    ensures Contains(s, pat) ==> |r| < |s|
    decreases |s|
  {
    if |s| == 0 then []
    else if StartsWith(s, pat) then RemoveAll(s[|pat|..], pat)
    else [s[0]] + RemoveAll(s[1..], pat)
  }

  /** Any occurrence of `pat` brings its last character with it. */
  lemma {:induction false} ContainsHasLastChar(s: string, pat: string)
    requires |pat| > 0
    requires Contains(s, pat)
    ensures pat[|pat| - 1] in s
    decreases |s|
  {
    if StartsWith(s, pat) {
      assert s[|pat| - 1] == pat[|pat| - 1];
    } else {
      ContainsHasLastChar(s[1..], pat);
    }
  }

  /** Removing `pat` from `pat + n` gives `n` when `n` lacks the last
      character of `pat`. */
  lemma RemoveAllLeading(pat: string, n: string)
    requires |pat| > 0
    requires pat[|pat| - 1] !in n
    ensures RemoveAll(pat + n, pat) == n
  {
    var s := pat + n;
    assert s[..|pat|] == pat;
    assert s[|pat|..] == n;
    if Contains(n, pat) {
      ContainsHasLastChar(n, pat);
    }
  }

  /** Removes every occurrence of the character `c` (JavaScript
      `replace(/c/g, '')` for a single character). */
  function RemoveChar(s: string, c: char): (r: string)
    ensures c !in r
    ensures |r| <= |s|
    decreases |s|
  {
    if |s| == 0 then []
    else if s[0] == c then RemoveChar(s[1..], c)
    else [s[0]] + RemoveChar(s[1..], c)
  }

  lemma {:induction false} RemoveCharAppend(a: string, b: string, c: char)
    ensures RemoveChar(a + b, c) == RemoveChar(a, c) + RemoveChar(b, c)
    decreases |a|
  {
    if |a| > 0 {
      assert (a + b)[1..] == a[1..] + b;
      RemoveCharAppend(a[1..], b, c);
    } else {
      assert a + b == b;
    }
  }

  lemma {:induction false} RemoveCharAbsent(s: string, c: char)
    requires c !in s
    ensures RemoveChar(s, c) == s
    decreases |s|
  {
    if |s| > 0 {
      RemoveCharAbsent(s[1..], c);
      assert [s[0]] + s[1..] == s;
    }
  }

  lemma {:induction false} RemoveCharOnly(s: string, c: char)
    requires forall i | 0 <= i < |s| :: s[i] == c
    ensures RemoveChar(s, c) == []
    decreases |s|
  {
    if |s| > 0 {
      RemoveCharOnly(s[1..], c);
    }
  }

  /** Index of the first `c` in `s`. */
  function IndexOf(s: string, c: char): (i: nat)
    requires c in s
    ensures i < |s| && s[i] == c && c !in s[..i]
    decreases |s|
  {
    if s[0] == c then 0
    else
      var j := IndexOf(s[1..], c);
      assert s[..j + 1] == [s[0]] + s[1..][..j];
      j + 1
  }

  /** Rust `split_once(c)`: the parts before and after the first `c`. */
  function SplitOnce(s: string, c: char): (r: Option<(string, string)>)
    ensures r.None? <==> c !in s
    ensures r.Some? ==> s == r.value.0 + [c] + r.value.1 && c !in r.value.0
  {
    if c !in s then None
    else
      var i := IndexOf(s, c);
      assert s == s[..i] + [c] + s[i + 1..];
      Some((s[..i], s[i + 1..]))
  }

  /** Splitting `a + [c] + b` at its first `c` recovers `a` and `b`. */
  lemma SplitOnceAt(a: string, b: string, c: char)
    requires c !in a
    ensures SplitOnce(a + [c] + b, c) == Some((a, b))
  {
    var s := a + [c] + b;
    assert s[..|a|] == a;
    assert s[|a|] == c;
    var i := IndexOf(s, c);
    assert i == |a|;
    assert s[i + 1..] == b;
  }

  /** Rust `char::is_whitespace`: the Unicode White_Space property. */
  predicate IsWhitespace(c: char) {
    var n := c as int;
    (9 <= n <= 13) || n == 32 || n == 0x85 || n == 0xA0 || n == 0x1680
    || (0x2000 <= n <= 0x200A) || n == 0x2028 || n == 0x2029 || n == 0x202F
    || n == 0x205F || n == 0x3000
  }

  predicate AllWhitespace(s: string) {
    forall i | 0 <= i < |s| :: IsWhitespace(s[i])
  }

  predicate NoWhitespace(s: string) {
    forall i | 0 <= i < |s| :: !IsWhitespace(s[i])
  }

  /** `s` neither begins nor ends with whitespace. */
  predicate Trimmed(s: string) {
    |s| == 0 || (!IsWhitespace(s[0]) && !IsWhitespace(s[|s| - 1]))
  }

  function TrimStart(s: string): (r: string)
    ensures |r| <= |s| && r == s[|s| - |r|..]
    ensures AllWhitespace(s[..|s| - |r|])
    ensures |r| == 0 || !IsWhitespace(r[0])
    decreases |s|
  {
    if |s| > 0 && IsWhitespace(s[0]) then
      var r := TrimStart(s[1..]);
      assert s[..|s| - |r|] == [s[0]] + s[1..][..|s| - 1 - |r|];
      r
    else s
  }

  function TrimEnd(s: string): (r: string)
    ensures |r| <= |s| && r == s[..|r|]
    ensures AllWhitespace(s[|r|..])
    ensures |r| == 0 || !IsWhitespace(r[|r| - 1])
    decreases |s|
  {
    if |s| > 0 && IsWhitespace(s[|s| - 1]) then
      var r := TrimEnd(s[..|s| - 1]);
      assert s[|r|..] == s[..|s| - 1][|r|..] + [s[|s| - 1]];
      r
    else s
  }

  lemma SliceOfSuffix(s: string, i: nat, n: nat)
    requires i + n <= |s|
    ensures s[i..][..n] == s[i..i + n]
    ensures s[i..][n..] == s[i + n..]
  {
  }

  /** `r` sits in `s` at offset `i` with only whitespace before and
      after it. */
  predicate CutBetweenWhitespace(s: string, i: nat, r: string) {
    i + |r| <= |s| && r == s[i..i + |r|] && AllWhitespace(s[..i]) && AllWhitespace(s[i + |r|..])
  }

  /** Rust `str::trim`: the longest infix of `s` without whitespace at
      either end, cut out of `s` between two runs of whitespace. */
  function Trim(s: string): (r: string)
    ensures Trimmed(r)
    ensures exists i | 0 <= i <= |s| :: CutBetweenWhitespace(s, i, r)
  {
    var t := TrimStart(s);
    var r := TrimEnd(t);
    var i := |s| - |t|;
    SliceOfSuffix(s, i, |r|);
    assert t == s[i..];
    assert r == t[..|r|];
    assert CutBetweenWhitespace(s, i, r);
    r
  }

  /** A string that is already trimmed is its own trim. */
  lemma TrimOfTrimmed(s: string)
    requires Trimmed(s)
    ensures Trim(s) == s
  {
  }

  /** Trimming twice is trimming once. */
  lemma TrimIdempotent(s: string)
    ensures Trim(Trim(s)) == Trim(s)
  {
    TrimOfTrimmed(Trim(s));
  }

  /** The maximal prefix of `s` without whitespace. */
  function TakeWord(s: string): (w: string)
    ensures |w| <= |s| && w == s[..|w|] && NoWhitespace(w)
    ensures |w| == |s| || IsWhitespace(s[|w|])
    decreases |s|
  {
    if |s| == 0 || IsWhitespace(s[0]) then []
    else
      var w := TakeWord(s[1..]);
      assert [s[0]] + w == s[..|w| + 1];
      [s[0]] + w
  }

  /** A whitespace-separated token: non-empty, without whitespace. */
  predicate IsToken(t: string) {
    |t| > 0 && NoWhitespace(t)
  }

  lemma TakeWordNonEmpty(s: string)
    requires |s| > 0 && !IsWhitespace(s[0])
    ensures IsToken(TakeWord(s))
  {
  }

  lemma TokensCons(w: string, rest: seq<string>)
    requires IsToken(w) && forall k | 0 <= k < |rest| :: IsToken(rest[k])
    ensures forall k | 0 <= k < |[w] + rest| :: IsToken(([w] + rest)[k])
  {
    forall k | 0 <= k < |[w] + rest|
      ensures IsToken(([w] + rest)[k])
    {
      if k > 0 {
        assert ([w] + rest)[k] == rest[k - 1];
      }
    }
  }

  /** Rust `str::split_whitespace`: the maximal runs of non-whitespace. */
  function SplitWhitespace(s: string): (r: seq<string>)
    ensures forall k | 0 <= k < |r| :: IsToken(r[k])
    decreases |s|
  {
    var t := TrimStart(s);
    if |t| == 0 then []
    else
      var w := TakeWord(t);
      TakeWordNonEmpty(t);
      var rest := SplitWhitespace(t[|w|..]);
      TokensCons(w, rest);
      [w] + rest
  }

  /** Tokens joined by single spaces. */
  function JoinSpaced(ts: seq<string>): string {
    if |ts| == 0 then ""
    else if |ts| == 1 then ts[0]
    else ts[0] + " " + JoinSpaced(ts[1..])
  }

  lemma {:induction false} TrimStartSkipsWhitespace(w: string, s: string)
    requires AllWhitespace(w)
    ensures TrimStart(w + s) == TrimStart(s)
    decreases |w|
  {
    if |w| > 0 {
      assert (w + s)[0] == w[0];
      assert (w + s)[1..] == w[1..] + s;
      TrimStartSkipsWhitespace(w[1..], s);
    } else {
      assert w + s == s;
    }
  }

  lemma {:induction false} TakeWordOfWord(w: string, s: string)
    requires NoWhitespace(w)
    requires |s| == 0 || IsWhitespace(s[0])
    ensures TakeWord(w + s) == w
    decreases |w|
  {
    if |w| > 0 {
      assert (w + s)[1..] == w[1..] + s;
      TakeWordOfWord(w[1..], s);
      assert [w[0]] + w[1..] == w;
    } else {
      assert w + s == s;
    }
  }

  /** A leading token is split off whole when whitespace or the end follows it. */
  lemma SplitWhitespaceToken(w: string, rest: string)
    requires IsToken(w)
    requires |rest| == 0 || IsWhitespace(rest[0])
    ensures SplitWhitespace(w + rest) == [w] + SplitWhitespace(rest)
  {
    var s := w + rest;
    assert s[0] == w[0];
    assert TrimStart(s) == s;
    TakeWordOfWord(w, rest);
    assert s[|w|..] == rest;
  }

  /** Leading whitespace does not change the split. */
  lemma SplitWhitespaceSkips(ws: string, s: string)
    requires AllWhitespace(ws)
    ensures SplitWhitespace(ws + s) == SplitWhitespace(s)
  {
    TrimStartSkipsWhitespace(ws, s);
  }

  lemma SplitWhitespaceSingle(w: string)
    requires IsToken(w)
    ensures SplitWhitespace(w) == [w]
  {
    SplitWhitespaceToken(w, "");
    assert w + "" == w;
    assert SplitWhitespace("") == [] by {
      assert TrimStart("") == "";
    }
    assert [w] + [] == [w];
  }

  lemma SplitWhitespaceCons(w: string, rest: string)
    requires IsToken(w)
    ensures SplitWhitespace(w + " " + rest) == [w] + SplitWhitespace(rest)
  {
    assert w + " " + rest == w + (" " + rest);
    SplitWhitespaceToken(w, " " + rest);
    SplitWhitespaceSkips(" ", rest);
  }

  /** One step of the round trip: a token in front of a joined tail. */
  lemma SplitJoinCons(ts: seq<string>)
    requires |ts| > 1 && IsToken(ts[0])
    requires SplitWhitespace(JoinSpaced(ts[1..])) == ts[1..]
    ensures SplitWhitespace(JoinSpaced(ts)) == ts
  {
    var rest := JoinSpaced(ts[1..]);
    assert JoinSpaced(ts) == ts[0] + " " + rest;
    SplitWhitespaceCons(ts[0], rest);
    assert ts == [ts[0]] + ts[1..];
  }

  /** Splitting at whitespace undoes joining with single spaces. */
  lemma {:induction false} SplitJoinRoundTrip(ts: seq<string>)
    requires forall k | 0 <= k < |ts| :: IsToken(ts[k])
    ensures SplitWhitespace(JoinSpaced(ts)) == ts
    decreases |ts|
  {
    if |ts| == 1 {
      assert ts == [ts[0]];
      SplitWhitespaceSingle(ts[0]);
    } else if |ts| > 1 {
      var tail := ts[1..];
      assert forall k | 0 <= k < |tail| :: tail[k] == ts[k + 1];
      SplitJoinRoundTrip(tail);
      SplitJoinCons(ts);
    }
  }

  // Decimal digits

  predicate IsDigit(c: char) {
    '0' <= c <= '9'
  }

  predicate AllDigits(s: string) {
    forall i | 0 <= i < |s| :: IsDigit(s[i])
  }

  function DigitChar(d: nat): (c: char)
    requires d < 10
    ensures IsDigit(c)
  {
    (48 + d) as char
  }

  function DigitValue(c: char): (d: nat)
    requires IsDigit(c)
    ensures d < 10
  {
    c as int - 48
  }

  /** The number a run of decimal digits denotes. */
  function DigitsValue(s: string): nat
    requires AllDigits(s)
    decreases |s|
  {
    if |s| == 0 then 0 else DigitsValue(s[..|s| - 1]) * 10 + DigitValue(s[|s| - 1])
  }

  /** Shortest decimal rendering of `n`, as JavaScript's `String(n)` and
      Rust's `Display` write a non-negative integer. */
  function NatToString(n: nat): (r: string)
    ensures |r| > 0 && AllDigits(r)
    ensures n >= 10 <==> |r| > 1
    decreases n
  {
    if n < 10 then [DigitChar(n)] else NatToString(n / 10) + [DigitChar(n % 10)]
  }

  /** Reading back a rendered number gives the number. */
  lemma {:induction false} NatToStringRoundTrip(n: nat)
    ensures DigitsValue(NatToString(n)) == n
    decreases n
  {
    var s := NatToString(n);
    if n >= 10 {
      assert s[..|s| - 1] == NatToString(n / 10);
      NatToStringRoundTrip(n / 10);
    }
  }

  /** Rendering of an integer, with a leading `-` when negative. */
  function IntToString(i: int): (r: string)
    ensures i >= 0 ==> r == NatToString(i)
    ensures i < 0 ==> r == "-" + NatToString(-i)
  {
    if i < 0 then "-" + NatToString(-i) else NatToString(i)
  }

  /** JavaScript `String(n).padStart(2, '0')`. */
  function Pad2(n: nat): (r: string)
    ensures n < 100 ==> |r| == 2
    ensures AllDigits(r)
  {
    var s := NatToString(n);
    if |s| < 2 then "0" + s else s
  }

  lemma Pad2Value(n: nat)
    ensures DigitsValue(Pad2(n)) == n
  {
    var s := NatToString(n);
    NatToStringRoundTrip(n);
    if |s| < 2 {
      var p := "0" + s;
      assert p[..|p| - 1] == "0";
      assert p[|p| - 1] == s[0];
      assert s[..0] == "";
    }
  }

  /** ASCII-range lowercasing, as JavaScript `toLowerCase` acts on ASCII. */
  function ToLowerAscii(s: string): (r: string)
    ensures |r| == |s|
    ensures forall i | 0 <= i < |s| :: r[i] == LowerChar(s[i])
  {
    seq(|s|, i requires 0 <= i < |s| => LowerChar(s[i]))
  }

  function LowerChar(c: char): char {
    if 'A' <= c <= 'Z' then (c as int + 32) as char else c
  }

  // UTF-8

  /** UTF-8 encoding of one scalar value. */
  function EncodeChar(c: char): (r: seq<Byte>)
    ensures 1 <= |r| <= 4
    ensures c as int < 128 <==> |r| == 1
    ensures c as int < 128 ==> r == [c as int]
    ensures c as int >= 128 ==> forall i | 0 <= i < |r| :: r[i] >= 128
  {
    var n := c as int;
    if n < 0x80 then [n]
    else if n < 0x800 then [0xC0 + n / 64, 0x80 + n % 64]
    else if n < 0x10000 then [0xE0 + n / 4096, 0x80 + (n / 64) % 64, 0x80 + n % 64]
    else [0xF0 + n / 262144, 0x80 + (n / 4096) % 64, 0x80 + (n / 64) % 64, 0x80 + n % 64]
  }

  /** Rust `str::as_bytes`: the UTF-8 encoding of the whole string. */
  function Utf8Encode(s: string): (r: seq<Byte>)
    ensures |r| >= |s|
    ensures |r| == |s| <==> IsAscii(s)
    decreases |s|
  {
    if |s| == 0 then []
    else
      assert IsAscii(s) <==> s[0] as int < 128 && IsAscii(s[1..]) by {
        if s[0] as int < 128 && IsAscii(s[1..]) {
          forall i | 0 < i < |s|
            ensures s[i] as int < 128
          {
            assert s[i] == s[1..][i - 1];
          }
        }
      }
      EncodeChar(s[0]) + Utf8Encode(s[1..])
  }

  predicate IsAscii(s: string) {
    forall i | 0 <= i < |s| :: s[i] as int < 128
  }

  /** An ASCII string encodes to its own character codes, one byte each. */
  lemma {:induction false} Utf8EncodeAscii(s: string)
    requires IsAscii(s)
    ensures |Utf8Encode(s)| == |s|
    ensures forall i | 0 <= i < |s| :: Utf8Encode(s)[i] == s[i] as int
    decreases |s|
  {
    if |s| > 0 {
      Utf8EncodeAscii(s[1..]);
    }
  }

  /** Encoding distributes over concatenation: each character is encoded
      on its own. */
  lemma {:induction false} Utf8EncodeAppend(a: string, b: string)
    ensures Utf8Encode(a + b) == Utf8Encode(a) + Utf8Encode(b)
    decreases |a|
  {
    if |a| > 0 {
      assert (a + b)[0] == a[0];
      assert (a + b)[1..] == a[1..] + b;
      Utf8EncodeAppend(a[1..], b);
      AppendAssoc(EncodeChar(a[0]), Utf8Encode(a[1..]), Utf8Encode(b));
    } else {
      assert a + b == b;
    }
  }
}

=== FILE: wrappers.dfy ===
/** Failure-compatible wrappers shared by every module of the model:
    `Option` for the source's `Option`/`null`/`undefined`, `Result` for its
    `Result<_, String>` returns. */
module Wrappers {

  datatype Option<+T> = None | Some(value: T) {

    /** The wrapped value, or `default` when there is none. */
    function GetOr(default: T): T {
      match this
      case Some(v) => v
      case None => default
    }
  }

  datatype Result<+R, +E> = Success(value: R) | Failure(error: E) {

    predicate IsFailure() {
      Failure?
    }

    function PropagateFailure<U>(): Result<U, E>
      requires Failure?
    {
      Failure(error)
    }

    function Extract(): R
      requires Success?
    {
      value
    }
  }
}
